=== FILE: README.md ===
# xml-java in Dafny

A functional model of the `qub` XML library: the recursive-descent parser of
`XML.java`, the document tree it builds (`XMLDocument`, `XMLDeclaration`,
`XMLElement`, `XMLAttribute`, `XMLText`, `XMLComment`, `XMLCData`), the
serialiser that writes the tree back as text, and `XMLFormat`.

- The parser reads a `string` from an index `i` and returns
  `Result<Parsed<T>>`: the value read and the index after it, or the error the
  library throws. The four error kinds are:
  - `ParseError`, with the exact message text;
  - `NotFound`;
  - `PreConditionFailure`, for the empty declaration version, which the library
    reports as a broken precondition of `setVersion` rather than as a parse
    error, and for `setSplit(false)` refused because a child is not
    whitespace text;
  - `ClassCastFailure`, for `setSplit(false)` over a comment or CDATA child.
- The tree is immutable. Each mutator of `XMLElement` becomes a function that
  returns the updated element. A mutator that also hands something back returns
  a pair.
- Attributes are kept as an insertion-ordered association list that is updated
  in place. Element equality compares them as maps (`ElementEq`).
- Rendering is `RenderElement(e, format, depth)`. The indenting stream of the
  library is replaced by a depth: each format newline is followed by the single
  indent repeated `depth` times.
- Characters are Dafny `char`s. The name and whitespace productions are those
  of section 2.3 of XML 1.0 (Fifth Edition), restricted to the Basic
  Multilingual Plane as in the library.

Modules follow the source files:

| module | models |
|---|---|
| `XmlCharacters` | the character predicates |
| `XmlLexer` | names, whitespace, quoted strings, attributes, text, `expect` / `expectAndTake` |
| `XmlSections` | the comment and CDATA scanners |
| `XmlElementParser` | elements |
| `XmlDocumentParser` | the declaration and the document |
| `XmlAttribute`, `XmlAttributeMap`, `XmlElement`, `XmlElementChildren`, `XmlDeclaration`, `XmlDocument`, `XmlText`, `XmlComment`, `XmlCData` | the tree |
| `XmlElementRender` | element rendering |
| `XmlFormat` | the format |
| `XmlElementRoundTrip`, `XmlDocumentRoundTrip` | reading back what was written |

The round-trip theorems are the partners of the renderers and the parser.

- An element written in any whitespace format is parsed back as an equal
  element. The element must be one the written form can express exactly.
- A declaration whose values hold no `"` is parsed back field for field. Its
  values are written between plain double quotes, which stand in for
  `Strings.escapeAndQuote`; that helper's escaping is not part of this model.
- A document is parsed back as an equal document.

`XMLFormat.java` declares only the space before `?>`, and its `pretty` preset
sets only that space. The element and document renderers nevertheless call
`getNewLine()` and `getSingleIndent()`, and the format tests expect all three
fields. The model follows the tests. Its format has three whitespace fields,
and `pretty` is a line feed, two spaces and one space.

## Model

| member | source | states |
|---|---|---|
| XmlCharacters.NameStartCharacterMatchesProduction | sources/qub/XML.java:668-685 | a character is a name start character exactly when it lies in one of the NameStartChar ranges of section 2.3 of XML 1.0, restricted to the BMP |
| XmlCharacters.NameCharacterMatchesProduction | sources/qub/XML.java:694-703 | a character is a name character exactly when it is a name start character or lies in the extra NameChar ranges (`-`, `.`, digits, U+00B7, U+0300–U+036F, U+203F–U+2040) |
| XmlCharacters.NameStartRangeIsNameStart | sources/qub/XML.java:668-685 | every character of every NameStartChar range passes the name start test |
| XmlCharacters.WhitespaceTextIsAll | sources/qub/XML.java:712-718 | a text counts as whitespace exactly when every character in it is one of the four XML whitespace characters |
| XmlLexer.Expect | sources/qub/XML.java:746-760 | succeeds exactly when a character is there and passes the test; otherwise "Missing d." at the end of input and "Expected d." on a wrong character |
| XmlLexer.ExpectAndTake | sources/qub/XML.java:762-770 | on success consumes exactly the one character it checked; fails exactly as `Expect` does |
| XmlLexer.Take | sources/qub/XML.java:720-726 | the single-character form: succeeds exactly on that character and consumes it; Missing at the end of input, Expected on any other character |
| XmlLexer.Span | sources/qub/XML.java:624-627 | the run read is the longest one whose characters all pass the test: all of them pass, and the next character does not |
| XmlLexer.SpanStopsAt | sources/qub/XML.java:547-550 | any end index with all characters passing and a failing or missing next character is where the run stops |
| XmlLexer.ParseName | sources/qub/XML.java:613-635 | succeeds exactly at a name start character; the name read is the slice it consumed, is an XML name, and stops at the first non-name character; the two error messages are joined with the description |
| XmlLexer.ParseNameReads | sources/qub/XML.java:613-635 | a name followed by a non-name character or the end of input is read as exactly that name |
| XmlLexer.ParseOptionalWhitespace | sources/qub/XML.java:538-558 | consumes the whole run of whitespace at the index, possibly empty, and returns it |
| XmlLexer.ParseWhitespace | sources/qub/XML.java:517-529 | succeeds exactly at a whitespace character, reading the same run as the optional form; "Missing whitespace." or "Expected whitespace." otherwise |
| XmlLexer.WhitespaceReads | sources/qub/XML.java:538-558 | a whitespace run followed by a non-whitespace character or the end of input is read as exactly that run |
| XmlLexer.ParseQuotedString | sources/qub/XML.java:560-594 | succeeds exactly when a quote character is followed later by the same quote; the result is quote + body + quote with no such quote in the body; the start-quote and end-quote error messages |
| XmlLexer.QuotedStringReads | sources/qub/XML.java:560-594 | a quoted value whose body holds no copy of its quote is read back as exactly that quoted value |
| XmlLexer.ParseAttributeValue | sources/qub/XML.java:499-505 | the value read is a quoted string whose body holds no copy of its own quote; it is the text just before the index returned, and before it come only whitespace, one `=` and whitespace; without the `=` the outcome is Missing or Expected "d equals sign ('=')", and after it the outcome is exactly that of reading the quoted value, with its messages |
| XmlLexer.AttributeValueReads | sources/qub/XML.java:499-505 | `=` followed by a quoted value is read back as that quoted value, ending just after the closing quote |
| XmlLexer.SpacedAttributeValueReads | sources/qub/XML.java:499-505 | any whitespace, `=`, any whitespace and a quoted value are read back as that quoted value, ending just after the closing quote |
| XmlLexer.ParseAttribute | sources/qub/XML.java:485-509 | a read attribute is valid, its name is an XML name and is the expected one when one is given; its text starts with the name and ends, at the index returned, with the value between its quote characters; a different name gives "Expected d attribute."; no name start gives the name's Missing or Expected message, and a failure after an accepted name is the failure of reading the value |
| XmlLexer.ParseAttributeReads | sources/qub/XML.java:485-509 | a written attribute `name="value"` (or single-quoted) is read back as the same attribute |
| XmlLexer.AttributeSteps | sources/qub/XML.java:485-509 | a name read up to `=` and then a quoted value make up the attribute with that name, unquoted value and quote |
| XmlLexer.ParseText | sources/qub/XML.java:637-659 | the text run is the maximal slice up to the next `<` or the end, holds no `<`, and is flagged as whitespace exactly when it is all whitespace |
| XmlLexer.TextReads | sources/qub/XML.java:637-659 | a non-empty run without `<` that is followed by `<` or the end is read as exactly that run |
| XmlSections.PendingMarks | sources/qub/XML.java:368-398 | the count of held-back marks is at most two, and is two exactly when the last two characters scanned are the mark |
| XmlSections.Scan | sources/qub/XML.java:368-398 | the terminator scan stops at the first `mm>` after the start, or at the end of input with the marks still pending |
| XmlSections.StepKeepsInvariant | sources/qub/XML.java:431-461 | one scan step keeps the loop invariant: scanned text == text + count marks, with count = min(2, trailing run of marks) |
| XmlSections.FirstTerminatorText | sources/qub/XML.java:368-398 | the text before the first terminator contains no terminator |
| XmlSections.SectionOutcome | sources/qub/XML.java:368-409 | the shared section scanner succeeds exactly when a terminator follows, returning the text before the first one; at the end of input it fails with the message for 0, 1 or 2 pending marks |
| XmlSections.SectionReads | sources/qub/XML.java:368-398 | a body without a terminator, followed by the terminator, is read back as that body |
| XmlSections.ParseComment | sources/qub/XML.java:359-413 | succeeds exactly after `--` when `-->` follows; the comment text is everything up to the first `-->`, extra dashes included; Missing or Expected at the first and second left dash; the first-dash, second-dash and angle-bracket messages at the end of input |
| XmlSections.CommentReads | sources/qub/XML.java:359-413 | a comment body without `-->` written as `--body-->` is read back as that comment |
| XmlSections.ParseCDataOpening | sources/qub/XML.java:421-429 | a successful opening is exactly `[CDATA[`; Missing or Expected at the first bracket, the name's own failure, "Expected CDATA tag name (\"CDATA\")" for another name, and Missing or Expected at the second bracket |
| XmlSections.CDataOpeningReads | sources/qub/XML.java:421-429 | the opening is accepted exactly when the text starts with `[CDATA[` |
| XmlSections.ParseCData | sources/qub/XML.java:415-476 | succeeds exactly after `[CDATA[` when `]]>` follows; the CDATA text is everything up to the first `]]>`; the messages for 0, 1 or 2 pending brackets at the end of input |
| XmlSections.CDataReads | sources/qub/XML.java:415-476 | a body without `]]>` written as `[CDATA[body]]>` is read back as that CDATA section |
| XmlElementParser.ParseAttributes | sources/qub/XML.java:245-253 | the attribute loop reads attributes while whitespace comes, stops at a non-whitespace character, and returns valid attributes with XML names |
| XmlElementParser.ParseStartTag | sources/qub/XML.java:236-264 | a start tag has an XML name and valid attributes; a missing or wrong first character gives the joined "start tag or empty element name start character" messages |
| XmlElementParser.ParseTagClose | sources/qub/XML.java:256-264 | `/>` gives an empty element and `>` a split one, with the index just after them; each failure gives its exact message for `/` not followed by `>` or for no `>` |
| XmlElementParser.Opened | sources/qub/XML.java:256-266 | the element opened by a start tag has its name and attributes and no children, and is split unless the tag was empty |
| XmlElementParser.ParseEndTag | sources/qub/XML.java:286-295 | an end tag is an XML name followed by `>`; "Missing end tag name." or "Expected end tag name." otherwise |
| XmlElementParser.EndTagStep | sources/qub/XML.java:286-305 | an end tag closes the element exactly when its name equals the element's; a different name gives "Expected an end tag with the name same as the current element." |
| XmlElementParser.ParseElementAtName | sources/qub/XML.java:236-357 | a read element is of the parsed form (XML names, no children when not split, no comment, no whitespace-only text, no text holding `<`) and valid; no name start character means failure |
| XmlElementParser.ParseContent | sources/qub/XML.java:266-350 | the content loop only adds children in the parsed form; end of input before the end tag is "Missing end tag." |
| XmlElementParser.ContentStep | sources/qub/XML.java:266-343 | one content step: `<` at the end is "Missing tag name.", `<?` is refused as a declaration out of place, an unexpected tag start character is refused by name |
| XmlElementParser.MarkupStep | sources/qub/XML.java:273-335 | the same refusals for markup inside an element; a finished step leaves the element as it was |
| XmlElementParser.ChildStep | sources/qub/XML.java:323-333 | a child element read inside an element adds exactly one child |
| XmlElementParser.BangStep | sources/qub/XML.java:307-321 | after `<!`, only `-` or `[` may follow, with the Missing or Expected message otherwise |
| XmlElementParser.AddParsedChild | sources/qub/XML.java:323-343 | adding a child of the parsed form keeps the element valid and of the parsed form |
| XmlDocumentParser.ParseOptional | sources/qub/XML.java:112-156 | one optional pseudo-attribute: `s` reads standalone, `e` reads the encoding only while none was read, and any other name is refused with the message listing what may still come |
| XmlDocumentParser.ParseOptionals | sources/qub/XML.java:108-157 | the loop keeps an encoding once read, reads nothing after a standalone value, and stops before a non-whitespace character |
| XmlDocumentParser.ParseDeclaration | sources/qub/XML.java:87-160 | a read declaration ends with `?>` and its optional values are valid; a missing or wrong name start, or a name other than `xml`, gives "declaration name ("xml")" |
| XmlDocumentParser.DeclarationBody | sources/qub/XML.java:99-160 | the version read is the value of the `version` pseudo-attribute |
| XmlDocumentParser.DeclarationRest | sources/qub/XML.java:101-104 | end of input right after the version gives "Missing declaration right question mark ('?')." |
| XmlDocumentParser.DeclarationClose | sources/qub/XML.java:159-160 | the declaration closes exactly on `?>` |
| XmlDocumentParser.BuildDeclaration | sources/qub/XML.java:171-181 | the built declaration holds the version read and the encoding and standalone values when read, or defaults otherwise; an empty version is a precondition failure of `setVersion` |
| XmlDocumentParser.DeclarationStep | sources/qub/XML.java:162-181 | a second declaration is refused before a declaration that is not the first segment, and both only after the declaration was read whole |
| XmlDocumentParser.BangAtRoot | sources/qub/XML.java:187-201 | a top-level comment is dropped and the document is unchanged; a top-level CDATA section is refused once read |
| XmlDocumentParser.RootElementStep | sources/qub/XML.java:203-212 | a second root element is refused only after it has been read whole; otherwise the element read becomes the root |
| XmlDocumentParser.RootMarkup | sources/qub/XML.java:76-219 | `<` at the end is "Missing tag name.", `</` at the top level is refused, an unexpected tag start character is refused by name |
| XmlDocumentParser.RootStep | sources/qub/XML.java:72-229 | top-level text must be all whitespace; only a first-segment declaration sets the declaration and only an element sets the root |
| XmlDocumentParser.ParseDocumentFrom | sources/qub/XML.java:70-231 | the document loop never replaces a root once set, and sets the declaration only from the first segment |
| XmlDocumentParser.Parse | sources/qub/XML.java:62-234 | a parsed document has a valid declaration and a root of the parsed form; a declaration comes only from text starting with `<?` |
| XmlAttribute.Create | sources/qub/XMLAttribute.java:41-44 | an attribute created without a quote has the given name and value and the double quote |
| XmlAttribute.CreateWithQuote | sources/qub/XMLAttribute.java:12-21 | the quote must be `'` or `"` and the name non-empty; the fields are as given |
| XmlAttribute.CreateWithQuotedValue | sources/qub/XMLAttribute.java:23-32 | the value is the quoted text without its quotes, and the quote is its first character; quoting them again gives the original text |
| XmlAttribute.QuotedValueRoundTrip | sources/qub/XMLAttribute.java:23-32 | quoting a value and creating from it gives back the same name, value and quote |
| XmlAttribute.EscapeHasNoQuote | sources/qub/XMLAttribute.java:98-118 | the escaped value contains no copy of the quote |
| XmlAttribute.EscapeWithoutQuote | sources/qub/XMLAttribute.java:101-107 | a value without the quote is written unchanged, so the other quote and `<` pass through verbatim |
| XmlAttribute.EscapeLength | sources/qub/XMLAttribute.java:108-116 | each quote grows by five characters (`&#x22;` or `&#x27;`) and nothing else changes length |
| XmlAttribute.EscapeAppend | sources/qub/XMLAttribute.java:98-118 | escaping distributes over concatenation |
| XmlAttribute.IndexOfFirst | sources/qub/XMLAttribute.java:100-116 | the index found is the first occurrence at or after the start; -1 means there is none |
| XmlAttribute.EscapeByIndexOf | sources/qub/XMLAttribute.java:98-118 | the `indexOf` loop writes exactly the character-by-character escape of the value |
| XmlAttribute.Render | sources/qub/XMLAttribute.java:94-120 | the attribute is written as name, `=`, quote, escaped value, quote, and no quote occurs between the delimiting quotes |
| XmlAttributeMap.Lookup | sources/qub/XMLElement.java:87-93 | a lookup finds a value exactly for the keys of the map view, and finds that key's value |
| XmlAttributeMap.Put | sources/qub/XMLElement.java:55-62 | setting a key updates the map view at that key and keeps keys unique; a new key is appended at the end, and an existing one takes the value where it stands, every other entry staying in its place |
| XmlAttributeMap.Delete | sources/qub/XMLElement.java:110-121 | deleting a key removes exactly that key from the map view |
| XmlElement.Create | sources/qub/XMLElement.java:10-28 | a created element has the given non-empty name and split flag, and no attributes or children |
| XmlElement.CreateNamed | sources/qub/XMLElement.java:20-23 | `create(name)` is not split |
| XmlElement.SetSplit | sources/qub/XMLElement.java:46-53 | `setSplit(true)` always succeeds; `setSplit(false)` succeeds exactly when every child is whitespace text, fails with a class cast when a comment or CDATA child comes after whitespace only, and with the setSplit precondition failure otherwise; only the flag changes |
| XmlElement.ContainsBlockingChild | sources/qub/XMLElement.java:48 | the check scans up to the first non-whitespace child: none means no blocker, an element or other text blocks, and a comment or CDATA fails the cast |
| XmlElement.SetAttribute | sources/qub/XMLElement.java:55-62 | after setting, the name maps to the value, the other attributes are unchanged, and the rest of the element is untouched; a name already present keeps its position in the written order, a new one goes last |
| XmlElement.SetThenGetAttribute | sources/qub/XMLElement.java:55-93 | reading an attribute just set gives its value; reading another name gives what it gave before |
| XmlElement.SetAttributeFrom | sources/qub/XMLElement.java:64-69 | setting from an attribute object uses its name and value and drops its quote |
| XmlElement.SetAttributes | sources/qub/XMLElement.java:71-80 | setting a sequence of attributes overrides the map with the later attributes winning |
| XmlElement.GetAttributes | sources/qub/XMLElement.java:82-85 | the attributes come back one per entry, in order: the k-th has the k-th entry's name and value and the double quote |
| XmlElement.GetAttributesRoundTrip | sources/qub/XMLElement.java:71-85 | setting the attributes got from an element onto a fresh element gives the same attribute map |
| XmlElement.GetAttributeValue | sources/qub/XMLElement.java:87-93 | succeeds exactly for a present name, with its value; NotFound otherwise |
| XmlElement.ClearAttributes | sources/qub/XMLElement.java:99-103 | the attribute map becomes empty and nothing else changes |
| XmlElement.RemoveAttribute | sources/qub/XMLElement.java:110-121 | succeeds exactly for a present name, returning a double-quoted attribute with the old value and removing only that name; NotFound otherwise |
| XmlElement.AddChild | sources/qub/XMLElement.java:281-288 | the child is appended at the end and the element becomes split |
| XmlElement.AddChildren | sources/qub/XMLElement.java:290-310 | the children are appended in order; the element becomes split when any were added |
| XmlElement.ClearChildren | sources/qub/XMLElement.java:316-320 | the children are removed and the split flag is kept |
| XmlElement.ElementEqReflexive | sources/qub/XMLElement.java:482-489 | element equality is reflexive |
| XmlElement.ElementEqSymmetric | sources/qub/XMLElement.java:482-489 | element equality is symmetric |
| XmlElement.ElementEqTransitive | sources/qub/XMLElement.java:482-489 | element equality is transitive |
| XmlElementChildren.ElementsWhereMembers | sources/qub/XMLElement.java:160-166 | the filtered elements are exactly the element children that satisfy the condition |
| XmlElementChildren.MatchPositions | sources/qub/XMLElement.java:160-166 | the positions of the matching children, increasing: every position listed holds a match and every match is listed |
| XmlElementChildren.ElementsWhereInOrder | sources/qub/XMLElement.java:160-166 | the filter lists the matching children one for one, in the order of their positions |
| XmlElementChildren.GetElementChildren | sources/qub/XMLElement.java:136-144 | the element children are exactly the children that are elements, one per element child and in the children's order |
| XmlElementChildren.GetElementChildrenNamed | sources/qub/XMLElement.java:146-158 | the named element children are exactly the element children with that name, one per such child and in the children's order |
| XmlElementChildren.GetElementChildrenWhere | sources/qub/XMLElement.java:160-166 | the element children matching the condition and only those, one per matching child and in the children's order |
| XmlElementChildren.FilterStartsAtFirstMatch | sources/qub/XMLElement.java:175-203 | the filter is empty exactly when there is no match, and otherwise starts with the first matching child |
| XmlElementChildren.GetFirstElementChildWhere | sources/qub/XMLElement.java:190-203 | succeeds exactly when some child matches, returning the first match; NotFound otherwise |
| XmlElementChildren.GetFirstElementChildNamed | sources/qub/XMLElement.java:175-188 | the first element child with that name, or NotFound when there is none |
| XmlElementChildren.GetFirstOrCreateElementChildWhere | sources/qub/XMLElement.java:257-274 | returns the first match and leaves the parent unchanged, or appends the created element and returns it |
| XmlElementChildren.GetFirstOrCreateElementChildNamed | sources/qub/XMLElement.java:213-226 | returns the first child with that name and leaves the parent unchanged; when there is none, appends a new element of that name that is not split, makes the parent split and returns the new element; either way `getFirstElementChild` then finds the one returned |
| XmlElementChildren.FirstMatchAfterAppend | sources/qub/XMLElement.java:257-274 | when nothing matched, the appended match is the first match |
| XmlElementChildren.RemoveChild | sources/qub/XMLElement.java:327-338 | succeeds exactly when an equal child exists and removes only the first one; NotFound otherwise |
| XmlElementChildren.KeepWhereMembers | sources/qub/XMLElement.java:358-386 | the kept children are exactly the children that are not matching elements |
| XmlElementChildren.RemoveFirstMatchSplits | sources/qub/XMLElement.java:358-386 | taking out the first match splits the children into the same kept and removed lists |
| XmlElementChildren.RemoveAllMatches | sources/qub/XMLElement.java:358-386 | the removal loop keeps exactly the non-matching children in order and collects the matches in order |
| XmlElementChildren.RemoveElementChildrenWhere | sources/qub/XMLElement.java:358-386 | succeeds exactly when some child matches: the matches are removed and returned in order, the others keep their order; NotFound otherwise |
| XmlElementChildren.RemoveElementChildrenNamed | sources/qub/XMLElement.java:345-356 | succeeds exactly when some element child has that name: those children are removed and returned in order, and the others keep their order; NotFound naming it otherwise |
| XmlElementRender.RenderElementBounds | sources/qub/XMLElement.java:400-474 | an element's text starts with `<` and its name; when split, whatever the layout of its children, it is at least the open tag, `>` and the close tag long and ends with `</name>`; the unsplit case (open tag then `/>`) is the writer's first branch; `XmlElementRoundTrip.RoundTrip` reads the whole text back |
| XmlElementRender.RenderWithoutWhitespace | sources/qub/XMLElement.java:400-474 | in a format with no newline and no indent, an element is written as its flat form: no whitespace between any tags |
| XmlElementRender.ConciseIsFlat | sources/qub/XMLElement.java:389-397 | the no-argument `toString` writes the flat form |
| XmlElementRender.RenderIsLayout | sources/qub/XMLElement.java:430-465 | for a tree without text, the written form is its line layout: each tag on its own line, indented by its depth |
| XmlElementRender.ChildrenLayout | sources/qub/XMLElement.java:436-464 | children without text are each written after a newline one level deeper, then a newline at the parent's depth |
| XmlElementRender.LineBreak | sources/qub/XMLElement.java:445-450 | a line break starts with the format's newline |
| XmlElementRender.OpenTag | sources/qub/XMLElement.java:410-411 | a written element starts with `<` and its name |
| XmlElementRoundTrip.RoundTrip | sources/qub/XML.java:236-357 | an element written in a whitespace format and read back from its name is an equal element, using up the whole text |
| XmlElementRoundTrip.ElementReads | sources/qub/XMLElement.java:400-474 | a written element inside any text is read back as an equal element ending where the writing ended |
| XmlElementRoundTrip.AttributesReads | sources/qub/XMLElement.java:413-420 | attributes written as ` k="v"` are read back as the same attribute map |
| XmlElementRoundTrip.ChildrenReads | sources/qub/XMLElement.java:430-465 | written children, with the line breaks between them, are read back as equal children |
| XmlDocumentRoundTrip.DeclarationReads | sources/qub/XMLDeclaration.java:128-144 | a written declaration is read back with its version and its present encoding and standalone values |
| XmlDocumentRoundTrip.BuildWrittenDeclaration | sources/qub/XML.java:171-181 | what is read back from a written declaration builds the same declaration |
| XmlDocumentRoundTrip.DeclarationRoundTrip | sources/qub/XMLDeclaration.java:118-148 | a declaration whose values hold no `"`, written on its own with its values between plain double quotes, is parsed as a document with exactly that declaration and no root |
| XmlDocumentRoundTrip.WhitespaceIsEmptyDocument | sources/qub/XML.java:221-227 | whitespace-only text, the empty text included, parses as the empty document |
| XmlDocumentRoundTrip.DocumentRoundTrip | sources/qub/XMLDocument.java:57-85 | a document written in a whitespace format is parsed back as an equal document |
| XmlDeclaration.Create | sources/qub/XMLDeclaration.java:14-28 | a new declaration has version "1.0" and empty encoding and standalone |
| XmlDeclaration.SetVersion | sources/qub/XMLDeclaration.java:48-54 | only a non-empty version is accepted and only the version changes |
| XmlDeclaration.SetEncoding | sources/qub/XMLDeclaration.java:74-80 | any encoding, the empty one included, is accepted and only the encoding changes |
| XmlDeclaration.SetStandalone | sources/qub/XMLDeclaration.java:103-110 | only "", "no" or "yes" is accepted and only the standalone value changes |
| XmlDeclaration.OptionalPseudoAttribute | sources/qub/XMLDeclaration.java:131-141 | an optional pseudo-attribute is written exactly when its value is not empty |
| XmlDeclaration.Render | sources/qub/XMLDeclaration.java:128-144 | the declaration starts with `<?xml version="` and ends with `?>`; without optional values it is the quoted version, the format's space, then `?>` |
| XmlDocument.Create | sources/qub/XMLDocument.java:11-22 | a new document has no declaration and no root |
| XmlDocument.SetDeclaration | sources/qub/XMLDocument.java:24-28 | only the declaration is replaced, and absent is allowed |
| XmlDocument.SetRoot | sources/qub/XMLDocument.java:35-39 | only the root is replaced, and absent is allowed |
| XmlDocument.RenderOpening | sources/qub/XMLDocument.java:57-85 | a document's text is empty exactly when it has neither part, and starts with `<?` exactly when it has a declaration (for a root named like an XML name); `XmlDocumentRoundTrip.DocumentRoundTrip` reads it back |
| XmlDocument.DocumentEqIsEquivalence | sources/qub/XMLDocument.java:93-98 | document equality is reflexive, symmetric and transitive |
| XmlText.Create | sources/qub/XMLText.java:16-21 | the text must be non-empty, and its whitespace flag is true exactly when every character is whitespace |
| XmlText.CreateWithFlag | sources/qub/XMLText.java:23-28 | the given flag is stored as it is |
| XmlElementRoundTrip.TextChildReads | sources/qub/XMLText.java:47-54 | children that start with a text child, the text written verbatim, are read back as equal children after those already read, and the parent keeps its name and attributes |
| XmlComment.Create | sources/qub/XMLComment.java:14-24 | any text, the empty one included, is kept as given |
| XmlComment.Render | sources/qub/XMLComment.java:32-48 | a comment is written as `<!--`, its text unchanged, then `-->` |
| XmlCData.Create | sources/qub/XMLCData.java:14-24 | any text, the empty one included, is kept as given |
| XmlCData.Render | sources/qub/XMLCData.java:32-48 | a CDATA section is written as `<![CDATA[`, its text unchanged, then `]]>` |
| XmlFormat.Create | sources/qub/XMLFormat.java:16-28 | a new format writes no whitespace at all |
| XmlFormat.Concise | sources/qub/XMLFormat.java:8-9 | the concise preset has an empty newline, indent and space |
| XmlFormat.Pretty | tests/qub/XMLFormatTests.java:27-33 | the pretty preset is a line feed, two spaces and one space |
| XmlFormat.SetSpaceBeforeDeclarationEnd | sources/qub/XMLFormat.java:35-42 | only XML whitespace is accepted, and only that field changes |
| XmlStrings.Quote | sources/qub/XMLDeclaration.java:129 | a declaration value is written between double quotes |

## Left out

- `XML.parse(File)` (sources/qub/XML.java:18-31) is left out: it reads a file and decodes bytes.
- The `parse(String)` and `parse(Iterable)` overloads are left out: they only start the iterator that `Parse` models.
- The `XML.toString` helpers (sources/qub/XML.java:809-830) and the character counts that every `toString(stream, format)` returns are left out. They are stream plumbing, and rendering is modelled as pure string functions.
- `IndentedCharacterWriteStream` is not modelled. Its indentation is replaced by a depth: each format newline the writer itself emits is followed by the indent repeated `depth` times. Text, comment and CDATA children are written unchanged at every depth, including any line feed they hold. Whether the stream inserts the indent after such a line feed below the root (sources/qub/XMLElement.java:432-442) is not visible, so this is an assumption about the stream, and the round-trip theorems (`XmlElementRoundTrip.RoundTrip`, `TextChildReads`, `XmlDocumentRoundTrip.DocumentRoundTrip`) rely on it for text holding a line feed inside a non-root element.
- `Strings.escapeAndQuote` (Strings.java is not part of this model) is modelled as plain double quoting. It writes the declaration values (sources/qub/XMLDeclaration.java:129-140) and the names in the not-found messages of `XMLElement`.
- `Characters.escapeAndQuote` (Characters.java is not part of this model) is modelled the same way. It writes the character in the "Unexpected tag name start character" message (sources/qub/XML.java:215 and :331).
- `Integers.toHexString` is fixed to "22" and "27" for the two quote characters.
- `Characters.isWhitespace`, used by `XMLText.isWhitespace`, is taken to be the four XML whitespace characters.
- The library `Map`, `List`, `Iterable` and `Iterator` are modelled by sequences. The map's iteration order is modelled as insertion order.
- `XMLDocumentWrapper`, `XMLElementWrapper`, `XMLDocumentWrapperBase` and `XMLElementWrapperBase` are left out: they are delegating adapters.
- `XMLElementChild` has no behaviour of its own. It is the child datatype.
- `Result` asynchrony and the null-argument preconditions are left out. Dafny values are never null, and errors are `Result` values.
- The argument preconditions that the library checks on its callers are `requires` clauses, not `PreConditionFailure` outcomes; calling with a broken one is not modelled. They are the non-empty name of `XmlElement.Create` and `SetAttribute`, the non-empty text of `XmlText.Create` and `CreateWithFlag`, the quote character and non-empty name of `XmlAttribute.CreateWithQuote` and `CreateWithQuotedValue`, the allowed values of `XmlDeclaration.SetVersion` and `SetStandalone`, and the whitespace of `XmlFormat.SetSpaceBeforeDeclarationEnd`. The parser meets each at its call site: names come from `ParseName`, text is non-empty when read, and encoding and standalone are checked before they are set (sources/qub/XML.java:122-148). The empty version is the one the parser can break, and it is modelled as an outcome.
- Characters outside the Basic Multilingual Plane and UTF-16 surrogates are left out: the library works on 16-bit `char`s.
- There is no general `Parse(Render(d)) == d` lemma, because the library does not promise it and it is false in two cases:
  - a single-quoted attribute value holding `"` is written unescaped inside `"`;
  - two texts separated by a dropped comment merge when read back.
  The round-trip theorems exclude these cases through `Stable` and `PlainDeclaration`. They also exclude:
  - comments and whitespace-only text, which the parser drops;
  - CDATA holding `]]>`;
  - text holding `<`.
- XmlDeclaration.Render: states the layout fully only for a declaration without optional values. The written form with encoding and standalone is pinned down through `DeclarationRoundTrip` instead.
- XmlElementParser.ParseElementAtName: states the form of the element read, not its contents. The contents are pinned down by `XmlElementRoundTrip.RoundTrip` for written trees.
- XmlElementParser.ChildStep: states that exactly one child is added, not which child. `ElementReads` fixes it for written trees.

=== FILE: attribute.dfy ===
/** A name/value pair as written in a tag, remembering which quote character
    surrounded the value. */
module XmlAttribute {
  import opened XmlStrings

  datatype Attribute = Attribute(name: string, value: string, quote: char)

  /** The two characters that may surround an attribute value. */
  predicate IsQuoteCharacter(c: char) {
    c == '\'' || c == '"'
  }

  predicate ValidAttribute(a: Attribute) {
    a.name != "" && IsQuoteCharacter(a.quote)
  }

  /** An attribute whose value is surrounded by double quotes. */
  function Create(name: string, value: string): (a: Attribute)
    requires name != ""
    ensures ValidAttribute(a)
    ensures a.name == name && a.value == value && a.quote == '"'
  {
    CreateWithQuote(name, value, '"')
  }

  function CreateWithQuote(name: string, value: string, quote: char): (a: Attribute)
    requires name != "" && IsQuoteCharacter(quote)
    ensures ValidAttribute(a)
    ensures a.name == name && a.value == value && a.quote == quote
  {
    Attribute(name, value, quote)
  }

  /** Whether `s` starts and ends with the same quote character. */
  predicate IsQuoted(s: string) {
    |s| >= 2 && IsQuoteCharacter(s[0]) && s[|s| - 1] == s[0]
  }

  /** `value` surrounded by `quote` on both sides. */
  function QuoteWith(value: string, quote: char): (s: string)
    ensures |s| == |value| + 2
  {
    [quote] + value + [quote]
  }

  /** Builds an attribute from a value that still carries its quotes: the
      first character becomes the quote and the characters between the
      quotes the value. An unquoted value is refused. */
  function CreateWithQuotedValue(name: string, quotedValue: string): (a: Attribute)
    requires name != "" && IsQuoted(quotedValue)
    ensures ValidAttribute(a)
    ensures QuoteWith(a.value, a.quote) == quotedValue
    ensures a.name == name && a.quote == quotedValue[0] && a.value == quotedValue[1..|quotedValue| - 1]
  {
    CreateWithQuote(name, quotedValue[1..|quotedValue| - 1], quotedValue[0])
  }

  /** Quoting a value and reading it back gives the value and quote again. */
  lemma QuotedValueRoundTrip(name: string, value: string, quote: char)
    requires name != "" && IsQuoteCharacter(quote)
    ensures IsQuoted(QuoteWith(value, quote))
    ensures CreateWithQuotedValue(name, QuoteWith(value, quote)) == Attribute(name, value, quote)
  {
    var s := QuoteWith(value, quote);
    assert s[1..|s| - 1] == value;
  }

  /** The hexadecimal code of a quote character: 22 for `"`, 27 for `'`. */
  function HexCode(quote: char): string
    requires IsQuoteCharacter(quote)
  {
    if quote == '"' then "22" else "27"
  }

  /** The numeric character reference that stands for a quote character. */
  function Entity(quote: char): (r: string)
    requires IsQuoteCharacter(quote)
    ensures quote !in r
  {
    "&#x" + HexCode(quote) + ";"
  }

  /** The value with each occurrence of the quote character replaced by its
      character reference; every other character is kept as is. */
  function Escape(value: string, quote: char): (r: string)
    requires IsQuoteCharacter(quote)
  {
    if value == [] then "" else EscapeChar(value[0], quote) + Escape(value[1..], quote)
  }

  /** How one character of a value is written. */
  function EscapeChar(c: char, quote: char): (r: string)
    requires IsQuoteCharacter(quote)
  {
    if c == quote then Entity(quote) else [c]
  }

  /** Escaping works character by character: it distributes over
      concatenation. */
  lemma {:induction false} EscapeAppend(a: string, b: string, quote: char)
    requires IsQuoteCharacter(quote)
    ensures Escape(a + b, quote) == Escape(a, quote) + Escape(b, quote)
  {
    if a != [] {
      assert (a + b)[0] == a[0];
      assert (a + b)[1..] == a[1..] + b;
      EscapeAppend(a[1..], b, quote);
    } else {
      assert a + b == b;
    }
  }

  /** The escaped value never contains the quote character, so the value
      cannot end the quoted string early. */
  lemma {:induction false} EscapeHasNoQuote(value: string, quote: char)
    requires IsQuoteCharacter(quote)
    ensures quote !in Escape(value, quote)
  {
    if value != [] {
      EscapeHasNoQuote(value[1..], quote);
    }
  }

  /** Each quote grows by the five extra characters of its reference. */
  lemma {:induction false} EscapeLength(value: string, quote: char)
    requires IsQuoteCharacter(quote)
    ensures |Escape(value, quote)| == |value| + 5 * Count(value, quote)
  {
    if value != [] {
      EscapeLength(value[1..], quote);
    }
  }

  /** A value without the quote character is written unchanged. */
  lemma {:induction false} EscapeWithoutQuote(value: string, quote: char)
    requires IsQuoteCharacter(quote) && quote !in value
    ensures Escape(value, quote) == value
  {
    if value != [] {
      EscapeWithoutQuote(value[1..], quote);
    }
  }

  /** Index of the first `c` at or after `from`, or -1 when there is none. */
  function IndexOf(s: string, c: char, from: nat): (k: int)
    requires from <= |s|
    ensures k == -1 || (from <= k < |s| && s[k] == c)
    decreases |s| - from
  {
    if from == |s| then -1
    else if s[from] == c then from
    else IndexOf(s, c, from + 1)
  }

  /** `IndexOf` finds the first occurrence at or after `from`, and -1 means
      there is none. */
  lemma {:induction false} IndexOfFirst(s: string, c: char, from: nat)
    requires from <= |s|
    ensures IndexOf(s, c, from) == -1 ==> forall j :: from <= j < |s| ==> s[j] != c
    ensures IndexOf(s, c, from) != -1 ==> forall j :: from <= j < IndexOf(s, c, from) ==> s[j] != c
    decreases |s| - from
  {
    if from < |s| && s[from] != c {
      IndexOfFirst(s, c, from + 1);
    }
  }

  /** One step of the library's loop: the part of the value before the next
      quote is copied, the quote becomes its reference, and escaping goes on
      after it. */
  lemma EscapeAtQuote(v: string, start: nat, quote: char)
    requires IsQuoteCharacter(quote) && start <= |v|
    requires IndexOf(v, quote, start) != -1
    ensures var q := IndexOf(v, quote, start);
      Escape(v[start..], quote) == v[start..q] + Entity(quote) + Escape(v[q + 1..], quote)
  {
    var q := IndexOf(v, quote, start);
    QuoteFreeBefore(v, start, quote, q);
    assert v[start..] == v[start..q] + v[q..];
    EscapeAppend(v[start..q], v[q..], quote);
    EscapeWithoutQuote(v[start..q], quote);
    EscapeAtHead(v, q, quote);
  }

  /** Nothing before the first quote found is a quote. */
  lemma QuoteFreeBefore(v: string, start: nat, quote: char, q: int)
    requires start <= |v| && q == IndexOf(v, quote, start) != -1
    ensures start <= q < |v| && v[q] == quote && quote !in v[start..q]
  {
    IndexOfFirst(v, quote, start);
    forall j | 0 <= j < q - start ensures v[start..q][j] != quote {
      assert v[start..q][j] == v[start + j];
    }
  }

  /** A quote at the head of what is left is written as its reference. */
  lemma EscapeAtHead(v: string, q: nat, quote: char)
    requires IsQuoteCharacter(quote) && q < |v| && v[q] == quote
    ensures Escape(v[q..], quote) == Entity(quote) + Escape(v[q + 1..], quote)
  {
    assert v[q..][0] == quote && v[q..][1..] == v[q + 1..];
  }

  /** The last step of the library's loop: no quote is left, and the rest of
      the value is copied as it is. */
  lemma EscapeAfterLastQuote(v: string, start: nat, quote: char)
    requires IsQuoteCharacter(quote) && start <= |v|
    requires IndexOf(v, quote, start) == -1
    ensures Escape(v[start..], quote) == v[start..]
  {
    IndexOfFirst(v, quote, start);
    assert quote !in v[start..] by {
      forall j | 0 <= j < |v[start..]| ensures v[start..][j] != quote {
        assert v[start..][j] == v[start + j];
      }
    }
    EscapeWithoutQuote(v[start..], quote);
  }

  /** The loop's invariant is kept by a step at a quote. */
  lemma EscapeStepKeeps(v: string, q: char, start: nat, body: string)
    requires IsQuoteCharacter(q) && start <= |v| && IndexOf(v, q, start) != -1
    requires body + Escape(v[start..], q) == Escape(v, q)
    ensures var i := IndexOf(v, q, start);
      (body + (v[start..i] + Entity(q))) + Escape(v[i + 1..], q) == Escape(v, q)
  {
    var i := IndexOf(v, q, start);
    EscapeAtQuote(v, start, q);
    var copied := v[start..i] + Entity(q);
    var tail := Escape(v[i + 1..], q);
    assert Escape(v[start..], q) == copied + tail;
    AppendAssociates(body, copied, tail);
  }

  /** The loop's invariant is kept by the last step, which copies the rest
      of the value. */
  lemma EscapeLastKeeps(v: string, q: char, start: nat, body: string)
    requires IsQuoteCharacter(q) && start <= |v| && IndexOf(v, q, start) == -1
    requires body + Escape(v[start..], q) == Escape(v, q)
    ensures (body + v[start..]) + Escape(v[|v|..], q) == Escape(v, q)
  {
    EscapeAfterLastQuote(v, start, q);
    assert v[|v|..] == [];
  }

  /** Once the whole value is consumed, the invariant says the text built
      is the escaped value. */
  lemma EscapeDone(v: string, q: char, body: string)
    requires IsQuoteCharacter(q) && body + Escape(v[|v|..], q) == Escape(v, q)
    ensures body == Escape(v, q)
  {
    assert v[|v|..] == [];
  }

  /** The escaped value computed the way the library does: copy up to the
      next quote, write its reference, and continue after it. */
  method EscapeByIndexOf(v: string, q: char) returns (body: string)
    requires IsQuoteCharacter(q)
    ensures body == Escape(v, q)
  {
    body := "";
    var start := 0;
    var quoteIndex := IndexOf(v, q, 0);
    assert v[0..] == v;
    while start < |v|
      invariant 0 <= start <= |v|
      invariant quoteIndex == IndexOf(v, q, start)
      invariant body + Escape(v[start..], q) == Escape(v, q)
      decreases |v| - start
    {
      if quoteIndex == -1 {
        EscapeLastKeeps(v, q, start, body);
        body := body + v[start..];
        start := |v|;
      } else {
        EscapeStepKeeps(v, q, start, body);
        body := body + (v[start..quoteIndex] + Entity(q));
        start := quoteIndex + 1;
        quoteIndex := IndexOf(v, q, start);
      }
    }
    EscapeDone(v, q, body);
  }

  /** The attribute's own rendering, `name=q...q`: only the quote character
      is escaped, and the escaped value holds no quote character. */
  method Render(a: Attribute) returns (r: string)
    requires ValidAttribute(a)
    ensures r == a.name + "=" + [a.quote] + Escape(a.value, a.quote) + [a.quote]
    ensures a.quote !in r[|a.name| + 2..|r| - 1]
  {
    var body := EscapeByIndexOf(a.value, a.quote);
    r := a.name + "=" + [a.quote] + body + [a.quote];
    EscapeHasNoQuote(a.value, a.quote);
    assert r[|a.name| + 2..|r| - 1] == body;
  }
}

=== FILE: attribute_map.dfy ===
/** The attribute store of an element: an association list kept in insertion
    order, where setting an existing name updates its entry in place. Two
    stores are equal when the maps they denote are equal. */
module XmlAttributeMap {
  import opened Wrappers

  datatype AttrEntry = AttrEntry(key: string, value: string)

  /** The names in the list. */
  function Keys(a: seq<AttrEntry>): set<string> {
    if a == [] then {} else {a[0].key} + Keys(a[1..])
  }

  /** The map the list denotes; the first entry for a name wins, which only
      matters for lists with repeated names. */
  function ToMap(a: seq<AttrEntry>): (m: map<string, string>)
    ensures m.Keys == Keys(a)
  {
    if a == [] then map[] else ToMap(a[1..])[a[0].key := a[0].value]
  }

  /** No name occurs twice. */
  predicate UniqueKeys(a: seq<AttrEntry>) {
    a == [] || (a[0].key !in Keys(a[1..]) && UniqueKeys(a[1..]))
  }

  /** Every name in the list is non-empty. */
  predicate NonEmptyKeys(a: seq<AttrEntry>) {
    "" !in Keys(a)
  }

  lemma {:induction false} KeysAt(a: seq<AttrEntry>, i: nat)
    requires i < |a|
    ensures a[i].key in Keys(a)
  {
    if i > 0 {
      KeysAt(a[1..], i - 1);
    }
  }

  /** In a list without repeated names, distinct positions hold distinct
      names. */
  lemma {:induction false} UniqueKeysAt(a: seq<AttrEntry>, i: nat, j: nat)
    requires UniqueKeys(a) && i < j < |a|
    ensures a[i].key != a[j].key
  {
    if i == 0 {
      KeysAt(a[1..], j - 1);
    } else {
      UniqueKeysAt(a[1..], i - 1, j - 1);
    }
  }

  /** The value stored for `key`, if any. */
  function Lookup(a: seq<AttrEntry>, key: string): (r: Option<string>)
    ensures r.Some? <==> key in ToMap(a)
    ensures r.Some? ==> r.value == ToMap(a)[key]
  {
    if a == [] then None
    else if a[0].key == key then Some(a[0].value)
    else Lookup(a[1..], key)
  }

  /** `r` is `a` with the entry for `key` taking `value` where it stands:
      same length, every other entry unchanged and in its place. */
  predicate UpdatedInPlace(a: seq<AttrEntry>, key: string, value: string, r: seq<AttrEntry>) {
    |r| == |a| && forall k :: 0 <= k < |a| ==> r[k] == (if a[k].key == key then AttrEntry(key, value) else a[k])
  }

  /** Sets `key` to `value`: an existing entry keeps its position, a new one
      goes last. */
  function Put(a: seq<AttrEntry>, key: string, value: string): (r: seq<AttrEntry>)
    ensures Keys(r) == Keys(a) + {key}
    ensures ToMap(r) == ToMap(a)[key := value]
    ensures UniqueKeys(a) ==> UniqueKeys(r)
    ensures key !in Keys(a) ==> r == a + [AttrEntry(key, value)]
    ensures UniqueKeys(a) && key in Keys(a) ==> UpdatedInPlace(a, key, value, r)
  {
    if a == [] then [AttrEntry(key, value)]
    else if a[0].key == key then
      PutHere(a, key, value);
      [AttrEntry(key, value)] + a[1..]
    else
      var rest := Put(a[1..], key, value);
      PutLater(a, key, value, rest);
      [a[0]] + rest
  }

  /** The names and the map of an entry before a list. */
  lemma Cons(x: AttrEntry, t: seq<AttrEntry>)
    ensures Keys([x] + t) == {x.key} + Keys(t)
    ensures ToMap([x] + t) == ToMap(t)[x.key := x.value]
    ensures UniqueKeys([x] + t) <==> x.key !in Keys(t) && UniqueKeys(t)
  {
    assert ([x] + t)[0] == x && ([x] + t)[1..] == t;
  }

  /** Setting the first entry's name replaces its value in place. */
  lemma PutHere(a: seq<AttrEntry>, key: string, value: string)
    requires a != [] && a[0].key == key
    ensures var r := [AttrEntry(key, value)] + a[1..];
      && Keys(r) == Keys(a) + {key}
      && ToMap(r) == ToMap(a)[key := value]
      && (UniqueKeys(a) ==> UniqueKeys(r))
      && key in Keys(a)
      && (UniqueKeys(a) ==> UpdatedInPlace(a, key, value, r))
  {
    Cons(a[0], a[1..]);
    assert [a[0]] + a[1..] == a;
    Cons(AttrEntry(key, value), a[1..]);
    Overwrite(ToMap(a[1..]), key, a[0].value, value);
    if UniqueKeys(a) {
      forall k | 0 < k < |a|
        ensures a[k].key != key
      {
        UniqueKeysAt(a, 0, k);
      }
    }
  }

  lemma Overwrite(m: map<string, string>, k: string, v: string, w: string)
    ensures m[k := v][k := w] == m[k := w]
  {
  }

  lemma UpdatesCommute(m: map<string, string>, k: string, v: string, j: string, w: string)
    requires k != j
    ensures m[k := v][j := w] == m[j := w][k := v]
  {
  }

  /** Setting a name the first entry does not carry leaves that entry
      first. */
  lemma PutLater(a: seq<AttrEntry>, key: string, value: string, rest: seq<AttrEntry>)
    requires a != [] && a[0].key != key
    requires Keys(rest) == Keys(a[1..]) + {key}
    requires ToMap(rest) == ToMap(a[1..])[key := value]
    requires UniqueKeys(a[1..]) ==> UniqueKeys(rest)
    requires key !in Keys(a[1..]) ==> rest == a[1..] + [AttrEntry(key, value)]
    requires UniqueKeys(a[1..]) && key in Keys(a[1..]) ==> UpdatedInPlace(a[1..], key, value, rest)
    ensures var r := [a[0]] + rest;
      && Keys(r) == Keys(a) + {key}
      && ToMap(r) == ToMap(a)[key := value]
      && (UniqueKeys(a) ==> UniqueKeys(r))
      && (key !in Keys(a) ==> r == a + [AttrEntry(key, value)])
      && (UniqueKeys(a) && key in Keys(a) ==> UpdatedInPlace(a, key, value, r))
  {
    Cons(a[0], a[1..]);
    assert [a[0]] + a[1..] == a;
    Cons(a[0], rest);
    UpdatesCommute(ToMap(a[1..]), key, value, a[0].key, a[0].value);
    if key !in Keys(a) {
      AppendAfterHead(a, AttrEntry(key, value));
    }
  }

  lemma AppendAfterHead(a: seq<AttrEntry>, x: AttrEntry)
    requires a != []
    ensures [a[0]] + (a[1..] + [x]) == a + [x]
  {
  }

  /** Removes the entries for `key`, keeping the order of the others. */
  function Delete(a: seq<AttrEntry>, key: string): (r: seq<AttrEntry>)
    ensures Keys(r) == Keys(a) - {key}
    ensures ToMap(r) == ToMap(a) - {key}
    ensures UniqueKeys(a) ==> UniqueKeys(r)
  {
    if a == [] then []
    else if a[0].key == key then Delete(a[1..], key)
    else [a[0]] + Delete(a[1..], key)
  }
}

=== FILE: cdata.dfy ===
/** A CDATA section inside an element. */
module XmlCData {
  import opened XmlFormat

  datatype CData = CData(text: string)

  /** Any text is accepted, the empty one included. */
  function Create(t: string): (r: CData)
    ensures r.text == t
  {
    CData(t)
  }

  /** `<![CDATA[text]]>`, verbatim, in every format. */
  function Render(c: CData, f: Format): (r: string)
    ensures |r| == |c.text| + 12
    ensures r[..9] == "<![CDATA[" && r[9..|r| - 3] == c.text && r[|r| - 3..] == "]]>"
  {
    "<![CDATA[" + c.text + "]]>"
  }

  predicate Equal(a: CData, b: CData) {
    a.text == b.text
  }
}

=== FILE: characters.dfy ===
/** The lexical classifier: the character classes of the XML 1.0 (Fifth
    Edition) productions S [3], NameStartChar [4] and NameChar [4a] of
    section 2.3, restricted to the Basic Multilingual Plane because the
    library classifies 16-bit characters. */
module XmlCharacters {

  /** Production [3] S: space, tab, carriage return and line feed. */
  predicate IsWhitespaceCharacter(c: char) {
    c == ' ' || c == '\n' || c == '\r' || c == '\t'
  }

  /** Production [4] NameStartChar, written as the library's chain of range
      tests. */
  predicate IsNameStartCharacter(c: char) {
    || c == ':'
    || ('A' <= c <= 'Z')
    || c == '_'
    || ('a' <= c <= 'z')
    || ('\U{00C0}' <= c <= '\U{00D6}')
    || ('\U{00D8}' <= c <= '\U{00F6}')
    || ('\U{00F8}' <= c <= '\U{02FF}')
    || ('\U{0370}' <= c <= '\U{037D}')
    || ('\U{037F}' <= c <= '\U{1FFF}')
    || ('\U{200C}' <= c <= '\U{200D}')
    || ('\U{2070}' <= c <= '\U{218F}')
    || ('\U{2C00}' <= c <= '\U{2FEF}')
    || ('\U{3001}' <= c <= '\U{D7FF}')
    || ('\U{F900}' <= c <= '\U{FDCF}')
    || ('\U{FDF0}' <= c <= '\U{FFFD}')
  }

  /** Production [4a] NameChar: every name-start character plus the
      continuation-only characters. */
  predicate IsNameCharacter(c: char) {
    || IsNameStartCharacter(c)
    || c == '-'
    || c == '.'
    || ('0' <= c <= '9')
    || c == '\U{00B7}'
    || ('\U{0300}' <= c <= '\U{036F}')
    || ('\U{203F}' <= c <= '\U{2040}')
  }

  /** An inclusive range of code points, the unit the XML 1.0 productions
      are written in. */
  datatype CodeRange = CodeRange(lo: int, hi: int)

  /** Production [4] NameStartChar as the standard tabulates it, without
      the supplementary-plane range #x10000-#xEFFFF. */
  const NameStartRanges: seq<CodeRange> := [
    CodeRange(0x3A, 0x3A), CodeRange(0x41, 0x5A), CodeRange(0x5F, 0x5F),
    CodeRange(0x61, 0x7A), CodeRange(0xC0, 0xD6), CodeRange(0xD8, 0xF6),
    CodeRange(0xF8, 0x2FF), CodeRange(0x370, 0x37D), CodeRange(0x37F, 0x1FFF),
    CodeRange(0x200C, 0x200D), CodeRange(0x2070, 0x218F),
    CodeRange(0x2C00, 0x2FEF), CodeRange(0x3001, 0xD7FF),
    CodeRange(0xF900, 0xFDCF), CodeRange(0xFDF0, 0xFFFD)
  ]

  /** The ranges production [4a] NameChar adds to NameStartChar. */
  const NameOnlyRanges: seq<CodeRange> := [
    CodeRange(0x2D, 0x2D), CodeRange(0x2E, 0x2E), CodeRange(0x30, 0x39),
    CodeRange(0xB7, 0xB7), CodeRange(0x300, 0x36F), CodeRange(0x203F, 0x2040)
  ]

  predicate InRanges(rs: seq<CodeRange>, c: char) {
    exists k :: 0 <= k < |rs| && rs[k].lo <= c as int <= rs[k].hi
  }

  /** The chain of range tests agrees with the standard's table, in both
      directions. */
  lemma InRangesAt(rs: seq<CodeRange>, k: nat, c: char)
    requires k < |rs| && rs[k].lo <= c as int <= rs[k].hi
    ensures InRanges(rs, c)
  {
  }

  lemma NameStartCharacterMatchesProduction(c: char)
    ensures IsNameStartCharacter(c) <==> InRanges(NameStartRanges, c)
  {
    if IsNameStartCharacter(c) {
      NameStartCharacterInRanges(c);
    }
    if InRanges(NameStartRanges, c) {
      var k :| 0 <= k < |NameStartRanges| && NameStartRanges[k].lo <= c as int <= NameStartRanges[k].hi;
      NameStartRangeIsNameStart(c, k);
    }
  }

  /** Each test of the chain lands in a row of the table. */
  lemma NameStartCharacterInRanges(c: char)
    requires IsNameStartCharacter(c)
    ensures InRanges(NameStartRanges, c)
  {
    var rs := NameStartRanges;
    if c == ':' { InRangesAt(rs, 0, c); }
    else if 'A' <= c <= 'Z' { InRangesAt(rs, 1, c); }
    else if c == '_' { InRangesAt(rs, 2, c); }
    else if 'a' <= c <= 'z' { InRangesAt(rs, 3, c); }
    else if '\U{00C0}' <= c <= '\U{00D6}' { InRangesAt(rs, 4, c); }
    else if '\U{00D8}' <= c <= '\U{00F6}' { InRangesAt(rs, 5, c); }
    else if '\U{00F8}' <= c <= '\U{02FF}' { InRangesAt(rs, 6, c); }
    else if '\U{0370}' <= c <= '\U{037D}' { InRangesAt(rs, 7, c); }
    else if '\U{037F}' <= c <= '\U{1FFF}' { InRangesAt(rs, 8, c); }
    else if '\U{200C}' <= c <= '\U{200D}' { InRangesAt(rs, 9, c); }
    else if '\U{2070}' <= c <= '\U{218F}' { InRangesAt(rs, 10, c); }
    else if '\U{2C00}' <= c <= '\U{2FEF}' { InRangesAt(rs, 11, c); }
    else if '\U{3001}' <= c <= '\U{D7FF}' { InRangesAt(rs, 12, c); }
    else if '\U{F900}' <= c <= '\U{FDCF}' { InRangesAt(rs, 13, c); }
    else { InRangesAt(rs, 14, c); }
  }

  /** Each row of the table is covered by a test of the chain. */
  lemma NameStartRangeIsNameStart(c: char, k: int)
    requires 0 <= k < |NameStartRanges| && NameStartRanges[k].lo <= c as int <= NameStartRanges[k].hi
    ensures IsNameStartCharacter(c)
  {
  }

  lemma NameCharacterMatchesProduction(c: char)
    ensures IsNameCharacter(c) <==>
            InRanges(NameStartRanges, c) || InRanges(NameOnlyRanges, c)
  {
    NameStartCharacterMatchesProduction(c);
    var rs := NameOnlyRanges;
    if c == '-' { InRangesAt(rs, 0, c); }
    else if c == '.' { InRangesAt(rs, 1, c); }
    else if '0' <= c <= '9' { InRangesAt(rs, 2, c); }
    else if c == '\U{00B7}' { InRangesAt(rs, 3, c); }
    else if '\U{0300}' <= c <= '\U{036F}' { InRangesAt(rs, 4, c); }
    else if '\U{203F}' <= c <= '\U{2040}' { InRangesAt(rs, 5, c); }
  }

  /** Whether every character of `t` is XML whitespace; the library's scan
      stops at the first character that is not. */
  predicate IsWhitespaceText(t: string) {
    if t == [] then true
    else if !IsWhitespaceCharacter(t[0]) then false
    else IsWhitespaceText(t[1..])
  }

  /** The scan decides exactly whether every character is whitespace. */
  lemma {:induction false} WhitespaceTextIsAll(t: string)
    ensures IsWhitespaceText(t) <==> forall k :: 0 <= k < |t| ==> IsWhitespaceCharacter(t[k])
  {
    if t != [] {
      WhitespaceTextIsAll(t[1..]);
      assert forall k :: 1 <= k < |t| ==> t[k] == t[1..][k - 1];
    }
  }
}

=== FILE: comment.dfy ===
/** A comment; the parser drops comments, but a tree built by hand may hold
    them. */
module XmlComment {
  import opened XmlFormat

  datatype Comment = Comment(text: string)

  /** Any text is accepted, the empty one included. */
  function Create(t: string): (r: Comment)
    ensures r.text == t
  {
    Comment(t)
  }

  /** `<!--text-->`, with nothing escaped, in every format. */
  function Render(c: Comment, f: Format): (r: string)
    ensures |r| == |c.text| + 7
    ensures r[..4] == "<!--" && r[4..|r| - 3] == c.text && r[|r| - 3..] == "-->"
  {
    "<!--" + c.text + "-->"
  }

  predicate Equal(a: Comment, b: Comment) {
    a.text == b.text
  }
}

=== FILE: declaration.dfy ===
/** The XML declaration `<?xml version=... encoding=... standalone=...?>`
    (XML 1.0, section 2.8 production XMLDecl and section 2.9 production
    SDDecl). */
module XmlDeclaration {
  import opened XmlStrings
  import opened XmlFormat

  /** An empty encoding or standalone value means the pseudo-attribute is
      absent. */
  datatype Declaration = Declaration(version: string, encoding: string, standalone: string)

  /** The three values `setStandalone` accepts, compared case-sensitively. */
  predicate IsStandaloneOption(s: string) {
    s == "" || s == "yes" || s == "no"
  }

  predicate ValidDeclaration(d: Declaration) {
    d.version != "" && IsStandaloneOption(d.standalone)
  }

  /** Version 1.0, no encoding, no standalone value. */
  function Create(): (d: Declaration)
    ensures ValidDeclaration(d)
    ensures d.version == "1.0" && d.encoding == "" && d.standalone == ""
  {
    Declaration("1.0", "", "")
  }

  /** Replaces the version, which must not be empty. */
  function SetVersion(d: Declaration, version: string): (r: Declaration)
    requires version != ""
    ensures r.version == version
    ensures r.encoding == d.encoding && r.standalone == d.standalone
    ensures ValidDeclaration(d) ==> ValidDeclaration(r)
  {
    d.(version := version)
  }

  /** Replaces the encoding; any string is accepted, the empty one included. */
  function SetEncoding(d: Declaration, encoding: string): (r: Declaration)
    ensures r.encoding == encoding
    ensures r.version == d.version && r.standalone == d.standalone
    ensures ValidDeclaration(d) ==> ValidDeclaration(r)
  {
    d.(encoding := encoding)
  }

  /** Replaces the standalone value, which must be "", "yes" or "no". */
  function SetStandalone(d: Declaration, standalone: string): (r: Declaration)
    requires IsStandaloneOption(standalone)
    ensures r.standalone == standalone
    ensures r.version == d.version && r.encoding == d.encoding
    ensures ValidDeclaration(d) ==> ValidDeclaration(r)
  {
    d.(standalone := standalone)
  }

  /** ` name="value"` when the value is present, nothing otherwise. */
  function OptionalPseudoAttribute(name: string, value: string): (r: string)
    ensures value == "" <==> r == ""
  {
    if value == "" then "" else " " + name + "=" + Quote(value)
  }

  /** The declaration as written: the version always, encoding and standalone
      only when present, then the format's space before `?>`. */
  function Render(d: Declaration, f: Format): (r: string)
    ensures |r| >= 17
    ensures r[..15] == "<?xml version=\"" && r[|r| - 2..] == "?>"
    ensures d.encoding == "" && d.standalone == "" ==>
      r == "<?xml version=" + Quote(d.version) + f.spaceBeforeDeclarationEnd + "?>"
  {
    "<?xml version=" + Quote(d.version)
      + OptionalPseudoAttribute("encoding", d.encoding)
      + OptionalPseudoAttribute("standalone", d.standalone)
      + f.spaceBeforeDeclarationEnd + "?>"
  }
}

=== FILE: document.dfy ===
/** An XML document: an optional declaration and an optional root element. */
module XmlDocument {
  import opened Wrappers
  import opened XmlStrings
  import opened XmlFormat
  import opened XmlDeclaration
  import opened XmlElement
  import opened XmlCharacters
  import XmlElementRender

  datatype Document = Document(declaration: Option<Declaration>, root: Option<Element>)

  /** A document with neither part. */
  function Create(): (d: Document)
    ensures d.declaration.None? && d.root.None?
  {
    Document(None, None)
  }

  function SetDeclaration(d: Document, declaration: Option<Declaration>): (r: Document)
    ensures r.declaration == declaration && r.root == d.root
  {
    d.(declaration := declaration)
  }

  function SetRoot(d: Document, root: Option<Element>): (r: Document)
    ensures r.root == root && r.declaration == d.declaration
  {
    d.(root := root)
  }

  /** The declaration, then the root; a line break at the top level separates
      them only when both are present. */
  function Render(d: Document, f: Format): (r: string)
  {
    var decl := if d.declaration.Some? then XmlDeclaration.Render(d.declaration.value, f) else "";
    var sep := if d.declaration.Some? && d.root.Some? then f.newLine else "";
    var root := if d.root.Some? then XmlElementRender.RenderElement(d.root.value, f, 0) else "";
    decl + sep + root
  }

  /** The no-argument `toString`: the concise format. */
  function ToString(d: Document): string {
    Render(d, Concise())
  }

  /** The document's `equals`: the same declaration and roots that are equal
      as elements. */
  predicate DocumentEq(a: Document, b: Document) {
    a.declaration == b.declaration &&
    (a.root.None? <==> b.root.None?) &&
    (a.root.Some? ==> ElementEq(a.root.value, b.root.value))
  }

  /** How a document is written, case by case: an empty document is empty
      text, a lone part is that part as written on its own, and the two parts
      together are joined by the format's newline. */
  lemma RenderCases(d: Document, f: Format)
    ensures d.declaration.None? && d.root.None? ==> Render(d, f) == ""
    ensures d.declaration.Some? && d.root.None? ==> Render(d, f) == XmlDeclaration.Render(d.declaration.value, f)
    ensures d.declaration.None? && d.root.Some? ==> Render(d, f) == XmlElementRender.RenderElement(d.root.value, f, 0)
    ensures d.declaration.Some? && d.root.Some? ==>
      Render(d, f) == XmlDeclaration.Render(d.declaration.value, f) + f.newLine
        + XmlElementRender.RenderElement(d.root.value, f, 0)
  {
  }

  /** A document's text is empty exactly when it has neither part, and it
      opens with `<?` exactly when it has a declaration, provided the root's
      name starts like an XML name. */
  lemma RenderOpening(d: Document, f: Format)
    ensures Render(d, f) == "" <==> d.declaration.None? && d.root.None?
    ensures d.declaration.Some? ==> |Render(d, f)| >= 17 && Render(d, f)[..15] == "<?xml version=\""
    ensures (d.root.Some? ==> ValidElement(d.root.value) && IsNameStartCharacter(d.root.value.name[0])) ==>
      (d.declaration.Some? <==> |Render(d, f)| >= 2 && Render(d, f)[..2] == "<?")
  {
    if d.declaration.Some? {
      var decl := XmlDeclaration.Render(d.declaration.value, f);
      var sep := if d.root.Some? then f.newLine else "";
      var root := if d.root.Some? then XmlElementRender.RenderElement(d.root.value, f, 0) else "";
      AppendAssociates(decl, sep, root);
      PrefixOfAppend(decl, sep + root, 15);
      PrefixOfAppend(decl, sep + root, 2);
      assert decl[..2] == decl[..15][..2];
    } else if d.root.Some? {
      var r := XmlElementRender.RenderElement(d.root.value, f, 0);
      assert Render(d, f) == r;
      RootOpening(d.root.value, f);
      assert d.root.value.name != "" ==> r[..2][1] == d.root.value.name[0];
    }
  }

  /** A prefix of the first part is a prefix of the whole. */
  lemma PrefixOfAppend(a: string, b: string, n: nat)
    requires n <= |a|
    ensures (a + b)[..n] == a[..n]
  {
  }

  /** A written element starts with `<` and the first character of its
      name. */
  lemma RootOpening(e: Element, f: Format)
    ensures var r := XmlElementRender.RenderElement(e, f, 0);
      |r| >= 2 && (e.name != "" ==> r[..2] == ['<', e.name[0]])
  {
    var r := XmlElementRender.RenderElement(e, f, 0);
    XmlElementRender.RenderElementBounds(e, f, 0);
    if e.name != "" {
      assert r[..1 + |e.name|] == "<" + e.name;
      assert r[..2] == r[..1 + |e.name|][..2];
    }
  }

  lemma DocumentEqIsEquivalence(a: Document, b: Document, c: Document)
    ensures DocumentEq(a, a)
    ensures DocumentEq(a, b) ==> DocumentEq(b, a)
    ensures DocumentEq(a, b) && DocumentEq(b, c) ==> DocumentEq(a, c)
  {
    if a.root.Some? {
      ElementEqReflexive(a.root.value);
    }
    if DocumentEq(a, b) && a.root.Some? {
      ElementEqSymmetric(a.root.value, b.root.value);
    }
    if DocumentEq(a, b) && DocumentEq(b, c) && a.root.Some? {
      ElementEqTransitive(a.root.value, b.root.value, c.root.value);
    }
  }
}

=== FILE: document_parser.dfy ===
/** Reading a whole document (`XML.parse`): segments at the top level, each
    markup after `<` or a run of text. The declaration may come only as the
    first segment and only once, there is at most one root element,
    comments are dropped, and a CDATA section, an end tag or text that is
    not all whitespace at the top level is refused. The checks for a second
    declaration or a second root run only once that construct has been read
    whole, so an error inside it wins. */
module XmlDocumentParser {
  import opened Wrappers
  import opened XmlCharacters
  import opened XmlLexer
  import opened XmlSections
  import opened XmlElement
  import opened XmlElementParser
  import opened XmlDeclaration
  import opened XmlDocument
  import XmlAttribute

  // ---------------------------------------------------------------------
  // The declaration

  /** The two standalone values the parser accepts. */
  predicate IsStandaloneAnswer(v: string) {
    v == "no" || v == "yes"
  }

  /** The optional pseudo-attributes read so far. */
  datatype Optionals = Optionals(encoding: Option<string>, standalone: Option<string>)

  /** A read encoding is never empty and a read standalone value is an
      answer. */
  predicate ValidOptionals(o: Optionals) {
    && (o.encoding.Some? ==> o.encoding.value != "")
    && (o.standalone.Some? ==> IsStandaloneAnswer(o.standalone.value))
  }

  /** What a declaration was read as: the version value and the optional
      pseudo-attributes. */
  datatype DeclarationParts = DeclarationParts(version: string, optionals: Optionals)

  /** One optional pseudo-attribute, at a name start character and before
      any standalone value: `s` starts the standalone pseudo-attribute,
      whose value must be "no" or "yes", and `e` the encoding, whose value
      must not be empty, as long as no encoding was read. Any other name is
      refused, with a message that lists what may still come. */
  function ParseOptional(s: string, q: nat, o: Optionals): (r: Result<Parsed<Optionals>>)
    requires q < |s| && IsNameStartCharacter(s[q]) && o.standalone.None? && ValidOptionals(o)
    ensures r.Success? ==> q < r.value.next <= |s| && ValidOptionals(r.value.value)
    ensures r.Success? && s[q] == 's' ==> r.value.value.encoding == o.encoding && r.value.value.standalone.Some?
    ensures r.Success? && s[q] != 's' ==>
      s[q] == 'e' && o.encoding.None? && r.value.value.encoding.Some? && r.value.value.standalone.None?
    ensures s[q] != 's' && !(s[q] == 'e' && o.encoding.None?) ==>
      r == Failure(Expected(if o.encoding.None?
        then "declaration encoding attribute, standalone attribute, or right question mark ('?')"
        else "declaration standalone attribute or right question mark ('?')"))
  {
    if s[q] == 's' then
      var a :- ParseAttribute(s, q, "standalone", "declaration standalone");
      if !IsStandaloneAnswer(a.value.value) then
        Failure(Expected("declaration standalone attribute value to be \"no\" or \"yes\""))
      else Success(Parsed(o.(standalone := Some(a.value.value)), a.next))
    else if s[q] == 'e' && o.encoding.None? then
      var a :- ParseAttribute(s, q, "encoding", "declaration encoding");
      if a.value.value == "" then Failure(Expected("declaration encoding attribute value to be not empty"))
      else Success(Parsed(o.(encoding := Some(a.value.value)), a.next))
    else if o.encoding.None? then
      Failure(Expected("declaration encoding attribute, standalone attribute, or right question mark ('?')"))
    else Failure(Expected("declaration standalone attribute or right question mark ('?')"))
  }

  /** The loop after the version: while whitespace comes, it is skipped and
      the name after it, if any, is read as an optional pseudo-attribute;
      the loop stops at anything else, and after a standalone value it
      stops after the whitespace, so a name after a standalone value is
      refused by the check for `?`. */
  function ParseOptionals(s: string, p: nat, o: Optionals): (r: Result<Parsed<Optionals>>)
    requires p <= |s| && ValidOptionals(o)
    ensures r.Success? ==> p <= r.value.next <= |s| && ValidOptionals(r.value.value)
    ensures r.Success? ==> r.value.next == |s| || !IsWhitespaceCharacter(s[r.value.next])
    ensures r.Success? && o.encoding.Some? ==> r.value.value.encoding == o.encoding
    ensures r.Success? && o.standalone.Some? ==> r.value.value == o
    decreases |s| - p
  {
    if p == |s| || !IsWhitespaceCharacter(s[p]) then Success(Parsed(o, p))
    else
      // parseWhitespace at a whitespace character reads the same run
      var ws := ParseOptionalWhitespace(s, p);
      var q := ws.next;
      if q == |s| || !IsNameStartCharacter(s[q]) || o.standalone.Some? then Success(Parsed(o, q))
      else
        var read :- ParseOptional(s, q, o);
        ParseOptionals(s, read.next, read.value)
  }

  /** A declaration read from `i` ends with `?>`, and what was read of it
      is valid. */
  predicate DeclarationEnds(s: string, i: nat, r: Parsed<DeclarationParts>) {
    && i + 2 <= r.next <= |s| && s[r.next - 2] == '?' && s[r.next - 1] == '>'
    && ValidOptionals(r.value.optionals)
  }

  /** The declaration from just after `<?`: the name `xml`, whitespace,
      then the pseudo-attributes and `?>`. */
  function ParseDeclaration(s: string, i: nat): (r: Result<Parsed<DeclarationParts>>)
    requires i <= |s|
    ensures r.Success? ==> DeclarationEnds(s, i, r.value)
    ensures i == |s| ==> r == Failure(Missing("declaration name (\"xml\")"))
    ensures i < |s| && !IsNameStartCharacter(s[i]) ==> r == Failure(Expected("declaration name (\"xml\")"))
    ensures i < |s| && IsNameStartCharacter(s[i]) && ParseName(s, i, "").value.value != "xml" ==>
      r == Failure(Expected("declaration name (\"xml\")"))
  {
    var _ :- Expect(s, i, c => IsNameStartCharacter(c), "declaration name (\"xml\")");
    // the expected name start character means the name is there
    var name := ParseName(s, i, "").value;
    if name.value != "xml" then Failure(Expected("declaration name (\"xml\")"))
    else
      var ws :- ParseWhitespace(s, name.next);
      DeclarationBody(s, ws.next)
  }

  /** The version pseudo-attribute, the optional ones, then `?>`. Input
      that ends right after the version lacks the `?`. */
  function DeclarationBody(s: string, p: nat): (r: Result<Parsed<DeclarationParts>>)
    requires p <= |s|
    ensures r.Success? ==> DeclarationEnds(s, p, r.value)
    ensures ParseAttribute(s, p, "version", "declaration version").Success? ==>
      (r.Success? ==> r.value.value.version == ParseAttribute(s, p, "version", "declaration version").value.value.value)
  {
    var version :- ParseAttribute(s, p, "version", "declaration version");
    DeclarationRest(s, version.value.value, version.next)
  }

  /** What follows the version value, read from `i`: the optional
      pseudo-attributes, then `?>`. Input that ends right there lacks the
      `?`. */
  function DeclarationRest(s: string, version: string, i: nat): (r: Result<Parsed<DeclarationParts>>)
    requires i <= |s|
    ensures r.Success? ==> DeclarationEnds(s, i, r.value) && r.value.value.version == version
    ensures i == |s| ==> r == Failure(Missing("declaration right question mark ('?')"))
  {
    if i == |s| then Failure(Missing("declaration right question mark ('?')"))
    else
      var optionals :- ParseOptionals(s, i, Optionals(None, None));
      DeclarationClose(s, optionals.next, DeclarationParts(version, optionals.value))
  }

  /** The `?>` that closes a declaration. */
  function DeclarationClose(s: string, p: nat, parts: DeclarationParts): (r: Result<Parsed<DeclarationParts>>)
    requires p <= |s| && ValidOptionals(parts.optionals)
    ensures r.Success? ==> DeclarationEnds(s, p, r.value) && r.value.value == parts
    ensures r.Success? <==> p + 2 <= |s| && s[p] == '?' && s[p + 1] == '>'
  {
    var question :- Take(s, p, '?', "declaration right question mark ('?')");
    var angle :- Take(s, question.next, '>', "declaration right angle bracket ('>')");
    Success(Parsed(parts, angle.next))
  }

  /** The declaration built from what was read: version 1.0 replaced by the
      version read, then the encoding and standalone values when they were
      read. An empty version breaks `setVersion`'s precondition, which is
      a contract failure and not a parse error. */
  function BuildDeclaration(parts: DeclarationParts): (r: Result<Declaration>)
    requires ValidOptionals(parts.optionals)
    ensures r.Success? <==> parts.version != ""
    ensures r.Failure? ==> r.error == PreConditionFailure("version cannot be empty.")
    ensures r.Success? ==> ValidDeclaration(r.value) && r.value.version == parts.version
    ensures r.Success? ==> r.value.encoding == (if parts.optionals.encoding.Some? then parts.optionals.encoding.value else "")
    ensures r.Success? ==>
      r.value.standalone == (if parts.optionals.standalone.Some? then parts.optionals.standalone.value else "")
  {
    if parts.version == "" then Failure(PreConditionFailure("version cannot be empty."))
    else
      var o := parts.optionals;
      var d := SetVersion(XmlDeclaration.Create(), parts.version);
      var withEncoding := if o.encoding.Some? then SetEncoding(d, o.encoding.value) else d;
      Success(if o.standalone.Some? then SetStandalone(withEncoding, o.standalone.value) else withEncoding)
  }

  // ---------------------------------------------------------------------
  // The document

  /** What the parser builds: a valid declaration, and a root element of
      the parsed form. */
  predicate ParsedDocument(d: Document) {
    && (d.declaration.Some? ==> ValidDeclaration(d.declaration.value))
    && (d.root.Some? ==> ParsedForm(d.root.value) && ValidElement(d.root.value))
  }

  /** What one top-level segment at `p` may change: the declaration only
      when it is a declaration that is the first segment, and the root only
      when it is an element; what it leaves is still of the parsed form. */
  predicate SegmentChanges(s: string, p: nat, doc: Document, first: bool, after: Document) {
    && ParsedDocument(after)
    && (after.declaration != doc.declaration ==>
          doc.declaration.None? && first && p + 1 < |s| && s[p] == '<' && s[p + 1] == '?')
    && (after.root != doc.root ==>
          doc.root.None? && p + 1 < |s| && s[p] == '<' && IsNameStartCharacter(s[p + 1]))
  }

  /** A declaration, at `<?` at `p`: a second one, or one that is not the
      first segment, is refused once it has been read whole, the second
      one first. */
  function DeclarationStep(s: string, p: nat, doc: Document, first: bool): (r: Result<Parsed<Document>>)
    requires p + 1 < |s| && s[p] == '<' && s[p + 1] == '?' && ParsedDocument(doc)
    ensures r.Success? ==> p < r.value.next <= |s| && SegmentChanges(s, p, doc, first, r.value.value)
    ensures ParseDeclaration(s, p + 2).Success? && doc.declaration.Some? ==>
      r == Failure(ParseError("An XML document can only have one declaration."))
    ensures ParseDeclaration(s, p + 2).Success? && doc.declaration.None? && !first ==>
      r == Failure(Expected("the XML declaration to be the first character in the document"))
  {
    var parts :- ParseDeclaration(s, p + 2);
    if doc.declaration.Some? then Failure(ParseError("An XML document can only have one declaration."))
    else if !first then Failure(Expected("the XML declaration to be the first character in the document"))
    else
      var decl :- BuildDeclaration(parts.value);
      Success(Parsed(SetDeclaration(doc, Some(decl)), parts.next))
  }

  /** At `<!` at `p` at the top level: a comment, which is dropped, or a
      CDATA section, which is refused once it has been read whole. */
  function BangAtRoot(s: string, p: nat, doc: Document): (r: Result<Parsed<Document>>)
    requires p + 1 < |s| && s[p + 1] == '!'
    ensures r.Success? ==> p < r.value.next <= |s| && r.value.value == doc
    ensures r.Success? ==> p + 2 < |s| && s[p + 2] == '-'
    ensures p + 2 == |s| ==>
      r == Failure(Missing("comment first left dash ('-') or CDATA first left square bracket ('[')"))
    ensures p + 2 < |s| && s[p + 2] == '[' && ParseCData(s, p + 2).Success? ==>
      r == Failure(ParseError("An XML document cannot have a CDATA tag at its root."))
  {
    var _ :- Expect(s, p + 2, c => c == '-' || c == '[',
      "comment first left dash ('-') or CDATA first left square bracket ('[')");
    if s[p + 2] == '-' then
      var comment :- ParseComment(s, p + 2);
      Success(Parsed(doc, comment.next))
    else
      var _ :- ParseCData(s, p + 2);
      Failure(ParseError("An XML document cannot have a CDATA tag at its root."))
  }

  /** An element at `p` at the top level: a second root element is refused
      once it has been read whole. */
  function RootElementStep(s: string, p: nat, doc: Document, first: bool): (r: Result<Parsed<Document>>)
    requires p + 1 < |s| && s[p] == '<' && IsNameStartCharacter(s[p + 1]) && ParsedDocument(doc)
    ensures r.Success? ==> p < r.value.next <= |s| && SegmentChanges(s, p, doc, first, r.value.value)
    ensures r.Success? ==> ParseElementAtName(s, p + 1).Success? && r.value.next == ParseElementAtName(s, p + 1).value.next
    ensures r.Success? ==> r.value.value.root == Some(ParseElementAtName(s, p + 1).value.value)
    ensures ParseElementAtName(s, p + 1).Success? && doc.root.Some? ==>
      r == Failure(ParseError("An XML document can only have one root element."))
  {
    var element :- ParseElementAtName(s, p + 1);
    if doc.root.Some? then Failure(ParseError("An XML document can only have one root element."))
    else Success(Parsed(SetRoot(doc, Some(element.value)), element.next))
  }

  /** Markup at the top level, at `<`. */
  function RootMarkup(s: string, p: nat, doc: Document, first: bool): (r: Result<Parsed<Document>>)
    requires p < |s| && s[p] == '<' && ParsedDocument(doc)
    ensures r.Success? ==> p < r.value.next <= |s| && SegmentChanges(s, p, doc, first, r.value.value)
    ensures p + 1 == |s| ==> r == Failure(Missing("tag name"))
    ensures p + 1 < |s| && s[p + 1] == '/' ==>
      r == Failure(ParseError("An XML document cannot have an end tag without a start tag."))
    ensures p + 1 < |s| && !(s[p + 1] in "?/!" || IsNameStartCharacter(s[p + 1])) ==>
      r == Failure(UnexpectedTagStart(s[p + 1]))
  {
    var q := p + 1;
    if q == |s| then Failure(Missing("tag name"))
    else if s[q] == '?' then DeclarationStep(s, p, doc, first)
    else if s[q] == '/' then Failure(ParseError("An XML document cannot have an end tag without a start tag."))
    else if s[q] == '!' then BangAtRoot(s, p, doc)
    else if IsNameStartCharacter(s[q]) then RootElementStep(s, p, doc, first)
    else Failure(UnexpectedTagStart(s[q]))
  }

  /** One segment at the top level: markup at `<`, or else a run of text,
      which must be all whitespace and is dropped. Only a declaration that
      is the first segment sets the declaration, and only an element sets
      the root. */
  function RootStep(s: string, p: nat, doc: Document, first: bool): (r: Result<Parsed<Document>>)
    requires p < |s| && ParsedDocument(doc)
    ensures r.Success? ==> p < r.value.next <= |s| && SegmentChanges(s, p, doc, first, r.value.value)
    ensures s[p] != '<' && !ParseText(s, p).value.isWhitespace ==>
      r == Failure(Expected("only whitespace and elements at the root of the document"))
  {
    if s[p] == '<' then RootMarkup(s, p, doc, first)
    else
      var text := ParseText(s, p);
      if !text.value.isWhitespace then
        Failure(Expected("only whitespace and elements at the root of the document"))
      else Success(Parsed(doc, text.next))
  }

  /** The loop of `XML.parse` from `p`; `first` says whether no segment has
      been read yet. */
  function ParseDocumentFrom(s: string, p: nat, doc: Document, first: bool): (r: Result<Document>)
    requires p <= |s| && ParsedDocument(doc)
    ensures r.Success? ==> ParsedDocument(r.value)
    ensures r.Success? && r.value.declaration != doc.declaration ==>
      doc.declaration.None? && first && p + 1 < |s| && s[p] == '<' && s[p + 1] == '?'
    ensures r.Success? && doc.root.Some? ==> r.value.root == doc.root
    decreases |s| - p
  {
    if p == |s| then Success(doc)
    else
      var step :- RootStep(s, p, doc, first);
      ParseDocumentFrom(s, step.next, step.value, false)
  }

  /** `XML.parse`: the document the whole text spells. A declaration can
      only come from the very start of the text. */
  function Parse(s: string): (r: Result<Document>)
    ensures r.Success? ==> ParsedDocument(r.value)
    ensures r.Success? && r.value.declaration.Some? ==> |s| >= 2 && s[0] == '<' && s[1] == '?'
  {
    ParseDocumentFrom(s, 0, XmlDocument.Create(), true)
  }
}

=== FILE: document_roundtrip.dfy ===
/** Reading back what was written at the document level: a declaration is
    read back field for field, text that is all whitespace is an empty
    document, and a document written in a format whose line breaks,
    indentation and space before `?>` are whitespace is read back as an
    equal document, provided its parts are ones the written form can
    express. */
module XmlDocumentRoundTrip {
  import opened Wrappers
  import opened XmlStrings
  import opened XmlCharacters
  import opened XmlFormat
  import opened XmlLexer
  import opened XmlDocumentParser
  import XmlAttribute
  import XmlDeclaration
  import XmlDocument
  import XmlElement
  import XmlElementRender
  import XmlElementParser
  import XmlElementRoundTrip

  // ---------------------------------------------------------------------
  // Which declarations and documents

  /** A declaration the written form expresses exactly: a valid one whose
      values hold no `"`, since they are written between double quotes
      without escaping. */
  predicate PlainDeclaration(d: XmlDeclaration.Declaration) {
    XmlDeclaration.ValidDeclaration(d) && '"' !in d.version && '"' !in d.encoding
  }

  /** A document whose declaration is plain and whose root element is one
      the written form expresses exactly. */
  predicate ReadableDocument(d: XmlDocument.Document) {
    && (d.declaration.Some? ==> PlainDeclaration(d.declaration.value))
    && (d.root.Some? ==> XmlElementRoundTrip.Stable(d.root.value))
  }

  /** The optional pseudo-attributes a declaration is written with: the
      present ones, that is the non-empty ones. */
  function WrittenOptionals(d: XmlDeclaration.Declaration): Optionals {
    Optionals(if d.encoding == "" then None else Some(d.encoding),
              if d.standalone == "" then None else Some(d.standalone))
  }

  // ---------------------------------------------------------------------
  // Pieces of a written declaration

  lemma DeclarationNames()
    ensures IsName("xml") && IsName("version") && IsName("encoding") && IsName("standalone")
  {
  }

  lemma SliceJoin(s: string, i: nat, j: nat, k: nat)
    requires i <= j <= k <= |s|
    ensures s[i..k] == s[i..j] + s[j..k]
  {
  }

  /** A pseudo-attribute written as `name="value"` is read as an attribute
      with that name and value. */
  lemma PseudoAttributeReads(s: string, i: nat, name: string, value: string, d: string, m: nat)
    requires IsName(name) && '"' !in value
    requires m == i + |name| + |value| + 3 <= |s| && s[i..m] == name + "=" + Quote(value)
    ensures ParseAttribute(s, i, name, d) == Success(Parsed(XmlAttribute.Attribute(name, value, '"'), m))
  {
    QuoteIsDoubleQuoted(value);
    XmlLexer.ParseAttributeReads(s, i, XmlAttribute.Attribute(name, value, '"'), name, d, m);
  }

  lemma QuoteIsDoubleQuoted(v: string)
    ensures Quote(v) == XmlAttribute.QuoteWith(v, '"')
  {
  }

  /** The whitespace before `?>` ends the loop over optional
      pseudo-attributes right at the `?`. */
  lemma OptionalsTail(s: string, p: nat, o: Optionals, w: string, e: nat)
    requires ValidOptionals(o) && IsWhitespaceText(w)
    requires e == p + |w| < |s| && s[p..e] == w && s[e] == '?'
    ensures ParseOptionals(s, p, o) == Success(Parsed(o, e))
  {
    assert !IsWhitespaceCharacter(s[e]) && !IsNameStartCharacter(s[e]);
    if w != [] {
      assert s[p] == w[0];
      WhitespaceTextIsAll(w);
      WhitespaceReads(s, p, w);
      assert ParseOptionalWhitespace(s, p).next == e;
    }
  }

  /** An optional pseudo-attribute as written, ` name="value"`, is read by
      one turn of the loop. */
  lemma OptionalStep(s: string, p: nat, o: Optionals, name: string, v: string, o2: Optionals, m: nat)
    requires ValidOptionals(o) && o.standalone.None? && '"' !in v
    requires
      || (name == "encoding" && o.encoding.None? && v != "" && o2 == o.(encoding := Some(v)))
      || (name == "standalone" && IsStandaloneAnswer(v) && o2 == o.(standalone := Some(v)))
    requires m == p + |name| + |v| + 4 <= |s| && s[p..m] == XmlDeclaration.OptionalPseudoAttribute(name, v)
    ensures ValidOptionals(o2)
    ensures ParseOptionals(s, p, o) == ParseOptionals(s, m, o2)
  {
    var q := p + 1;
    OptionalSpace(s, p, name, v, q, m);
    if name == "encoding" {
      EncodingStep(s, q, o, v, m);
    } else {
      StandaloneStep(s, q, o, v, m);
    }
    LoopTurn(s, p, o, q, o2, m);
  }

  /** The space and the pseudo-attribute after it. */
  lemma OptionalSpace(s: string, p: nat, name: string, v: string, q: nat, m: nat)
    requires name == "encoding" || name == "standalone"
    requires v != "" && q == p + 1 && m == q + |name| + |v| + 3 <= |s|
    requires s[p..m] == XmlDeclaration.OptionalPseudoAttribute(name, v)
    ensures s[q..m] == name + "=" + Quote(v) && s[q] == name[0]
    ensures ParseOptionalWhitespace(s, p) == Parsed(" ", q)
  {
    var body := name + "=" + Quote(v);
    assert XmlDeclaration.OptionalPseudoAttribute(name, v) == " " + body;
    XmlElementRoundTrip.Split2(s, p, m, " ", body, q);
    assert s[q] == body[0] == name[0];
    WhitespaceReads(s, p, " ");
  }

  /** `encoding="v"` with a non-empty `v`, before any encoding. */
  lemma EncodingStep(s: string, q: nat, o: Optionals, v: string, m: nat)
    requires ValidOptionals(o) && o.standalone.None? && o.encoding.None? && v != "" && '"' !in v
    requires m == q + |"encoding"| + |v| + 3 <= |s| && s[q..m] == "encoding" + "=" + Quote(v) && s[q] == 'e'
    ensures ParseOptional(s, q, o) == Success(Parsed(o.(encoding := Some(v)), m))
  {
    DeclarationNames();
    PseudoAttributeReads(s, q, "encoding", v, "declaration encoding", m);
  }

  /** `standalone="v"` with `v` one of the answers. */
  lemma StandaloneStep(s: string, q: nat, o: Optionals, v: string, m: nat)
    requires ValidOptionals(o) && o.standalone.None? && IsStandaloneAnswer(v) && '"' !in v
    requires m == q + |"standalone"| + |v| + 3 <= |s| && s[q..m] == "standalone" + "=" + Quote(v) && s[q] == 's'
    ensures ParseOptional(s, q, o) == Success(Parsed(o.(standalone := Some(v)), m))
  {
    DeclarationNames();
    PseudoAttributeReads(s, q, "standalone", v, "declaration standalone", m);
  }

  /** One turn of the loop: a space, then a pseudo-attribute that reads. */
  lemma LoopTurn(s: string, p: nat, o: Optionals, q: nat, o2: Optionals, m: nat)
    requires ValidOptionals(o) && o.standalone.None? && p < q < |s| && s[p] == ' '
    requires ParseOptionalWhitespace(s, p) == Parsed(" ", q) && IsNameStartCharacter(s[q])
    requires ParseOptional(s, q, o) == Success(Parsed(o2, m))
    ensures ValidOptionals(o2)
    ensures ParseOptionals(s, p, o) == ParseOptionals(s, m, o2)
  {
  }

  /** The optional pseudo-attributes of a written declaration, then its
      space before `?>`, are read as its present values. */
  lemma OptionalsRead(s: string, a1: nat, d: XmlDeclaration.Declaration, f: Format, a4: nat)
    requires PlainDeclaration(d) && IsWhitespaceText(f.spaceBeforeDeclarationEnd)
    requires
      var oe := XmlDeclaration.OptionalPseudoAttribute("encoding", d.encoding);
      var os := XmlDeclaration.OptionalPseudoAttribute("standalone", d.standalone);
      a4 == a1 + |oe| + |os| + |f.spaceBeforeDeclarationEnd| < |s|
      && s[a1..a4] == oe + os + f.spaceBeforeDeclarationEnd && s[a4] == '?'
    ensures ParseOptionals(s, a1, Optionals(None, None)) == Success(Parsed(WrittenOptionals(d), a4))
    ensures ValidOptionals(WrittenOptionals(d))
  {
    var oe := XmlDeclaration.OptionalPseudoAttribute("encoding", d.encoding);
    var os := XmlDeclaration.OptionalPseudoAttribute("standalone", d.standalone);
    var a2 := a1 + |oe|;
    var a3 := a2 + |os|;
    XmlElementRoundTrip.Split3(s, a1, a4, oe, os, f.spaceBeforeDeclarationEnd, a2, a3);
    OptionalsChain(s, a1, a2, a3, a4, d, f.spaceBeforeDeclarationEnd);
  }

  /** The optionals loop over the encoding, the standalone value and the
      space before `?>`, each found where it was written. */
  lemma OptionalsChain(s: string, a1: nat, a2: nat, a3: nat, a4: nat, d: XmlDeclaration.Declaration, w: string)
    requires PlainDeclaration(d) && IsWhitespaceText(w)
    requires a2 == a1 + |XmlDeclaration.OptionalPseudoAttribute("encoding", d.encoding)| <= |s|
    requires s[a1..a2] == XmlDeclaration.OptionalPseudoAttribute("encoding", d.encoding)
    requires a3 == a2 + |XmlDeclaration.OptionalPseudoAttribute("standalone", d.standalone)| <= |s|
    requires s[a2..a3] == XmlDeclaration.OptionalPseudoAttribute("standalone", d.standalone)
    requires a4 == a3 + |w| < |s| && s[a3..a4] == w && s[a4] == '?'
    ensures ParseOptionals(s, a1, Optionals(None, None)) == Success(Parsed(WrittenOptionals(d), a4))
    ensures ValidOptionals(WrittenOptionals(d))
  {
    EncodingRead(s, a1, d, a2);
    StandaloneThenEnd(s, a2, a3, a4, d, w);
  }

  /** The optionals found once the encoding, if written, is read. */
  function EncodingOnly(d: XmlDeclaration.Declaration): Optionals {
    Optionals(if d.encoding == "" then None else Some(d.encoding), None)
  }

  /** The encoding as written, or nothing when it is empty, is one turn of
      the optionals loop or none. */
  lemma EncodingRead(s: string, p: nat, d: XmlDeclaration.Declaration, m: nat)
    requires '"' !in d.encoding
    requires m == p + |XmlDeclaration.OptionalPseudoAttribute("encoding", d.encoding)| <= |s|
    requires s[p..m] == XmlDeclaration.OptionalPseudoAttribute("encoding", d.encoding)
    ensures ValidOptionals(EncodingOnly(d))
    ensures ParseOptionals(s, p, Optionals(None, None)) == ParseOptionals(s, m, EncodingOnly(d))
  {
    if d.encoding != "" {
      OptionalStep(s, p, Optionals(None, None), "encoding", d.encoding, EncodingOnly(d), m);
    }
  }

  /** The standalone value as written, or nothing when it is empty, then
      the space before `?>`. */
  lemma StandaloneThenEnd(s: string, a2: nat, a3: nat, a4: nat, d: XmlDeclaration.Declaration, w: string)
    requires PlainDeclaration(d) && IsWhitespaceText(w)
    requires a3 == a2 + |XmlDeclaration.OptionalPseudoAttribute("standalone", d.standalone)| <= |s|
    requires s[a2..a3] == XmlDeclaration.OptionalPseudoAttribute("standalone", d.standalone)
    requires a4 == a3 + |w| < |s| && s[a3..a4] == w && s[a4] == '?'
    ensures ParseOptionals(s, a2, EncodingOnly(d)) == Success(Parsed(WrittenOptionals(d), a4))
    ensures ValidOptionals(WrittenOptionals(d))
  {
    StandaloneRead(s, a2, d, a3);
    OptionalsTail(s, a3, WrittenOptionals(d), w, a4);
  }

  /** The standalone value as written, or nothing when it is empty, is one
      turn of the optionals loop or none. */
  lemma StandaloneRead(s: string, p: nat, d: XmlDeclaration.Declaration, m: nat)
    requires PlainDeclaration(d)
    requires m == p + |XmlDeclaration.OptionalPseudoAttribute("standalone", d.standalone)| <= |s|
    requires s[p..m] == XmlDeclaration.OptionalPseudoAttribute("standalone", d.standalone)
    ensures ValidOptionals(WrittenOptionals(d))
    ensures ParseOptionals(s, p, EncodingOnly(d)) == ParseOptionals(s, m, WrittenOptionals(d))
  {
    if d.standalone != "" {
      OptionalStep(s, p, EncodingOnly(d), "standalone", d.standalone, WrittenOptionals(d), m);
    }
  }

  /** Where the parts of a written declaration lie. */
  lemma DeclarationLayout(s: string, h: nat, d: XmlDeclaration.Declaration, f: Format, n: nat)
    returns (a1: nat, a4: nat)
    requires n == h + |XmlDeclaration.Render(d, f)| <= |s| && s[h..n] == XmlDeclaration.Render(d, f)
    ensures a1 == h + 6 + |d.version| + 10 && a1 <= a4 && a4 + 2 == n
    ensures s[h] == '<' && s[h + 1] == '?' && s[h + 2..h + 5] == "xml" && s[h + 5] == ' ' && s[h + 6] == 'v'
    ensures s[h + 6..a1] == "version" + "=" + Quote(d.version)
    ensures s[a1..a4] == XmlDeclaration.OptionalPseudoAttribute("encoding", d.encoding)
      + XmlDeclaration.OptionalPseudoAttribute("standalone", d.standalone) + f.spaceBeforeDeclarationEnd
    ensures s[a4] == '?' && s[a4 + 1] == '>'
  {
    var head := "<?xml version=";
    var qv := Quote(d.version);
    var rest := XmlDeclaration.OptionalPseudoAttribute("encoding", d.encoding)
      + XmlDeclaration.OptionalPseudoAttribute("standalone", d.standalone) + f.spaceBeforeDeclarationEnd;
    RenderParts(d, f);
    a1 := h + 14 + |qv|;
    a4 := a1 + |rest|;
    XmlElementRoundTrip.Split3(s, h, n, head, qv, rest + "?>", h + 14, a1);
    XmlElementRoundTrip.Split2(s, a1, n, rest, "?>", a4);
    HeadLayout(s, h);
    SliceJoin(s, h + 6, h + 14, a1);
    assert s[a4] == s[a4..n][0];
  }

  /** A written declaration as its fixed start, its quoted version, what
      may follow the version, and `?>`. */
  lemma RenderParts(d: XmlDeclaration.Declaration, f: Format)
    ensures XmlDeclaration.Render(d, f) == "<?xml version=" + Quote(d.version)
      + (XmlDeclaration.OptionalPseudoAttribute("encoding", d.encoding)
         + XmlDeclaration.OptionalPseudoAttribute("standalone", d.standalone)
         + f.spaceBeforeDeclarationEnd + "?>")
  {
  }

  /** The fixed start of a written declaration, `<?xml version=`. */
  lemma HeadLayout(s: string, h: nat)
    requires h + 14 <= |s| && s[h..h + 14] == "<?xml version="
    ensures s[h] == '<' && s[h + 1] == '?' && s[h + 2..h + 5] == "xml" && s[h + 5] == ' ' && s[h + 6] == 'v'
    ensures s[h + 6..h + 14] == "version="
  {
    var t := s[h..h + 14];
    assert forall k :: 0 <= k < 14 ==> s[h + k] == t[k];
    assert s[h + 2..h + 5] == "xml" by {
      assert s[h + 2] == t[2] && s[h + 3] == t[3] && s[h + 4] == t[4];
    }
    assert s[h + 6..h + 14] == "version=" by {
      assert s[h + 6] == t[6] && s[h + 7] == t[7] && s[h + 8] == t[8] && s[h + 9] == t[9];
      assert s[h + 10] == t[10] && s[h + 11] == t[11] && s[h + 12] == t[12] && s[h + 13] == t[13];
    }
  }

  /** A version written as `version="..."`, followed by a rest that reads,
      is read as the version and that rest. */
  lemma VersionThen(s: string, p: nat, version: string, a1: nat, r: Parsed<DeclarationParts>)
    requires '"' !in version && a1 == p + |version| + 10 <= |s|
    requires s[p..a1] == "version" + "=" + Quote(version)
    requires DeclarationRest(s, version, a1) == Success(r)
    ensures DeclarationBody(s, p) == Success(r)
  {
    DeclarationNames();
    PseudoAttributeReads(s, p, "version", version, "declaration version", a1);
  }

  /** What follows the version of a written declaration is read as its
      present values, up to the end of the declaration. */
  lemma RestReads(s: string, a1: nat, d: XmlDeclaration.Declaration, f: Format, a4: nat, n: nat)
    requires PlainDeclaration(d) && IsWhitespaceText(f.spaceBeforeDeclarationEnd)
    requires a1 <= a4 && a4 + 2 == n <= |s|
    requires s[a1..a4] == XmlDeclaration.OptionalPseudoAttribute("encoding", d.encoding)
      + XmlDeclaration.OptionalPseudoAttribute("standalone", d.standalone) + f.spaceBeforeDeclarationEnd
    requires s[a4] == '?' && s[a4 + 1] == '>'
    ensures DeclarationRest(s, d.version, a1) == Success(Parsed(DeclarationParts(d.version, WrittenOptionals(d)), n))
  {
    OptionalsRead(s, a1, d, f, a4);
    RestComposes(s, d.version, a1, WrittenOptionals(d), a4, n);
  }

  /** The optional pseudo-attributes, then `?>`, put together. */
  lemma RestComposes(s: string, version: string, a1: nat, o: Optionals, a4: nat, n: nat)
    requires a1 < |s| && ValidOptionals(o)
    requires ParseOptionals(s, a1, Optionals(None, None)) == Success(Parsed(o, a4))
    requires a4 + 2 == n <= |s| && s[a4] == '?' && s[a4 + 1] == '>'
    ensures DeclarationRest(s, version, a1) == Success(Parsed(DeclarationParts(version, o), n))
  {
    CloseReads(s, a4, DeclarationParts(version, o), n);
  }

  /** `?>` closes a declaration. */
  lemma CloseReads(s: string, p: nat, parts: DeclarationParts, n: nat)
    requires p + 2 == n <= |s| && s[p] == '?' && s[p + 1] == '>' && ValidOptionals(parts.optionals)
    ensures DeclarationClose(s, p, parts) == Success(Parsed(parts, n))
  {
  }

  /** A written declaration, read from just after its `<?`, is read as its
      version and present values, and uses up the whole of it. */
  lemma DeclarationReads(s: string, h: nat, d: XmlDeclaration.Declaration, f: Format, n: nat)
    requires PlainDeclaration(d) && IsWhitespaceText(f.spaceBeforeDeclarationEnd)
    requires n == h + |XmlDeclaration.Render(d, f)| <= |s| && s[h..n] == XmlDeclaration.Render(d, f)
    ensures h + 1 < |s| && s[h] == '<' && s[h + 1] == '?'
    ensures ParseDeclaration(s, h + 2) == Success(Parsed(DeclarationParts(d.version, WrittenOptionals(d)), n))
  {
    var a1, a4 := DeclarationLayout(s, h, d, f, n);
    HeadReads(s, h);
    RestReads(s, a1, d, f, a4, n);
    VersionThen(s, h + 6, d.version, a1, Parsed(DeclarationParts(d.version, WrittenOptionals(d)), n));
  }

  /** `xml` and one space before a `v` lead on to the version. */
  lemma HeadReads(s: string, h: nat)
    requires h + 7 <= |s| && s[h + 2..h + 5] == "xml" && s[h + 5] == ' ' && s[h + 6] == 'v'
    ensures ParseDeclaration(s, h + 2) == DeclarationBody(s, h + 6)
  {
    DeclarationNames();
    ParseNameReads(s, h + 2, "xml", "");
    assert s[h + 5..h + 6] == " ";
    WhitespaceReads(s, h + 5, " ");
    NameComposes(s, h + 2);
  }

  /** The name `xml` and one space, put together. */
  lemma NameComposes(s: string, i: nat)
    requires i + 4 <= |s| && IsNameStartCharacter(s[i]) && s[i + 3] == ' '
    requires ParseName(s, i, "") == Success(Parsed("xml", i + 3))
    requires ParseOptionalWhitespace(s, i + 3) == Parsed(" ", i + 4)
    ensures ParseDeclaration(s, i) == DeclarationBody(s, i + 4)
  {
  }

  /** The parts a plain declaration is written with build that same
      declaration. */
  lemma BuildWrittenDeclaration(d: XmlDeclaration.Declaration)
    requires PlainDeclaration(d)
    ensures ValidOptionals(WrittenOptionals(d))
    ensures BuildDeclaration(DeclarationParts(d.version, WrittenOptionals(d))) == Success(d)
  {
  }

  // ---------------------------------------------------------------------
  // Segments of a written document

  /** The loop moves on by one segment. */
  lemma Continue(s: string, p: nat, doc: XmlDocument.Document, first: bool, next: nat, after: XmlDocument.Document)
    requires p < |s| && ParsedDocument(doc) && RootStep(s, p, doc, first) == Success(Parsed(after, next))
    ensures p < next <= |s| && ParsedDocument(after)
    ensures ParseDocumentFrom(s, p, doc, first) == ParseDocumentFrom(s, next, after, false)
  {
  }

  /** A written declaration at the very start is read as its version and
      present values, which build the same declaration. */
  lemma DeclarationSegment(s: string, h: nat, d: XmlDeclaration.Declaration, f: Format, n: nat)
    requires PlainDeclaration(d) && IsWhitespaceText(f.spaceBeforeDeclarationEnd)
    requires n == h + |XmlDeclaration.Render(d, f)| <= |s| && s[h..n] == XmlDeclaration.Render(d, f)
    ensures h + 1 < |s| && s[h] == '<' && s[h + 1] == '?'
    ensures ParseDeclaration(s, h + 2) == Success(Parsed(DeclarationParts(d.version, WrittenOptionals(d)), n))
    ensures ValidOptionals(WrittenOptionals(d))
    ensures BuildDeclaration(DeclarationParts(d.version, WrittenOptionals(d))) == Success(d)
  {
    DeclarationReads(s, h, d, f, n);
    BuildWrittenDeclaration(d);
  }

  /** A text that starts with a declaration that builds is read as that
      declaration, then whatever the rest of the text gives. */
  lemma DeclarationFirst(s: string, h: nat, parts: DeclarationParts, n: nat, d: XmlDeclaration.Declaration, r: XmlDocument.Document)
    requires h == 0 && h + 1 < |s| && s[h] == '<' && s[h + 1] == '?'
    requires ParseDeclaration(s, h + 2) == Success(Parsed(parts, n)) && ValidOptionals(parts.optionals)
    requires BuildDeclaration(parts) == Success(d)
    requires ParseDocumentFrom(s, n, XmlDocument.Document(Some(d), None), false) == Success(r)
    ensures Parse(s) == Success(r)
  {
    DeclarationStepComposes(s, h, parts, n, d);
    FirstThenRest(s, h, XmlDocument.Document(Some(d), None), n, r);
  }

  /** The first root step, at a declaration that builds. */
  lemma DeclarationStepComposes(s: string, h: nat, parts: DeclarationParts, n: nat, d: XmlDeclaration.Declaration)
    requires h + 1 < |s| && s[h] == '<' && s[h + 1] == '?'
    requires ParseDeclaration(s, h + 2) == Success(Parsed(parts, n)) && ValidOptionals(parts.optionals)
    requires BuildDeclaration(parts) == Success(d)
    ensures RootStep(s, h, XmlDocument.Create(), true) == Success(Parsed(XmlDocument.Document(Some(d), None), n))
  {
    MarkupStep(s, h, XmlDocument.Create(), true);
    DeclarationMarkup(s, h, XmlDocument.Create(), true);
    FirstDeclaration(s, h, parts, n, d);
  }

  /** At `<`, the root step is the markup step. */
  lemma MarkupStep(s: string, p: nat, doc: XmlDocument.Document, first: bool)
    requires p < |s| && s[p] == '<' && ParsedDocument(doc)
    ensures RootStep(s, p, doc, first) == RootMarkup(s, p, doc, first)
  {
  }

  /** At `<?`, the markup step is the declaration step. */
  lemma DeclarationMarkup(s: string, p: nat, doc: XmlDocument.Document, first: bool)
    requires p + 1 < |s| && s[p] == '<' && s[p + 1] == '?' && ParsedDocument(doc)
    ensures RootMarkup(s, p, doc, first) == DeclarationStep(s, p, doc, first)
  {
  }

  /** A declaration that builds, first in an empty document, is taken. */
  lemma FirstDeclaration(s: string, h: nat, parts: DeclarationParts, n: nat, d: XmlDeclaration.Declaration)
    requires h + 1 < |s| && s[h] == '<' && s[h + 1] == '?'
    requires ParseDeclaration(s, h + 2) == Success(Parsed(parts, n)) && ValidOptionals(parts.optionals)
    requires BuildDeclaration(parts) == Success(d)
    ensures DeclarationStep(s, h, XmlDocument.Create(), true) == Success(Parsed(XmlDocument.Document(Some(d), None), n))
  {
  }

  /** Whitespace up to the next `<` or the end is skipped. */
  lemma WhitespaceSegment(s: string, p: nat, doc: XmlDocument.Document, first: bool, w: string)
    requires ParsedDocument(doc) && IsWhitespaceText(w) && w != []
    requires p + |w| <= |s| && s[p..p + |w|] == w && (p + |w| == |s| || s[p + |w|] == '<')
    ensures RootStep(s, p, doc, first) == Success(Parsed(doc, p + |w|))
  {
    WhitespaceTextIsAll(w);
    assert '<' !in w by {
      forall k | 0 <= k < |w| ensures w[k] != '<' {
        assert IsWhitespaceCharacter(w[k]);
      }
    }
    TextReads(s, p, w);
  }

  /** The first characters of a written element: `<` and the first
      character of its name. */
  lemma RenderOpens(e: XmlElement.Element, f: Format, depth: nat)
    requires e.name != ""
    ensures var r := XmlElementRender.RenderElement(e, f, depth);
      |r| > 1 && r[0] == '<' && r[1] == e.name[0]
  {
    var t := XmlElementRender.OpenTag(e);
    assert t[..1 + |e.name|][0] == '<' && t[..1 + |e.name|][1] == e.name[0];
    XmlElementRoundTrip.RenderNotEmpty(e, f, depth);
  }

  /** A written element is read as the root, when there is none yet. */
  lemma RootSegment(s: string, h: nat, e: XmlElement.Element, f: Format, n: nat, doc: XmlDocument.Document, first: bool)
    returns (x: XmlElement.Element)
    requires ParsedDocument(doc) && doc.root.None?
    requires XmlElementRoundTrip.WhitespaceFormat(f) && XmlElementRoundTrip.Stable(e)
    requires h < n <= |s| && s[h..n] == XmlElementRender.RenderElement(e, f, 0)
    ensures RootStep(s, h, doc, first) == Success(Parsed(doc.(root := Some(x)), n))
    ensures XmlElement.ElementEq(x, e)
  {
    x := XmlElementRoundTrip.ElementReads(s, h, e, f, 0, n);
    OpensAt(s, h, e, f, n);
    RootElementComposes(s, h, doc, first, x, n);
  }

  /** A written element starts with `<` and the first character of its name. */
  lemma OpensAt(s: string, h: nat, e: XmlElement.Element, f: Format, n: nat)
    requires XmlElementRoundTrip.Stable(e)
    requires h < n <= |s| && s[h..n] == XmlElementRender.RenderElement(e, f, 0)
    ensures h + 1 < |s| && s[h] == '<' && IsNameStartCharacter(s[h + 1])
  {
    RenderOpens(e, f, 0);
    assert s[h] == s[h..n][0] && s[h + 1] == s[h..n][1];
  }

  /** The root step, when what it reads is the first root element. */
  lemma RootElementComposes(s: string, p: nat, doc: XmlDocument.Document, first: bool, x: XmlElement.Element, n: nat)
    requires p + 1 < |s| && s[p] == '<' && IsNameStartCharacter(s[p + 1])
    requires ParsedDocument(doc) && doc.root.None?
    requires XmlElementParser.ParseElementAtName(s, p + 1) == Success(Parsed(x, n))
    ensures RootStep(s, p, doc, first) == Success(Parsed(doc.(root := Some(x)), n))
  {
    assert RootStep(s, p, doc, first) == RootMarkup(s, p, doc, first);
    assert s[p + 1] != '?' && s[p + 1] != '/' && s[p + 1] != '!';
    assert RootMarkup(s, p, doc, first) == RootElementStep(s, p, doc, first);
  }

  // ---------------------------------------------------------------------
  // Whole documents

  /** Text that is all whitespace, the empty text included, is an empty
      document. */
  lemma WhitespaceIsEmptyDocument(s: string)
    requires IsWhitespaceText(s)
    ensures Parse(s) == Success(XmlDocument.Create())
  {
    if s != [] {
      assert s[0..|s|] == s;
      WhitespaceSegment(s, 0, XmlDocument.Create(), true, s);
      Continue(s, 0, XmlDocument.Create(), true, |s|, XmlDocument.Create());
    }
  }

  /** A declaration written on its own is read as a document with that
      declaration and no root. */
  lemma DeclarationRoundTrip(d: XmlDeclaration.Declaration, f: Format)
    requires PlainDeclaration(d) && IsWhitespaceText(f.spaceBeforeDeclarationEnd)
    ensures Parse(XmlDeclaration.Render(d, f)) == Success(XmlDocument.Document(Some(d), None))
  {
    var s := XmlDeclaration.Render(d, f);
    var h := 0;
    assert s[h..|s|] == s;
    DeclarationSegment(s, h, d, f, |s|);
    DeclarationFirst(s, h, DeclarationParts(d.version, WrittenOptionals(d)), |s|, d, XmlDocument.Document(Some(d), None));
  }

  /** A document with both parts: the declaration, the line break, if any,
      then the root. */
  lemma BothPartsRead(s: string, d: XmlDeclaration.Declaration, e: XmlElement.Element, f: Format)
    returns (x: XmlElement.Element)
    requires ValidFormat(f) && PlainDeclaration(d) && XmlElementRoundTrip.Stable(e)
    requires s == XmlDeclaration.Render(d, f) + f.newLine + XmlElementRender.RenderElement(e, f, 0)
    ensures Parse(s) == Success(XmlDocument.Document(Some(d), Some(x)))
    ensures XmlElement.ElementEq(x, e)
  {
    var h := 0;
    var n1 := h + |XmlDeclaration.Render(d, f)|;
    var n2 := n1 + |f.newLine|;
    XmlElementRoundTrip.Split3(s, h, |s|, XmlDeclaration.Render(d, f), f.newLine,
      XmlElementRender.RenderElement(e, f, 0), n1, n2);
    x := PartsRead(s, h, d, e, f, n1);
  }

  /** The declaration segment, then the tail. */
  lemma PartsRead(s: string, h: nat, d: XmlDeclaration.Declaration, e: XmlElement.Element, f: Format, n1: nat)
    returns (x: XmlElement.Element)
    requires ValidFormat(f) && PlainDeclaration(d) && XmlElementRoundTrip.Stable(e)
    requires h == 0 && n1 == h + |XmlDeclaration.Render(d, f)| && n1 + |f.newLine| < |s|
    requires s[h..n1] == XmlDeclaration.Render(d, f) && s[n1..n1 + |f.newLine|] == f.newLine
    requires s[n1 + |f.newLine|..|s|] == XmlElementRender.RenderElement(e, f, 0)
    ensures Parse(s) == Success(XmlDocument.Document(Some(d), Some(x)))
    ensures XmlElement.ElementEq(x, e)
  {
    DeclarationSegment(s, h, d, f, n1);
    x := RootAfterDeclaration(s, n1, d, e, f);
    DeclarationFirst(s, h, DeclarationParts(d.version, WrittenOptionals(d)), n1, d,
      XmlDocument.Document(Some(d), Some(x)));
  }

  /** After a declaration, the line break and a written element are read as
      the root. */
  lemma RootAfterDeclaration(s: string, n1: nat, d: XmlDeclaration.Declaration, e: XmlElement.Element, f: Format)
    returns (x: XmlElement.Element)
    requires XmlDeclaration.ValidDeclaration(d) && XmlElementRoundTrip.WhitespaceFormat(f) && XmlElementRoundTrip.Stable(e)
    requires n1 + |f.newLine| < |s| && s[n1..n1 + |f.newLine|] == f.newLine
    requires s[n1 + |f.newLine|..|s|] == XmlElementRender.RenderElement(e, f, 0)
    ensures ParseDocumentFrom(s, n1, XmlDocument.Document(Some(d), None), false)
      == Success(XmlDocument.Document(Some(d), Some(x)))
    ensures XmlElement.ElementEq(x, e)
  {
    x := TailReads(s, n1, XmlDocument.Document(Some(d), None), e, f, f.newLine);
  }

  /** The whole text is read as the first segment, then the rest. */
  lemma FirstThenRest(s: string, h: nat, doc: XmlDocument.Document, n: nat, r: XmlDocument.Document)
    requires h == 0 && h < |s| && ParsedDocument(doc)
    requires RootStep(s, h, XmlDocument.Create(), true) == Success(Parsed(doc, n))
    requires ParseDocumentFrom(s, n, doc, false) == Success(r)
    ensures Parse(s) == Success(r)
  {
    Continue(s, h, XmlDocument.Create(), true, n, doc);
  }

  /** After the first segment: optional whitespace, then a written element
      as the root, up to the end of the text. */
  lemma TailReads(s: string, p: nat, doc: XmlDocument.Document, e: XmlElement.Element, f: Format, w: string)
    returns (x: XmlElement.Element)
    requires ParsedDocument(doc) && doc.root.None? && IsWhitespaceText(w)
    requires XmlElementRoundTrip.WhitespaceFormat(f) && XmlElementRoundTrip.Stable(e)
    requires p + |w| < |s| && s[p..p + |w|] == w && s[p + |w|..|s|] == XmlElementRender.RenderElement(e, f, 0)
    ensures ParseDocumentFrom(s, p, doc, false) == Success(doc.(root := Some(x)))
    ensures XmlElement.ElementEq(x, e)
  {
    var m := p + |w|;
    OpensAt(s, m, e, f, |s|);
    if w != [] {
      WhitespaceSegment(s, p, doc, false, w);
      Continue(s, p, doc, false, m, doc);
    }
    x := RootSegment(s, m, e, f, |s|, doc, false);
    Continue(s, m, doc, false, |s|, doc.(root := Some(x)));
  }

  /** A readable document written in a whitespace format is read back as an
      equal document: the same declaration and an equal root element. */
  lemma DocumentRoundTrip(d: XmlDocument.Document, f: Format) returns (x: XmlDocument.Document)
    requires ValidFormat(f) && ReadableDocument(d)
    ensures Parse(XmlDocument.Render(d, f)) == Success(x)
    ensures XmlDocument.DocumentEq(x, d)
  {
    var s := XmlDocument.Render(d, f);
    XmlDocument.RenderCases(d, f);
    if d.declaration.None? && d.root.None? {
      x := d;
    } else if d.root.None? {
      DeclarationRoundTrip(d.declaration.value, f);
      x := d;
    } else if d.declaration.None? {
      var e := d.root.value;
      assert s[0..|s|] == s;
      RenderOpens(e, f, 0);
      var root := RootSegment(s, 0, e, f, |s|, XmlDocument.Create(), true);
      Continue(s, 0, XmlDocument.Create(), true, |s|, XmlDocument.Document(None, Some(root)));
      x := XmlDocument.Document(None, Some(root));
    } else {
      var root := BothPartsRead(s, d.declaration.value, d.root.value, f);
      x := XmlDocument.Document(d.declaration, Some(root));
    }
    XmlDocument.DocumentEqIsEquivalence(x, d, d);
  }
}

=== FILE: element.dfy ===
/** An element: a name, a split flag (start and end tag, or one empty-element
    tag), an attribute store and an ordered list of children. Every mutator
    of the library is a function returning the updated element. */
module XmlElement {
  import opened Wrappers
  import opened XmlStrings
  import opened XmlCharacters
  import opened XmlFormat
  import opened XmlAttributeMap
  import XmlText
  import XmlComment
  import XmlCData
  import XmlAttribute

  datatype Element = Element(name: string, split: bool, attributes: seq<AttrEntry>, children: seq<Child>)

  /** The closed set of things an element may contain. */
  datatype Child =
    | ElementChild(element: Element)
    | TextChild(textNode: XmlText.Text)
    | CommentChild(commentNode: XmlComment.Comment)
    | CDataChild(cdataNode: XmlCData.CData)

  /** A text child whose stored flag says it is whitespace. */
  predicate IsWhitespaceTextChild(c: Child) {
    c.TextChild? && c.textNode.isWhitespace
  }

  /** A child the empty-element form cannot hold: an element, or text whose
      flag says it is not whitespace. */
  predicate IsBlockingChild(c: Child) {
    c.ElementChild? || (c.TextChild? && !c.textNode.isWhitespace)
  }

  /** A child the library's check cannot cast to text. */
  predicate IsCommentOrCData(c: Child) {
    c.CommentChild? || c.CDataChild?
  }

  /** Every child before position `k` is whitespace text. */
  predicate WhitespaceBefore(cs: seq<Child>, k: nat)
    requires k <= |cs|
  {
    forall j :: 0 <= j < k ==> IsWhitespaceTextChild(cs[j])
  }

  /** What the library maintains for every element: a non-empty name,
      non-empty attribute names without repeats, non-empty text children,
      and only whitespace text in an element that is not split. */
  predicate ValidElement(e: Element)
    decreases e, 1
  {
    && e.name != ""
    && UniqueKeys(e.attributes)
    && NonEmptyKeys(e.attributes)
    && (!e.split ==> forall k :: 0 <= k < |e.children| ==> IsWhitespaceTextChild(e.children[k]))
    && ValidChildren(e.children)
  }

  predicate ValidChildren(cs: seq<Child>)
    decreases cs, 0
  {
    forall k :: 0 <= k < |cs| ==> ValidChild(cs[k])
  }

  predicate ValidChild(c: Child)
    decreases c, 2
  {
    match c
    case ElementChild(x) => ValidElement(x)
    case TextChild(t) => t.text != ""
    case _ => true
  }

  // ---------------------------------------------------------------------
  // Creation and the split flag

  /** An element with no attributes and no children. */
  function Create(name: string, split: bool): (e: Element)
    requires name != ""
    ensures ValidElement(e)
    ensures e.name == name && e.split == split && e.attributes == [] && e.children == []
  {
    Element(name, split, [], [])
  }

  /** The one-argument `create`: not split. */
  function CreateNamed(name: string): (e: Element)
    requires name != ""
    ensures ValidElement(e) && e == Create(name, false)
  {
    Create(name, false)
  }

  /** The library's message when `setSplit(false)` is refused. */
  const SplitRefusedMessage := "split || !this.getChildren().contains((XMLElementChild child) -> child instanceof XMLElement || !((XMLText)child).isWhitespace()) cannot be false."

  /** The position of the first child that is not whitespace text, or the
      number of children when there is none. */
  function FirstNonWhitespace(cs: seq<Child>): (i: nat)
    ensures i <= |cs|
    ensures forall j :: 0 <= j < i ==> IsWhitespaceTextChild(cs[j])
    ensures i < |cs| ==> !IsWhitespaceTextChild(cs[i])
  {
    if cs == [] || !IsWhitespaceTextChild(cs[0]) then 0
    else
      var i := 1 + FirstNonWhitespace(cs[1..]);
      assert forall j :: 1 <= j < i ==> cs[j] == cs[1..][j - 1];
      i
  }

  /** The library's check, evaluated lazily child by child as its `contains`
      does: an element or non-whitespace text answers true, whitespace text
      moves on, and a comment or CDATA child fails the cast to text. So the
      first child that is not whitespace text decides. */
  function ContainsBlockingChild(cs: seq<Child>): (r: Result<bool>)
    ensures r == Success(false) <==> FirstNonWhitespace(cs) == |cs|
    ensures r == Success(true) <==> FirstNonWhitespace(cs) < |cs| && IsBlockingChild(cs[FirstNonWhitespace(cs)])
    ensures r == Failure(ClassCastFailure) <==>
      FirstNonWhitespace(cs) < |cs| && IsCommentOrCData(cs[FirstNonWhitespace(cs)])
    ensures r.Failure? ==> r.error == ClassCastFailure
  {
    if cs == [] then Success(false)
    else
      match cs[0]
      case ElementChild(_) => Success(true)
      case TextChild(t) => if !t.isWhitespace then Success(true) else ContainsBlockingChild(cs[1..])
      case _ => Failure(ClassCastFailure)
  }

  /** Splitting is always allowed. Joining (split false) is allowed exactly
      when every child is whitespace text; it is refused with a cast failure
      when the first child that is not whitespace text is a comment or CDATA
      section, and with a precondition failure otherwise. Only the flag
      changes. */
  function SetSplit(e: Element, split: bool): (r: Result<Element>)
    ensures r.Success? <==> split || forall k :: 0 <= k < |e.children| ==> IsWhitespaceTextChild(e.children[k])
    ensures r.Success? ==> r.value == e.(split := split)
    ensures r.Success? && ValidElement(e) ==> ValidElement(r.value)
    ensures r == Failure(ClassCastFailure) <==>
      !split && exists k :: 0 <= k < |e.children| && IsCommentOrCData(e.children[k]) && WhitespaceBefore(e.children, k)
    ensures r.Failure? && r.error != ClassCastFailure ==> r.error == PreConditionFailure(SplitRefusedMessage)
  {
    var i := FirstNonWhitespace(e.children);
    assert (forall k :: 0 <= k < |e.children| ==> IsWhitespaceTextChild(e.children[k])) <==> i == |e.children|;
    assert (exists k :: 0 <= k < |e.children| && IsCommentOrCData(e.children[k]) && WhitespaceBefore(e.children, k)) <==>
      i < |e.children| && IsCommentOrCData(e.children[i]) by {
      if k :| 0 <= k < |e.children| && IsCommentOrCData(e.children[k]) && WhitespaceBefore(e.children, k) {
        assert !IsWhitespaceTextChild(e.children[k]);
        assert i == k;
      }
    }
    if split then Success(e.(split := true))
    else
      var blocked :- ContainsBlockingChild(e.children);
      if blocked then Failure(PreConditionFailure(SplitRefusedMessage))
      else Success(e.(split := false))
  }

  // ---------------------------------------------------------------------
  // Attributes

  /** Sets one attribute; a name already present keeps its place and takes
      the new value (last write wins). */
  function SetAttribute(e: Element, name: string, value: string): (r: Element)
    requires name != ""
    ensures Lookup(r.attributes, name) == Some(value)
    ensures ToMap(r.attributes) == ToMap(e.attributes)[name := value]
    ensures r.name == e.name && r.split == e.split && r.children == e.children
    ensures ValidElement(e) ==> ValidElement(r)
    ensures ValidElement(e) && name in Keys(e.attributes) ==> UpdatedInPlace(e.attributes, name, value, r.attributes)
    ensures name !in Keys(e.attributes) ==> r.attributes == e.attributes + [AttrEntry(name, value)]
  {
    e.(attributes := Put(e.attributes, name, value))
  }

  /** Sets the attribute's name and value; its quote character is not kept. */
  function SetAttributeFrom(e: Element, a: XmlAttribute.Attribute): (r: Element)
    requires XmlAttribute.ValidAttribute(a)
    ensures ToMap(r.attributes) == ToMap(e.attributes)[a.name := a.value]
    ensures r.name == e.name && r.split == e.split && r.children == e.children
    ensures ValidElement(e) ==> ValidElement(r)
  {
    SetAttribute(e, a.name, a.value)
  }

  predicate ValidAttributes(attrs: seq<XmlAttribute.Attribute>) {
    forall k :: 0 <= k < |attrs| ==> XmlAttribute.ValidAttribute(attrs[k])
  }

  /** The map a sequence of attributes denotes when written one after the
      other, later ones overriding earlier ones. */
  function AttributesMap(attrs: seq<XmlAttribute.Attribute>): map<string, string> {
    if attrs == [] then map[]
    else AttributesMap(attrs[..|attrs| - 1])[attrs[|attrs| - 1].name := attrs[|attrs| - 1].value]
  }

  /** Sets each attribute in turn. */
  function SetAttributes(e: Element, attrs: seq<XmlAttribute.Attribute>): (r: Element)
    requires ValidAttributes(attrs)
    ensures ToMap(r.attributes) == ToMap(e.attributes) + AttributesMap(attrs)
    ensures r.name == e.name && r.split == e.split && r.children == e.children
    ensures ValidElement(e) ==> ValidElement(r)
  {
    if attrs == [] then e
    else
      var init := attrs[..|attrs| - 1];
      var last := attrs[|attrs| - 1];
      assert ValidAttributes(init) by {
        forall k | 0 <= k < |init| ensures XmlAttribute.ValidAttribute(init[k]) {
          assert init[k] == attrs[k];
        }
      }
      var prev := SetAttributes(e, init);
      var r := SetAttributeFrom(prev, last);
      assert AttributesMap(attrs) == AttributesMap(init)[last.name := last.value];
      UnionUpdate(ToMap(e.attributes), AttributesMap(init), last.name, last.value);
      r
  }

  /** Updating a union is updating its right operand. A lemma of its own
      for the same reason as `AppendAssociates`. */
  lemma UnionUpdate(m: map<string, string>, n: map<string, string>, k: string, v: string)
    ensures (m + n)[k := v] == m + n[k := v]
  {
  }

  /** The attributes as attribute values, each quoted with `"`. */
  function GetAttributes(e: Element): (r: seq<XmlAttribute.Attribute>)
    requires ValidElement(e)
    ensures ValidAttributes(r)
    ensures |r| == |e.attributes|
    ensures forall k :: 0 <= k < |r| ==> r[k] == XmlAttribute.Attribute(e.attributes[k].key, e.attributes[k].value, '"')
  {
    AsAttributes(e.attributes)
  }

  function AsAttributes(a: seq<AttrEntry>): (r: seq<XmlAttribute.Attribute>)
    requires NonEmptyKeys(a)
    ensures ValidAttributes(r)
    ensures |r| == |a|
    ensures forall k :: 0 <= k < |r| ==> r[k] == XmlAttribute.Attribute(a[k].key, a[k].value, '"')
  {
    assert forall k :: 0 <= k < |a| ==> a[k].key != "" by {
      forall k | 0 <= k < |a| ensures a[k].key != "" {
        KeysAt(a, k);
      }
    }
    if a == [] then []
    else [XmlAttribute.Create(a[0].key, a[0].value)] + AsAttributes(a[1..])
  }

  /** Copying the attributes of one element onto a fresh element gives the
      same attribute map. */
  lemma {:induction false} GetAttributesRoundTrip(e: Element, name: string)
    requires ValidElement(e) && name != ""
    ensures ToMap(SetAttributes(Create(name, false), GetAttributes(e)).attributes) == ToMap(e.attributes)
  {
    AsAttributesMap(e.attributes);
  }

  lemma {:induction false} AsAttributesMap(a: seq<AttrEntry>)
    requires NonEmptyKeys(a) && UniqueKeys(a)
    ensures AttributesMap(AsAttributes(a)) == ToMap(a)
  {
    if a != [] {
      var n := |a|;
      var init, x := a[..n - 1], a[n - 1];
      assert init + [x] == a;
      UniqueLast(a);
      UniqueInit(a);
      AsAttributesMap(init);
      var r := AsAttributes(a);
      assert r[..n - 1] == AsAttributes(init);
      calc {
        AttributesMap(r);
        AttributesMap(r[..n - 1])[x.key := x.value];
        ToMap(init)[x.key := x.value];
        { ToMapSnoc(init, x); }
        ToMap(init + [x]);
      }
    }
  }

  lemma {:induction false} KeysSnoc(a: seq<AttrEntry>, x: AttrEntry)
    ensures Keys(a + [x]) == Keys(a) + {x.key}
  {
    if a != [] {
      assert (a + [x])[1..] == a[1..] + [x];
      KeysSnoc(a[1..], x);
    } else {
      assert [x][1..] == [];
    }
  }

  /** Appending an entry for a new name extends the denoted map. */
  lemma {:induction false} ToMapSnoc(a: seq<AttrEntry>, x: AttrEntry)
    requires x.key !in Keys(a)
    ensures ToMap(a + [x]) == ToMap(a)[x.key := x.value]
  {
    if a != [] {
      assert (a + [x])[1..] == a[1..] + [x];
      ToMapSnoc(a[1..], x);
    } else {
      assert [x][1..] == [];
    }
  }

  lemma {:induction false} UniqueInit(a: seq<AttrEntry>)
    requires a != [] && UniqueKeys(a)
    ensures UniqueKeys(a[..|a| - 1])
    ensures NonEmptyKeys(a) ==> NonEmptyKeys(a[..|a| - 1])
  {
    var init := a[..|a| - 1];
    if |a| > 1 {
      assert init[1..] == a[1..][..|a[1..]| - 1];
      UniqueInit(a[1..]);
      assert a[0].key !in Keys(init[1..]) by {
        SubKeys(a[1..]);
      }
    }
    SubKeys(a);
  }

  lemma {:induction false} SubKeys(a: seq<AttrEntry>)
    requires a != []
    ensures Keys(a[..|a| - 1]) <= Keys(a)
  {
    KeysSnoc(a[..|a| - 1], a[|a| - 1]);
    assert a[..|a| - 1] + [a[|a| - 1]] == a;
  }

  lemma {:induction false} UniqueLast(a: seq<AttrEntry>)
    requires a != [] && UniqueKeys(a)
    ensures a[|a| - 1].key !in Keys(a[..|a| - 1])
  {
    if |a| > 1 {
      var init := a[..|a| - 1];
      UniqueLast(a[1..]);
      assert a[1..][..|a[1..]| - 1] == init[1..];
      assert Keys(init) == {init[0].key} + Keys(init[1..]);
      KeysAt(a[1..], |a| - 2);
    }
  }

  /** The library's not-found message for `getAttributeValue`. */
  function AttributeNotFoundMessage(name: string): string {
    "Couldn't find an attribute named " + Quote(name) + " in the element."
  }

  /** The value of the named attribute, or a not-found failure naming it. */
  function GetAttributeValue(e: Element, name: string): (r: Result<string>)
    requires name != ""
    ensures r.Success? <==> name in ToMap(e.attributes)
    ensures r.Success? ==> r.value == ToMap(e.attributes)[name]
    ensures r.Failure? ==> r.error == NotFound(AttributeNotFoundMessage(name))
  {
    match Lookup(e.attributes, name)
    case Some(v) => Success(v)
    case None => Failure(NotFound(AttributeNotFoundMessage(name)))
  }

  /** A value just set is the value read back, and other names are not
      disturbed. */
  lemma SetThenGetAttribute(e: Element, name: string, value: string, other: string)
    requires name != "" && other != "" && other != name
    ensures GetAttributeValue(SetAttribute(e, name, value), name) == Success(value)
    ensures GetAttributeValue(SetAttribute(e, name, value), other) == GetAttributeValue(e, other)
  {
  }

  /** Removes every attribute. */
  function ClearAttributes(e: Element): (r: Element)
    ensures ToMap(r.attributes) == map[]
    ensures r.name == e.name && r.split == e.split && r.children == e.children
    ensures ValidElement(e) ==> ValidElement(r)
  {
    e.(attributes := [])
  }

  /** The library's not-found message for `removeAttribute`. */
  function NoAttributeMessage(name: string): string {
    "No attribute with the name " + Quote(name) + " was found in this XMLElement."
  }

  /** Removes the named attribute and returns it, quoted with `"`; a name
      that is not present is a not-found failure. */
  function RemoveAttribute(e: Element, name: string): (r: Result<(Element, XmlAttribute.Attribute)>)
    requires name != ""
    ensures r.Success? <==> name in ToMap(e.attributes)
    ensures r.Success? ==> r.value.1 == XmlAttribute.Create(name, ToMap(e.attributes)[name])
    ensures r.Success? ==> ToMap(r.value.0.attributes) == ToMap(e.attributes) - {name}
    ensures r.Success? ==> r.value.0.name == e.name && r.value.0.split == e.split && r.value.0.children == e.children
    ensures r.Success? && ValidElement(e) ==> ValidElement(r.value.0)
    ensures r.Failure? ==> r.error == NotFound(NoAttributeMessage(name))
  {
    match Lookup(e.attributes, name)
    case Some(v) => Success((e.(attributes := Delete(e.attributes, name)), XmlAttribute.Create(name, v)))
    case None => Failure(NotFound(NoAttributeMessage(name)))
  }

  // ---------------------------------------------------------------------
  // Children

  /** Appends a child; the element becomes split. */
  function AddChild(e: Element, c: Child): (r: Element)
    ensures r.children == e.children + [c] && r.split
    ensures r.name == e.name && r.attributes == e.attributes
    ensures ValidElement(e) && ValidChild(c) ==> ValidElement(r)
  {
    var r := e.(children := e.children + [c], split := true);
    assert ValidElement(e) && ValidChild(c) ==> ValidChildren(r.children) by {
      if ValidElement(e) && ValidChild(c) {
        forall k | 0 <= k < |r.children| ensures ValidChild(r.children[k]) {
          if k < |e.children| {
            assert ValidChildren(e.children);
            assert r.children[k] == e.children[k];
            assert ValidChild(e.children[k]);
          } else {
            assert r.children[k] == c;
          }
        }
      }
    }
    r
  }

  /** Appends children one at a time; the element becomes split only if at
      least one child was added. */
  function AddChildren(e: Element, cs: seq<Child>): (r: Element)
    ensures r.children == e.children + cs
    ensures r.split == (e.split || cs != [])
    ensures r.name == e.name && r.attributes == e.attributes
    ensures ValidElement(e) && ValidChildren(cs) ==> ValidElement(r)
    decreases |cs|
  {
    if cs == [] then e
    else
      var r := AddChildren(AddChild(e, cs[0]), cs[1..]);
      assert e.children + [cs[0]] + cs[1..] == e.children + cs;
      r
  }

  /** Removes every child; the split flag is kept. */
  function ClearChildren(e: Element): (r: Element)
    ensures r.children == [] && r.split == e.split
    ensures r.name == e.name && r.attributes == e.attributes
    ensures ValidElement(e) ==> ValidElement(r)
  {
    e.(children := [])
  }

  // ---------------------------------------------------------------------
  // Equality

  /** The library's element equality: same split flag, same name, equal
      attribute maps (order of attributes does not matter) and pairwise
      equal children in the same order. */
  predicate ElementEq(a: Element, b: Element)
    decreases a, 1
  {
    && a.split == b.split
    && a.name == b.name
    && ToMap(a.attributes) == ToMap(b.attributes)
    && ChildrenEq(a.children, b.children)
  }

  predicate ChildrenEq(xs: seq<Child>, ys: seq<Child>)
    decreases xs, 0
  {
    |xs| == |ys| && forall k :: 0 <= k < |xs| ==> ChildEq(xs[k], ys[k])
  }

  /** Children are equal when they are of the same kind and equal as that
      kind; a text node's whitespace flag is ignored. */
  predicate ChildEq(x: Child, y: Child)
    decreases x, 2
  {
    match x
    case ElementChild(a) => y.ElementChild? && ElementEq(a, y.element)
    case TextChild(t) => y.TextChild? && XmlText.Equal(t, y.textNode)
    case CommentChild(c) => y.CommentChild? && XmlComment.Equal(c, y.commentNode)
    case CDataChild(d) => y.CDataChild? && XmlCData.Equal(d, y.cdataNode)
  }

  lemma {:induction false} ElementEqReflexive(a: Element)
    ensures ElementEq(a, a)
    decreases a, 1
  {
    forall k | 0 <= k < |a.children| ensures ChildEq(a.children[k], a.children[k]) {
      ChildEqReflexive(a.children[k]);
    }
  }

  lemma {:induction false} ChildEqReflexive(x: Child)
    ensures ChildEq(x, x)
    decreases x, 2
  {
    if x.ElementChild? {
      ElementEqReflexive(x.element);
    }
  }

  lemma {:induction false} ElementEqSymmetric(a: Element, b: Element)
    requires ElementEq(a, b)
    ensures ElementEq(b, a)
    decreases a, 1
  {
    forall k | 0 <= k < |b.children| ensures ChildEq(b.children[k], a.children[k]) {
      ChildEqSymmetric(a.children[k], b.children[k]);
    }
  }

  lemma {:induction false} ChildEqSymmetric(x: Child, y: Child)
    requires ChildEq(x, y)
    ensures ChildEq(y, x)
    decreases x, 2
  {
    if x.ElementChild? {
      ElementEqSymmetric(x.element, y.element);
    }
  }

  lemma {:induction false} ElementEqTransitive(a: Element, b: Element, c: Element)
    requires ElementEq(a, b) && ElementEq(b, c)
    ensures ElementEq(a, c)
    decreases a, 1
  {
    forall k | 0 <= k < |a.children| ensures ChildEq(a.children[k], c.children[k]) {
      ChildEqTransitive(a.children[k], b.children[k], c.children[k]);
    }
  }

  lemma {:induction false} ChildEqTransitive(x: Child, y: Child, z: Child)
    requires ChildEq(x, y) && ChildEq(y, z)
    ensures ChildEq(x, z)
    decreases x, 2
  {
    if x.ElementChild? {
      ElementEqTransitive(x.element, y.element, z.element);
    }
  }
}

=== FILE: element_children.dfy ===
/** Queries and removals over an element's children. A condition on child
    elements is a total function of the element; the name variants use the
    condition "has this name". */
module XmlElementChildren {
  import opened Wrappers
  import opened XmlStrings
  import XmlFormat
  import opened XmlElement
  import XmlElementRender

  /** The child is an element satisfying the condition. */
  predicate IsMatch(c: Child, cond: Element -> bool) {
    c.ElementChild? && cond(c.element)
  }

  function HasName(name: string): Element -> bool {
    (x: Element) => x.name == name
  }

  /** The element children satisfying the condition, in order. */
  function ElementsWhere(cs: seq<Child>, cond: Element -> bool): (r: seq<Element>)
    ensures |r| <= |cs|
  {
    if cs == [] then []
    else
      var rest := ElementsWhere(cs[1..], cond);
      if IsMatch(cs[0], cond) then [cs[0].element] + rest else rest
  }

  /** The filter keeps exactly the element children satisfying the
      condition. */
  lemma {:induction false} ElementsWhereMembers(cs: seq<Child>, cond: Element -> bool)
    ensures forall x :: x in ElementsWhere(cs, cond) <==> ElementChild(x) in cs && cond(x)
  {
    if cs != [] {
      ElementsWhereMembers(cs[1..], cond);
      assert forall c :: c in cs <==> c == cs[0] || c in cs[1..];
    }
  }

  /** Filtering distributes over concatenation, so the result keeps the
      children's order. */
  lemma {:induction false} ElementsWhereAppend(a: seq<Child>, b: seq<Child>, cond: Element -> bool)
    ensures ElementsWhere(a + b, cond) == ElementsWhere(a, cond) + ElementsWhere(b, cond)
  {
    if a == [] {
      assert a + b == b;
    } else {
      assert (a + b)[1..] == a[1..] + b;
      ElementsWhereAppend(a[1..], b, cond);
    }
  }

  /** The positions of the matching children, in increasing order: every
      position listed holds a match and every match is listed. */
  function MatchPositions(cs: seq<Child>, cond: Element -> bool): (idx: seq<nat>)
    ensures forall j :: 0 <= j < |idx| ==> idx[j] < |cs| && IsMatch(cs[idx[j]], cond)
    ensures forall j, k :: 0 <= j < k < |idx| ==> idx[j] < idx[k]
    ensures forall i :: 0 <= i < |cs| && IsMatch(cs[i], cond) ==> i in idx
  {
    if cs == [] then []
    else
      var init := cs[..|cs| - 1];
      var rest := MatchPositions(init, cond);
      assert forall i :: 0 <= i < |init| ==> init[i] == cs[i];
      if IsMatch(cs[|cs| - 1], cond) then rest + [|cs| - 1] else rest
  }

  /** The filter lists the matching children one for one, in the order of
      their positions. */
  lemma {:induction false} ElementsWhereInOrder(cs: seq<Child>, cond: Element -> bool)
    ensures |ElementsWhere(cs, cond)| == |MatchPositions(cs, cond)|
    ensures forall j :: 0 <= j < |MatchPositions(cs, cond)| ==>
      cs[MatchPositions(cs, cond)[j]] == ElementChild(ElementsWhere(cs, cond)[j])
  {
    if cs != [] {
      var init, last := cs[..|cs| - 1], cs[|cs| - 1];
      assert cs == init + [last];
      ElementsWhereAppend(init, [last], cond);
      ElementsWhereInOrder(init, cond);
      assert [last][1..] == [];
      var idx, r := MatchPositions(init, cond), ElementsWhere(init, cond);
      forall j | 0 <= j < |idx| ensures cs[idx[j]] == ElementChild(r[j]) {
        assert init[idx[j]] == cs[idx[j]];
      }
    }
  }

  /** Any element is a match for this condition. */
  function AnyElement(): Element -> bool {
    (x: Element) => true
  }

  /** All element children, in order. */
  function GetElementChildren(e: Element): (r: seq<Element>)
    ensures forall x :: x in r <==> ElementChild(x) in e.children
    ensures |r| == |MatchPositions(e.children, AnyElement())|
    ensures forall j :: 0 <= j < |r| ==> e.children[MatchPositions(e.children, AnyElement())[j]] == ElementChild(r[j])
  {
    ElementsWhereMembers(e.children, AnyElement());
    ElementsWhereInOrder(e.children, AnyElement());
    ElementsWhere(e.children, AnyElement())
  }

  /** The element children with the given name, in order. */
  function GetElementChildrenNamed(e: Element, name: string): (r: seq<Element>)
    requires name != ""
    ensures forall x :: x in r <==> ElementChild(x) in e.children && x.name == name
    ensures |r| == |MatchPositions(e.children, HasName(name))|
    ensures forall j :: 0 <= j < |r| ==> e.children[MatchPositions(e.children, HasName(name))[j]] == ElementChild(r[j])
  {
    ElementsWhereMembers(e.children, HasName(name));
    ElementsWhereInOrder(e.children, HasName(name));
    ElementsWhere(e.children, HasName(name))
  }

  /** The element children satisfying the condition, in order. */
  function GetElementChildrenWhere(e: Element, cond: Element -> bool): (r: seq<Element>)
    ensures forall x :: x in r <==> ElementChild(x) in e.children && cond(x)
    ensures |r| == |MatchPositions(e.children, cond)|
    ensures forall j :: 0 <= j < |r| ==> e.children[MatchPositions(e.children, cond)[j]] == ElementChild(r[j])
  {
    ElementsWhereMembers(e.children, cond);
    ElementsWhereInOrder(e.children, cond);
    ElementsWhere(e.children, cond)
  }

  /** The position of the first matching child, or the number of children
      when none matches. */
  function FirstMatch(cs: seq<Child>, cond: Element -> bool): (i: nat)
    ensures i <= |cs|
    ensures forall j :: 0 <= j < i ==> !IsMatch(cs[j], cond)
    ensures i < |cs| ==> IsMatch(cs[i], cond)
  {
    if cs == [] || IsMatch(cs[0], cond) then 0
    else
      var i := 1 + FirstMatch(cs[1..], cond);
      assert forall j :: 1 <= j < i ==> cs[j] == cs[1..][j - 1];
      i
  }

  /** The filtered list is empty exactly when nothing matches, and otherwise
      starts with the first match. */
  lemma {:induction false} FilterStartsAtFirstMatch(cs: seq<Child>, cond: Element -> bool)
    ensures ElementsWhere(cs, cond) == [] <==> FirstMatch(cs, cond) == |cs|
    ensures FirstMatch(cs, cond) < |cs| ==> ElementsWhere(cs, cond)[0] == cs[FirstMatch(cs, cond)].element
  {
    if cs != [] && !IsMatch(cs[0], cond) {
      FilterStartsAtFirstMatch(cs[1..], cond);
    }
  }

  const NoMatchingChildMessage := "No XML element children found that match the provided condition."

  function NoChildNamedMessage(name: string): string {
    "No XML element children found with the name " + Quote(name) + "."
  }

  /** The first element child satisfying the condition (the head of the
      filtered children), or a not-found failure. */
  function GetFirstElementChildWhere(e: Element, cond: Element -> bool): (r: Result<Element>)
    ensures r.Success? <==> FirstMatch(e.children, cond) < |e.children|
    ensures r.Success? ==> e.children[FirstMatch(e.children, cond)] == ElementChild(r.value) && cond(r.value)
    ensures r.Failure? ==> r.error == NotFound(NoMatchingChildMessage)
  {
    FilterStartsAtFirstMatch(e.children, cond);
    var elements := ElementsWhere(e.children, cond);
    if elements == [] then Failure(NotFound(NoMatchingChildMessage)) else Success(elements[0])
  }

  /** The first element child with the given name, or a not-found failure
      naming it. */
  function GetFirstElementChildNamed(e: Element, name: string): (r: Result<Element>)
    requires name != ""
    ensures r.Success? <==> exists k :: 0 <= k < |e.children| && IsMatch(e.children[k], HasName(name))
    ensures r.Success? ==> r.value.name == name && ElementChild(r.value) in e.children
    ensures r.Success? ==> r.value == e.children[FirstMatch(e.children, HasName(name))].element
    ensures r.Failure? ==> r.error == NotFound(NoChildNamedMessage(name))
  {
    var i := FirstMatch(e.children, HasName(name));
    assert i < |e.children| ==> e.children[i] in e.children;
    match GetFirstElementChildWhere(e, HasName(name))
    case Success(x) => Success(x)
    case Failure(_) => Failure(NotFound(NoChildNamedMessage(name)))
  }

  /** The first element child satisfying the condition; when there is none,
      the element made by the caller's creator (`created`) is appended and
      returned. Returns the possibly updated parent and the child. */
  function GetFirstOrCreateElementChildWhere(e: Element, cond: Element -> bool, created: Element): (r: (Element, Element))
    ensures FirstMatch(e.children, cond) < |e.children| ==>
      r.0 == e && ElementChild(r.1) == e.children[FirstMatch(e.children, cond)]
    ensures FirstMatch(e.children, cond) == |e.children| ==>
      r.0 == AddChild(e, ElementChild(created)) && r.1 == created
    ensures ValidElement(e) && ValidElement(created) ==> ValidElement(r.0)
  {
    match GetFirstElementChildWhere(e, cond)
    case Success(x) => (e, x)
    case Failure(_) => (AddChild(e, ElementChild(created)), created)
  }

  /** The by-name variant creates a fresh, not split element of that name. */
  function GetFirstOrCreateElementChildNamed(e: Element, name: string): (r: (Element, Element))
    requires name != ""
    ensures r.1.name == name
    ensures GetFirstElementChildNamed(r.0, name) == Success(r.1)
    ensures r.0.name == e.name && r.0.attributes == e.attributes
    ensures r.0.children == e.children || r.0.children == e.children + [ElementChild(XmlElement.Create(name, false))]
    ensures FirstMatch(e.children, HasName(name)) < |e.children| ==>
      r.0 == e && ElementChild(r.1) == e.children[FirstMatch(e.children, HasName(name))]
    ensures FirstMatch(e.children, HasName(name)) == |e.children| ==>
      r.0 == AddChild(e, ElementChild(r.1)) && r.0.split && r.1 == XmlElement.Create(name, false)
    ensures ValidElement(e) ==> ValidElement(r.0)
  {
    var r := GetFirstOrCreateElementChildWhere(e, HasName(name), XmlElement.Create(name, false));
    FirstMatchAfterAppend(e.children, HasName(name), ElementChild(XmlElement.Create(name, false)));
    r
  }

  /** Appending a match to children with no match makes it the first. */
  lemma FirstMatchAfterAppend(cs: seq<Child>, cond: Element -> bool, c: Child)
    requires IsMatch(c, cond)
    ensures FirstMatch(cs, cond) == |cs| ==> FirstMatch(cs + [c], cond) == |cs|
  {
    var i := FirstMatch(cs + [c], cond);
    if FirstMatch(cs, cond) == |cs| {
      assert (cs + [c])[|cs|] == c;
    }
  }

  // ---------------------------------------------------------------------
  // Removal

  /** The position of the first child equal to `c`, or the number of
      children when there is none. */
  function FirstEqual(cs: seq<Child>, c: Child): (i: nat)
    ensures i <= |cs|
    ensures forall j :: 0 <= j < i ==> !ChildEq(cs[j], c)
    ensures i < |cs| ==> ChildEq(cs[i], c)
  {
    if cs == [] || ChildEq(cs[0], c) then 0
    else
      var i := 1 + FirstEqual(cs[1..], c);
      assert forall j :: 1 <= j < i ==> cs[j] == cs[1..][j - 1];
      i
  }

  function CouldNotRemoveMessage(c: Child): string {
    "Could not remove the child " + XmlElementRender.RenderChild(c, XmlFormat.Concise(), 0) + " because it didn't exist."
  }

  /** Removes the first child equal to `c` (children compare as the
      library's `equals` does); a child that is not there is a not-found
      failure whose message shows it in concise form. */
  function RemoveChild(e: Element, c: Child): (r: Result<Element>)
    ensures r.Success? <==> exists k :: 0 <= k < |e.children| && ChildEq(e.children[k], c)
    ensures r.Success? ==>
      var k := FirstEqual(e.children, c);
      r.value == e.(children := e.children[..k] + e.children[k + 1..])
    ensures r.Success? && ValidElement(e) ==> ValidElement(r.value)
    ensures r.Failure? ==> r.error == NotFound(CouldNotRemoveMessage(c))
  {
    var k := FirstEqual(e.children, c);
    if k == |e.children| then Failure(NotFound(CouldNotRemoveMessage(c)))
    else
      var r := e.(children := e.children[..k] + e.children[k + 1..]);
      ValidAfterDrop(e, r.children);
      Success(r)
  }

  /** Keeping only some of the children keeps an element valid. */
  lemma ValidAfterDrop(e: Element, kept: seq<Child>)
    requires forall x :: x in kept ==> x in e.children
    ensures ValidElement(e) ==> ValidElement(e.(children := kept))
  {
    if ValidElement(e) {
      forall k | 0 <= k < |kept| ensures ValidChild(kept[k]) && (!e.split ==> IsWhitespaceTextChild(kept[k])) {
        assert kept[k] in e.children;
        var j :| 0 <= j < |e.children| && e.children[j] == kept[k];
        assert ValidChildren(e.children);
      }
    }
  }

  /** The children that are not matches, in order. */
  function KeepWhere(cs: seq<Child>, cond: Element -> bool): (r: seq<Child>)
    ensures |r| <= |cs|
  {
    if cs == [] then []
    else
      var rest := KeepWhere(cs[1..], cond);
      if IsMatch(cs[0], cond) then rest else [cs[0]] + rest
  }

  /** The children kept are exactly those that are not matches. */
  lemma {:induction false} KeepWhereMembers(cs: seq<Child>, cond: Element -> bool)
    ensures forall x :: x in KeepWhere(cs, cond) <==> x in cs && !IsMatch(x, cond)
  {
    if cs != [] {
      KeepWhereMembers(cs[1..], cond);
      assert forall c :: c in cs <==> c == cs[0] || c in cs[1..];
    }
  }

  /** The library's `removeFirst`: takes out the first matching child. */
  function RemoveFirstMatch(cs: seq<Child>, cond: Element -> bool): (r: Option<(seq<Child>, Element)>)
    ensures r.None? <==> FirstMatch(cs, cond) == |cs|
    ensures r.Some? ==> |r.value.0| == |cs| - 1
  {
    var k := FirstMatch(cs, cond);
    if k == |cs| then None else Some((cs[..k] + cs[k + 1..], cs[k].element))
  }

  /** Taking out the first match leaves the other children as they were and
      moves the first match to the front of the removed list. */
  lemma RemoveFirstMatchSplits(cs: seq<Child>, cond: Element -> bool)
    requires FirstMatch(cs, cond) < |cs|
    ensures KeepWhere(RemoveFirstMatch(cs, cond).value.0, cond) == KeepWhere(cs, cond)
    ensures [RemoveFirstMatch(cs, cond).value.1] + ElementsWhere(RemoveFirstMatch(cs, cond).value.0, cond)
      == ElementsWhere(cs, cond)
  {
    var before, x, after := SplitAtFirstMatch(cs, cond);
    KeepSkipsMatch(before, x, after, cond);
    ElementsTakeMatch(before, x, after, cond);
  }

  /** The children around the first match. */
  lemma SplitAtFirstMatch(cs: seq<Child>, cond: Element -> bool) returns (before: seq<Child>, x: Child, after: seq<Child>)
    requires FirstMatch(cs, cond) < |cs|
    ensures cs == before + ([x] + after)
    ensures forall j :: 0 <= j < |before| ==> !IsMatch(before[j], cond)
    ensures IsMatch(x, cond)
    ensures RemoveFirstMatch(cs, cond).value == (before + after, x.element)
  {
    var k := FirstMatch(cs, cond);
    before, x, after := cs[..k], cs[k], cs[k + 1..];
    assert cs[k..] == [x] + after;
    assert cs == before + cs[k..];
  }

  lemma KeepSkipsMatch(before: seq<Child>, x: Child, after: seq<Child>, cond: Element -> bool)
    requires forall j :: 0 <= j < |before| ==> !IsMatch(before[j], cond)
    requires IsMatch(x, cond)
    ensures KeepWhere(before + ([x] + after), cond) == KeepWhere(before + after, cond)
  {
    NoMatchKept(before, cond);
    calc {
      KeepWhere(before + ([x] + after), cond);
      { KeepAppend(before, [x] + after, cond); }
      KeepWhere(before, cond) + KeepWhere([x] + after, cond);
      { assert ([x] + after)[1..] == after; }
      before + KeepWhere(after, cond);
      { KeepAppend(before, after, cond); }
      KeepWhere(before + after, cond);
    }
  }

  lemma ElementsTakeMatch(before: seq<Child>, x: Child, after: seq<Child>, cond: Element -> bool)
    requires forall j :: 0 <= j < |before| ==> !IsMatch(before[j], cond)
    requires IsMatch(x, cond)
    ensures ElementsWhere(before + ([x] + after), cond) == [x.element] + ElementsWhere(before + after, cond)
  {
    NoMatchKept(before, cond);
    calc {
      ElementsWhere(before + ([x] + after), cond);
      { ElementsWhereAppend(before, [x] + after, cond); }
      ElementsWhere(before, cond) + ElementsWhere([x] + after, cond);
      { assert ([x] + after)[1..] == after; }
      [x.element] + ElementsWhere(after, cond);
      { ElementsWhereAppend(before, after, cond); }
      [x.element] + ElementsWhere(before + after, cond);
    }
  }

  lemma {:induction false} KeepAppend(a: seq<Child>, b: seq<Child>, cond: Element -> bool)
    ensures KeepWhere(a + b, cond) == KeepWhere(a, cond) + KeepWhere(b, cond)
  {
    if a == [] {
      assert a + b == b;
    } else {
      assert (a + b)[1..] == a[1..] + b;
      KeepAppend(a[1..], b, cond);
    }
  }

  lemma {:induction false} NoMatchKept(a: seq<Child>, cond: Element -> bool)
    requires forall j :: 0 <= j < |a| ==> !IsMatch(a[j], cond)
    ensures KeepWhere(a, cond) == a && ElementsWhere(a, cond) == []
  {
    if a != [] {
      assert forall j :: 0 <= j < |a[1..]| ==> a[1..][j] == a[j + 1];
      NoMatchKept(a[1..], cond);
    }
  }

  /** The library's loop: take out the first match until none is left,
      collecting what was taken out after `removed`. */
  function RemoveAllMatches(cs: seq<Child>, cond: Element -> bool, removed: seq<Element>): (r: (seq<Child>, seq<Element>))
    ensures r == (KeepWhere(cs, cond), removed + ElementsWhere(cs, cond))
    decreases |cs|
  {
    match RemoveFirstMatch(cs, cond)
    case None =>
      FilterStartsAtFirstMatch(cs, cond);
      NoMatchKept(cs, cond);
      assert removed + [] == removed;
      (cs, removed)
    case Some((rest, x)) =>
      RemoveFirstMatchSplits(cs, cond);
      assert removed + [x] + ElementsWhere(rest, cond) == removed + ElementsWhere(cs, cond);
      RemoveAllMatches(rest, cond, removed + [x])
  }

  const NoChildMatchedMessage := "No child element found that matched the provided condition."

  function NoChildElementNamedMessage(name: string): string {
    "No child element found with the name " + Quote(name) + "."
  }

  /** Removes every element child satisfying the condition and returns them
      in their original order; the other children keep their order. When
      nothing matches, nothing changes and the result is a not-found
      failure. */
  function RemoveElementChildrenWhere(e: Element, cond: Element -> bool): (r: Result<(Element, seq<Element>)>)
    ensures r.Success? <==> exists k :: 0 <= k < |e.children| && IsMatch(e.children[k], cond)
    ensures r.Success? ==> r.value.1 == ElementsWhere(e.children, cond) && r.value.1 != []
    ensures r.Success? ==> r.value.0 == e.(children := KeepWhere(e.children, cond))
    ensures r.Success? && ValidElement(e) ==> ValidElement(r.value.0)
    ensures r.Failure? ==> r.error == NotFound(NoChildMatchedMessage)
  {
    var (kept, removed) := RemoveAllMatches(e.children, cond, []);
    FilterStartsAtFirstMatch(e.children, cond);
    KeepWhereMembers(e.children, cond);
    ValidAfterDrop(e, kept);
    if removed == [] then Failure(NotFound(NoChildMatchedMessage))
    else Success((e.(children := kept), removed))
  }

  /** The by-name variant, with its own not-found message. */
  function RemoveElementChildrenNamed(e: Element, name: string): (r: Result<(Element, seq<Element>)>)
    requires name != ""
    ensures r.Success? <==> exists k :: 0 <= k < |e.children| && IsMatch(e.children[k], HasName(name))
    ensures r.Success? ==> forall x :: x in r.value.1 <==> ElementChild(x) in e.children && x.name == name
    ensures r.Success? ==> forall c :: c in r.value.0.children <==> c in e.children && !IsMatch(c, HasName(name))
    ensures r.Success? ==> r.value.1 == ElementsWhere(e.children, HasName(name)) && r.value.1 != []
    ensures r.Success? ==> r.value.0 == e.(children := KeepWhere(e.children, HasName(name)))
    ensures r.Success? && ValidElement(e) ==> ValidElement(r.value.0)
    ensures r.Failure? ==> r.error == NotFound(NoChildElementNamedMessage(name))
  {
    ElementsWhereMembers(e.children, HasName(name));
    KeepWhereMembers(e.children, HasName(name));
    match RemoveElementChildrenWhere(e, HasName(name))
    case Success(v) => Success(v)
    case Failure(_) => Failure(NotFound(NoChildElementNamedMessage(name)))
  }
}

=== FILE: element_parser.dfy ===
/** Elements as the parser reads them: `parseElementAtName` and the loop
    that reads an element's content up to its end tag. */
module XmlElementParser {
  import opened Wrappers
  import opened XmlStrings
  import opened XmlCharacters
  import opened XmlLexer
  import opened XmlSections
  import opened XmlElement
  import opened XmlAttributeMap
  import XmlAttribute
  import XmlText

  // ---------------------------------------------------------------------
  // What the parser builds

  /** The trees the parser produces: names are XML names, an element that
      is not split has no children, and no child is a comment (comments are
      dropped), whitespace-only text (skipped), text holding `<` or a CDATA
      section whose text holds `]]>`. */
  predicate ParsedForm(e: Element)
    decreases e, 1
  {
    && IsName(e.name)
    && (!e.split ==> e.children == [])
    && forall k :: 0 <= k < |e.children| ==> ParsedChild(e.children[k])
  }

  predicate ParsedChild(c: Child)
    decreases c, 2
  {
    match c
    case ElementChild(x) => ParsedForm(x)
    case TextChild(t) => t.text != "" && !t.isWhitespace && !IsWhitespaceText(t.text) && '<' !in t.text
    case CommentChild(_) => false
    case CDataChild(d) => NoTerminator(d.text, ']')
  }

  /** Adding a child of the parsed form keeps an element of that form, and
      valid. */
  lemma AddParsedChild(e: Element, c: Child)
    requires ParsedForm(e) && ValidElement(e) && ParsedChild(c) && ValidChild(c)
    ensures ParsedForm(AddChild(e, c)) && ValidElement(AddChild(e, c))
  {
    var r := AddChild(e, c);
    forall k | 0 <= k < |r.children| ensures ParsedChild(r.children[k]) {
      if k < |e.children| {
        assert r.children[k] == e.children[k];
      }
    }
  }

  // ---------------------------------------------------------------------
  // Start tags

  /** Attributes as the parser reads them: valid, with names that are XML
      names. */
  predicate ParsedAttributes(attrs: seq<XmlAttribute.Attribute>) {
    forall k :: 0 <= k < |attrs| ==> XmlAttribute.ValidAttribute(attrs[k]) && IsName(attrs[k].name)
  }

  lemma ConsParsedAttribute(a: XmlAttribute.Attribute, rest: seq<XmlAttribute.Attribute>)
    requires XmlAttribute.ValidAttribute(a) && IsName(a.name) && ParsedAttributes(rest)
    ensures ParsedAttributes([a] + rest) && ValidAttributes([a] + rest)
  {
    var r := [a] + rest;
    forall k | 0 <= k < |r| ensures XmlAttribute.ValidAttribute(r[k]) && IsName(r[k].name) {
      if k > 0 {
        assert r[k] == rest[k - 1];
      }
    }
  }

  /** The attribute loop of `parseElementAtName`: while the current
      character is whitespace, the whitespace is read and, if a name starts
      after it, an attribute. */
  function ParseAttributes(s: string, p: nat): (r: Result<Parsed<seq<XmlAttribute.Attribute>>>)
    requires p <= |s|
    ensures r.Success? ==> p <= r.value.next <= |s|
    ensures r.Success? ==> r.value.next == |s| || !IsWhitespaceCharacter(s[r.value.next])
    ensures r.Success? ==> ParsedAttributes(r.value.value) && ValidAttributes(r.value.value)
    ensures (p == |s| || !IsWhitespaceCharacter(s[p])) ==> r == Success(Parsed([], p))
    decreases |s| - p
  {
    if p < |s| && IsWhitespaceCharacter(s[p]) then
      // `parseWhitespace` at whitespace cannot fail: it reads what
      // `parseOptionalWhitespace` reads (see the contract of ParseWhitespace).
      var ws := ParseOptionalWhitespace(s, p);
      if ws.next < |s| && IsNameStartCharacter(s[ws.next]) then
        var a :- ParseAttribute(s, ws.next, "", "start tag");
        var rest :- ParseAttributes(s, a.next);
        ConsParsedAttribute(a.value, rest.value);
        Success(Parsed([a.value] + rest.value, rest.next))
      else
        ParseAttributes(s, ws.next)
    else
      Success(Parsed([], p))
  }

  /** What a start tag says: the name, the attributes in order, and whether
      it is an empty-element tag (`/>`). */
  datatype StartTag = StartTag(name: string, attributes: seq<XmlAttribute.Attribute>, empty: bool)

  /** The tag part of `parseElementAtName`: the name, the attributes and
      `>`, or `/>` for an element that is not split. */
  function ParseStartTag(s: string, i: nat): (r: Result<Parsed<StartTag>>)
    requires i <= |s|
    ensures r.Success? ==> i < r.value.next <= |s| && IsName(r.value.value.name)
    ensures r.Success? ==> ParsedAttributes(r.value.value.attributes) && ValidAttributes(r.value.value.attributes)
    ensures i == |s| ==> r == Failure(Missing(Join("start tag or empty element", "name start character")))
    ensures i < |s| && !IsNameStartCharacter(s[i]) ==>
      r == Failure(Expected(Join("start tag or empty element", "name start character")))
  {
    var name :- ParseName(s, i, "start tag or empty element");
    var attributes :- ParseAttributes(s, name.next);
    var close :- ParseTagClose(s, attributes.next);
    Success(Parsed(StartTag(name.value, attributes.value, close.value), close.next))
  }

  /** The end of a start tag, after its attributes: `/>` closes an
      empty-element tag and `>` any other. The value says whether it was
      `/>`. */
  function ParseTagClose(s: string, p: nat): (r: Result<Parsed<bool>>)
    requires p <= |s|
    ensures r.Success? <==> (p < |s| && s[p] == '>') || (p + 1 < |s| && s[p] == '/' && s[p + 1] == '>')
    ensures r.Success? ==> (r.value.value <==> s[p] == '/')
    ensures r.Success? ==> r.value.next == if r.value.value then p + 2 else p + 1
    ensures r.Failure? && p < |s| && s[p] == '/' ==>
      r.error == (if p + 1 == |s| then Missing("empty element right angle bracket ('>')")
                  else Expected("empty element right angle bracket ('>')"))
    ensures r.Failure? && !(p < |s| && s[p] == '/') ==>
      r.error == (if p == |s| then Missing("start tag right angle bracket ('>')")
                  else Expected("start tag right angle bracket ('>')"))
  {
    var isEmptyElement := p < |s| && s[p] == '/';
    var q := if isEmptyElement then p + 1 else p;
    var description :=
      if isEmptyElement then "empty element right angle bracket ('>')" else "start tag right angle bracket ('>')";
    var gt :- Take(s, q, '>', description);
    Success(Parsed(isEmptyElement, gt.next))
  }

  /** The element a start tag opens, before any content: split unless the
      tag is an empty-element tag. */
  function Opened(tag: StartTag): (e: Element)
    requires IsName(tag.name) && ParsedAttributes(tag.attributes) && ValidAttributes(tag.attributes)
    ensures ParsedForm(e) && ValidElement(e) && e.children == []
    ensures e.name == tag.name && e.split == !tag.empty
    ensures ToMap(e.attributes) == AttributesMap(tag.attributes)
  {
    SetAttributes(Create(tag.name, !tag.empty), tag.attributes)
  }

  // ---------------------------------------------------------------------
  // End tags

  /** An end tag from just after `</`: a name, optional whitespace and
      `>`. Returns the name. */
  function ParseEndTag(s: string, q: nat): (r: Result<Parsed<string>>)
    requires q <= |s|
    ensures r.Success? ==> q < r.value.next <= |s| && IsName(r.value.value)
    ensures r.Success? ==> q + |r.value.value| < r.value.next && s[q..q + |r.value.value|] == r.value.value
    ensures r.Success? ==> s[r.value.next - 1] == '>'
    ensures q == |s| ==> r == Failure(Missing("end tag name"))
    ensures q < |s| && !IsNameStartCharacter(s[q]) ==> r == Failure(Expected("end tag name"))
  {
    var _ :- Expect(s, q, c => IsNameStartCharacter(c), "end tag name");
    // the expected name start character means the name is there
    var name := ParseName(s, q, "end tag").value;
    var ws := ParseOptionalWhitespace(s, name.next);
    var gt :- Take(s, ws.next, '>', "end tag right angle bracket ('>')");
    Success(Parsed(name.value, gt.next))
  }

  // ---------------------------------------------------------------------
  // Elements and their content

  /** The message for a character after `<` that starts no tag; the
      character is shown between double quotes. */
  function UnexpectedTagStart(c: char): Error {
    ParseError("Unexpected tag name start character: " + Quote([c]))
  }

  /** One turn of the content loop, and whether it found the end tag. */
  datatype Step = Step(element: Element, next: nat, done: bool)

  /** `parseElementAtName`: from the first character of the name, the
      start tag or empty-element tag and, for a start tag, the content and
      the end tag. */
  function ParseElementAtName(s: string, i: nat): (r: Result<Parsed<Element>>)
    requires i <= |s|
    ensures r.Success? ==> i < r.value.next <= |s|
    ensures r.Success? ==> ParsedForm(r.value.value) && ValidElement(r.value.value)
    ensures !(i < |s| && IsNameStartCharacter(s[i])) ==> r.Failure?
    decreases |s| - i, 0
  {
    var tag :- ParseStartTag(s, i);
    if tag.value.empty then Success(Parsed(Opened(tag.value), tag.next))
    else ParseContent(s, tag.next, Opened(tag.value))
  }

  /** The content loop of `parseElementAtName`: turns until one finds the
      end tag. Running out of input first is "Missing end tag.". */
  function ParseContent(s: string, p: nat, e: Element): (r: Result<Parsed<Element>>)
    requires p <= |s| && e.split && ParsedForm(e) && ValidElement(e)
    ensures r.Success? ==> Grows(s, p, e, Step(r.value.value, r.value.next, true))
    ensures p == |s| ==> r == Failure(Missing("end tag"))
    decreases |s| - p, 3
  {
    if p == |s| then Failure(Missing("end tag"))
    else
      var step :- ContentStep(s, p, e);
      if step.done then Success(Parsed(step.element, step.next))
      else
        var rest :- ParseContent(s, step.next, step.element);
        assert rest.value.children[..|e.children|] == step.element.children[..|e.children|];
        Success(rest)
  }

  /** What every turn of the content loop keeps: it moves forward, and the
      element keeps its name, attributes and earlier children and stays of
      the parsed form. */
  predicate Grows(s: string, p: nat, e: Element, r: Step) {
    && p < r.next <= |s|
    && ParsedForm(r.element) && ValidElement(r.element)
    && r.element.name == e.name && r.element.attributes == e.attributes
    && r.element.split && |e.children| <= |r.element.children|
    && r.element.children[..|e.children|] == e.children
  }

  /** One turn of the content loop at `p`: markup after `<`, or else a run
      of text, appended unless it is all whitespace. */
  function ContentStep(s: string, p: nat, e: Element): (r: Result<Step>)
    requires p < |s| && e.split && ParsedForm(e) && ValidElement(e)
    ensures r.Success? ==> Grows(s, p, e, r.value)
    ensures r.Success? && r.value.done ==> r.value.element == e
    ensures s[p] == '<' && p + 1 == |s| ==> r == Failure(Missing("tag name"))
    ensures s[p] == '<' && p + 1 < |s| && s[p + 1] == '?' ==>
      r == Failure(Expected("the XML declaration to be the first character in the document"))
    ensures s[p] == '<' && p + 1 < |s| && !(s[p + 1] in "?/!" || IsNameStartCharacter(s[p + 1])) ==>
      r == Failure(UnexpectedTagStart(s[p + 1]))
    decreases |s| - p, 2
  {
    if s[p] == '<' then MarkupStep(s, p, e)
    else
      var text := ParseText(s, p);
      if text.value.isWhitespace then Success(Step(e, text.next, false))
      else
        AddParsedChild(e, TextChild(text.value));
        Success(Step(AddChild(e, TextChild(text.value)), text.next, false))
  }

  /** Markup at `p`: an end tag, which must carry the element's own name, a
      comment (dropped), a CDATA section or a child element (each appended),
      and otherwise an error. */
  function MarkupStep(s: string, p: nat, e: Element): (r: Result<Step>)
    requires p < |s| && s[p] == '<' && e.split && ParsedForm(e) && ValidElement(e)
    ensures r.Success? ==> Grows(s, p, e, r.value)
    ensures r.Success? && r.value.done ==> r.value.element == e
    ensures p + 1 == |s| ==> r == Failure(Missing("tag name"))
    ensures p + 1 < |s| && s[p + 1] == '?' ==>
      r == Failure(Expected("the XML declaration to be the first character in the document"))
    ensures p + 1 < |s| && !(s[p + 1] in "?/!" || IsNameStartCharacter(s[p + 1])) ==>
      r == Failure(UnexpectedTagStart(s[p + 1]))
    decreases |s| - p, 1
  {
    var q := p + 1;
    if q == |s| then Failure(Missing("tag name"))
    else if s[q] == '?' then
      Failure(Expected("the XML declaration to be the first character in the document"))
    else if s[q] == '/' then EndTagStep(s, p, e)
    else if s[q] == '!' then BangStep(s, q, e)
    else if IsNameStartCharacter(s[q]) then ChildStep(s, p, e)
    else Failure(UnexpectedTagStart(s[q]))
  }

  /** After `</`: the end tag, which must carry the element's own name and
      ends the loop. */
  function EndTagStep(s: string, p: nat, e: Element): (r: Result<Step>)
    requires p + 1 < |s| && e.split && ParsedForm(e) && ValidElement(e)
    ensures r.Success? ==> Grows(s, p, e, r.value) && r.value.done && r.value.element == e
    ensures r.Success? <==> ParseEndTag(s, p + 2).Success? && ParseEndTag(s, p + 2).value.value == e.name
    ensures ParseEndTag(s, p + 2).Success? && ParseEndTag(s, p + 2).value.value != e.name ==>
      r == Failure(Expected("an end tag with the name same as the current element"))
  {
    var end :- ParseEndTag(s, p + 2);
    if end.value == e.name then Success(Step(e, end.next, true))
    else Failure(Expected("an end tag with the name same as the current element"))
  }

  /** After `<` and a name start character: a child element, appended. */
  function ChildStep(s: string, p: nat, e: Element): (r: Result<Step>)
    requires p + 1 < |s| && e.split && ParsedForm(e) && ValidElement(e)
    ensures r.Success? ==> Grows(s, p, e, r.value) && !r.value.done
    ensures r.Success? ==> |r.value.element.children| == |e.children| + 1
    decreases |s| - p, 0
  {
    var child :- ParseElementAtName(s, p + 1);
    AddParsedChild(e, ElementChild(child.value));
    Success(Step(AddChild(e, ElementChild(child.value)), child.next, false))
  }

  /** After `<!`: a comment, which is dropped, or a CDATA section, which is
      appended. */
  function BangStep(s: string, q: nat, e: Element): (r: Result<Step>)
    requires q < |s| && e.split && ParsedForm(e) && ValidElement(e)
    ensures r.Success? ==> Grows(s, q, e, r.value) && !r.value.done
    ensures q + 1 == |s| ==>
      r == Failure(Missing("comment first left dash ('-') or CDATA first left square bracket ('[')"))
    ensures q + 1 < |s| && s[q + 1] != '-' && s[q + 1] != '[' ==>
      r == Failure(Expected("comment first left dash ('-') or CDATA first left square bracket ('[')"))
  {
    var _ :- Expect(s, q + 1, c => c == '-' || c == '[',
      "comment first left dash ('-') or CDATA first left square bracket ('[')");
    if s[q + 1] == '-' then
      var comment :- ParseComment(s, q + 1);
      Success(Step(e, comment.next, false))
    else
      var cdata :- ParseCData(s, q + 1);
      AddParsedChild(e, CDataChild(cdata.value));
      Success(Step(AddChild(e, CDataChild(cdata.value)), cdata.next, false))
  }
}

=== FILE: element_render.dfy ===
/** Writing an element tree as text. A format newline is always followed by
    the format's indentation unit repeated once per enclosing level, which
    is how the library's indenting stream lays out nested elements. */
module XmlElementRender {
  import opened XmlStrings
  import opened XmlFormat
  import opened XmlAttributeMap
  import opened XmlElement
  import XmlText
  import XmlComment
  import XmlCData

  /** A line break followed by the indentation of `depth` levels. */
  function LineBreak(f: Format, depth: nat): (r: string)
    ensures |f.newLine| <= |r| && r[..|f.newLine|] == f.newLine
  {
    f.newLine + Repeat(f.singleIndent, depth)
  }

  /** ` name="value"` for each attribute in order; values are written as
      they are, without escaping, and always between double quotes. */
  function RenderAttributes(a: seq<AttrEntry>): string {
    if a == [] then "" else " " + a[0].key + "=" + Quote(a[0].value) + RenderAttributes(a[1..])
  }

  /** The start of a tag, up to but not including its closing `>` or `/>`. */
  function OpenTag(e: Element): (r: string)
    ensures |r| >= 1 + |e.name| && r[..1 + |e.name|] == "<" + e.name
  {
    "<" + e.name + RenderAttributes(e.attributes)
  }

  function CloseTag(e: Element): string {
    "</" + e.name + ">"
  }

  /** An element at indentation level `depth`. An element that is not split
      is one empty-element tag whatever children it holds. A split element
      without children has its two tags side by side. Otherwise text
      children are written inline, and every other child is preceded by a
      line break one level deeper unless text came right before it; after
      the last child a line break at the element's own level is written
      unless that child was text. */
  function RenderElement(e: Element, f: Format, depth: nat): (r: string)
    decreases e, 1
  {
    if !e.split then OpenTag(e) + "/>"
    else if e.children == [] then OpenTag(e) + ">" + CloseTag(e)
    else OpenTag(e) + ">" + RenderChildren(e.children, f, depth, false) + CloseTag(e)
  }

  /** The children of an element at level `depth`; `afterText` says whether
      the previous child was text. */
  function RenderChildren(cs: seq<Child>, f: Format, depth: nat, afterText: bool): string
    decreases cs, 0
  {
    if cs == [] then (if afterText then "" else LineBreak(f, depth))
    else if cs[0].TextChild? then
      XmlText.Render(cs[0].textNode, f) + RenderChildren(cs[1..], f, depth, true)
    else
      (if afterText then "" else LineBreak(f, depth + 1))
        + RenderChild(cs[0], f, depth + 1) + RenderChildren(cs[1..], f, depth, false)
  }

  function RenderChild(c: Child, f: Format, depth: nat): string
    decreases c, 2
  {
    match c
    case ElementChild(x) => RenderElement(x, f, depth)
    case TextChild(t) => XmlText.Render(t, f)
    case CommentChild(m) => XmlComment.Render(m, f)
    case CDataChild(d) => XmlCData.Render(d, f)
  }

  /** The no-argument `toString`: the concise format at the top level. */
  function ToString(e: Element): string {
    RenderElement(e, Concise(), 0)
  }

  // ---------------------------------------------------------------------
  // Reference layouts

  /** The tree written with no whitespace at all between tags. */
  function FlatElement(e: Element): string
    decreases e, 1
  {
    if !e.split then OpenTag(e) + "/>"
    else OpenTag(e) + ">" + FlatChildren(e.children) + CloseTag(e)
  }

  function FlatChildren(cs: seq<Child>): string
    decreases cs, 0
  {
    if cs == [] then "" else FlatChild(cs[0]) + FlatChildren(cs[1..])
  }

  function FlatChild(c: Child): string
    decreases c, 2
  {
    match c
    case ElementChild(x) => FlatElement(x)
    case TextChild(t) => t.text
    case CommentChild(m) => "<!--" + m.text + "-->"
    case CDataChild(d) => "<![CDATA[" + d.text + "]]>"
  }

  /** A format that writes no line breaks and no indentation adds no
      whitespace anywhere: the element is written flat, at every level. The
      concise format is such a format. */
  lemma {:induction false} RenderWithoutWhitespace(e: Element, f: Format, depth: nat)
    requires f.newLine == "" && f.singleIndent == ""
    ensures RenderElement(e, f, depth) == FlatElement(e)
    decreases e, 1
  {
    if e.split && e.children != [] {
      ChildrenWithoutWhitespace(e.children, f, depth, false);
    }
  }

  lemma {:induction false} ChildrenWithoutWhitespace(cs: seq<Child>, f: Format, depth: nat, afterText: bool)
    requires f.newLine == "" && f.singleIndent == ""
    ensures RenderChildren(cs, f, depth, afterText) == FlatChildren(cs)
    decreases cs, 0
  {
    if cs != [] {
      ChildWithoutWhitespace(cs[0], f, depth + 1);
      ChildrenWithoutWhitespace(cs[1..], f, depth, cs[0].TextChild?);
      RepeatLength(f.singleIndent, depth + 1);
      assert LineBreak(f, depth + 1) == "";
    } else {
      RepeatLength(f.singleIndent, depth);
      assert LineBreak(f, depth) == "";
    }
  }

  lemma {:induction false} ChildWithoutWhitespace(c: Child, f: Format, depth: nat)
    requires f.newLine == "" && f.singleIndent == ""
    ensures RenderChild(c, f, depth) == FlatChild(c)
    decreases c, 2
  {
    if c.ElementChild? {
      RenderWithoutWhitespace(c.element, f, depth);
    }
  }

  /** The concise format writes the flat form. */
  lemma ConciseIsFlat(e: Element)
    ensures ToString(e) == FlatElement(e)
  {
    RenderWithoutWhitespace(e, Concise(), 0);
  }

  /** Where an element's text starts and ends: it starts with `<` and the
      name; a split element ends with its end tag, and one that is not split
      ends with `/>` right after its attributes, whatever children it holds. */
  lemma RenderElementBounds(e: Element, f: Format, depth: nat)
    ensures var r := RenderElement(e, f, depth);
      |r| > 1 + |e.name| && r[..1 + |e.name|] == "<" + e.name
    ensures var r := RenderElement(e, f, depth);
      e.split ==> |r| >= |OpenTag(e)| + 1 + |CloseTag(e)| && r[|r| - |CloseTag(e)|..] == CloseTag(e)
    ensures var r := RenderElement(e, f, depth);
      !e.split ==> |r| == |OpenTag(e)| + 2 && r[..|OpenTag(e)|] == OpenTag(e) && r[|r| - 2..] == "/>"
  {
    var r, open := RenderElement(e, f, depth), OpenTag(e);
    assert r[..|open|] == open;
    assert r[..1 + |e.name|] == open[..1 + |e.name|];
  }

  // ---------------------------------------------------------------------
  // Line layout of trees without text

  /** One output line: its indentation level and what follows the
      indentation. */
  datatype Line = Line(depth: nat, content: string)

  /** No text child anywhere in the tree. */
  predicate TextFree(e: Element)
    decreases e, 1
  {
    forall k :: 0 <= k < |e.children| ==> ChildTextFree(e.children[k])
  }

  predicate ChildTextFree(c: Child)
    decreases c, 2
  {
    match c
    case ElementChild(x) => TextFree(x)
    case TextChild(_) => false
    case _ => true
  }

  /** The lines of an element at level `depth`: a tag pair without children
      or an empty-element tag is one line; otherwise the start tag, the
      lines of each child one level deeper, and the end tag. */
  function Lines(e: Element, depth: nat): (ls: seq<Line>)
    ensures ls != [] && ls[0].depth == depth
    decreases e, 1
  {
    if !e.split then [Line(depth, OpenTag(e) + "/>")]
    else if e.children == [] then [Line(depth, OpenTag(e) + ">" + CloseTag(e))]
    else [Line(depth, OpenTag(e) + ">")] + ChildrenLines(e.children, depth + 1) + [Line(depth, CloseTag(e))]
  }

  function ChildrenLines(cs: seq<Child>, depth: nat): seq<Line>
    decreases cs, 0
  {
    if cs == [] then [] else ChildLines(cs[0], depth) + ChildrenLines(cs[1..], depth)
  }

  function ChildLines(c: Child, depth: nat): (ls: seq<Line>)
    ensures ls != [] && ls[0].depth == depth
    decreases c, 2
  {
    match c
    case ElementChild(x) => Lines(x, depth)
    case TextChild(t) => [Line(depth, t.text)]
    case CommentChild(m) => [Line(depth, XmlComment.Render(m, Pretty()))]
    case CDataChild(d) => [Line(depth, XmlCData.Render(d, Pretty()))]
  }

  /** Every line after the first, each preceded by a line break and its
      indentation. */
  function Breaks(ls: seq<Line>, f: Format): string {
    if ls == [] then "" else LineBreak(f, ls[0].depth) + ls[0].content + Breaks(ls[1..], f)
  }

  /** Lines joined into text: the first as it is, the rest each on a new
      line at its own indentation. */
  function Layout(ls: seq<Line>, f: Format): string
    requires ls != []
  {
    ls[0].content + Breaks(ls[1..], f)
  }

  lemma {:induction false} BreaksAppend(a: seq<Line>, b: seq<Line>, f: Format)
    ensures Breaks(a + b, f) == Breaks(a, f) + Breaks(b, f)
  {
    if a == [] {
      assert a + b == b;
    } else {
      assert (a + b)[1..] == a[1..] + b;
      BreaksAppend(a[1..], b, f);
    }
  }

  /** In a tree without text, every tag gets a line of its own, indented by
      its nesting level: the rendering in any format is the layout of the
      tree's lines. */
  lemma {:induction false} RenderIsLayout(e: Element, f: Format, depth: nat)
    requires TextFree(e)
    ensures RenderElement(e, f, depth) == Layout(Lines(e, depth), f)
    decreases e, 1
  {
    if e.split && e.children != [] {
      ChildrenLayout(e.children, f, depth);
      SplitLayout(e, f, depth);
    }
  }

  /** The layout of a split element with children: its start tag, its
      children's lines, a line break at its own level and its end tag. */
  lemma SplitLayout(e: Element, f: Format, depth: nat)
    requires e.split && e.children != []
    ensures Layout(Lines(e, depth), f)
         == OpenTag(e) + ">" + (Breaks(ChildrenLines(e.children, depth + 1), f) + LineBreak(f, depth)) + CloseTag(e)
  {
    var inner := ChildrenLines(e.children, depth + 1);
    var last := [Line(depth, CloseTag(e))];
    assert Lines(e, depth)[1..] == inner + last;
    BreaksAppend(inner, last, f);
    assert Breaks(last, f) == LineBreak(f, depth) + CloseTag(e);
    var body, close := Breaks(inner, f), LineBreak(f, depth);
    assert (body + close) + CloseTag(e) == body + (close + CloseTag(e));
  }

  /** The first of some lines, written after a line break. */
  lemma BreaksHead(ls: seq<Line>, f: Format)
    requires ls != []
    ensures Breaks(ls, f) == LineBreak(f, ls[0].depth) + Layout(ls, f)
  {
  }

  lemma TextFreeTail(cs: seq<Child>)
    requires cs != [] && forall k :: 0 <= k < |cs| ==> ChildTextFree(cs[k])
    ensures ChildTextFree(cs[0]) && !cs[0].TextChild?
    ensures forall k :: 0 <= k < |cs[1..]| ==> ChildTextFree(cs[1..][k])
  {
    assert ChildTextFree(cs[0]);
    forall k | 0 <= k < |cs[1..]| ensures ChildTextFree(cs[1..][k]) {
      assert cs[1..][k] == cs[k + 1];
    }
  }

  lemma {:induction false} ChildrenLayout(cs: seq<Child>, f: Format, depth: nat)
    requires forall k :: 0 <= k < |cs| ==> ChildTextFree(cs[k])
    ensures RenderChildren(cs, f, depth, false) == Breaks(ChildrenLines(cs, depth + 1), f) + LineBreak(f, depth)
    decreases cs, 0
  {
    if cs != [] {
      var c, rest := cs[0], cs[1..];
      var mine, others := ChildLines(c, depth + 1), ChildrenLines(rest, depth + 1);
      TextFreeTail(cs);
      ChildrenLayout(rest, f, depth);
      ChildLayout(c, f, depth + 1);
      BreaksHead(mine, f);
      BreaksAppend(mine, others, f);
      AppendAssociates(LineBreak(f, depth + 1) + RenderChild(c, f, depth + 1), Breaks(others, f), LineBreak(f, depth));
    }
  }

  lemma {:induction false} ChildLayout(c: Child, f: Format, depth: nat)
    requires ChildTextFree(c)
    ensures RenderChild(c, f, depth) == Layout(ChildLines(c, depth), f)
    decreases c, 2
  {
    if c.ElementChild? {
      RenderIsLayout(c.element, f, depth);
    }
  }
}

=== FILE: element_roundtrip.dfy ===
/** Reading back what was written: an element tree written in a format whose
    line breaks and indentation are whitespace is read by the parser as an
    equal tree, provided the tree is one the written form can express. */
module XmlElementRoundTrip {
  import opened Wrappers
  import opened XmlStrings
  import opened XmlCharacters
  import opened XmlFormat
  import opened XmlAttributeMap
  import opened XmlLexer
  import opened XmlSections
  import opened XmlElement
  import opened XmlElementRender
  import opened XmlElementParser
  import XmlAttribute
  import XmlText
  import XmlCData

  // ---------------------------------------------------------------------
  // Which trees and formats

  /** A format whose line breaks and indentation are whitespace, as the
      concise and pretty formats are: what it adds between tags is skipped
      by the parser. */
  predicate WhitespaceFormat(f: Format) {
    IsWhitespaceText(f.newLine) && IsWhitespaceText(f.singleIndent)
  }

  /** A tree the written form expresses exactly. Names are XML names,
      attribute values hold no `"` (values are written unescaped between
      double quotes), an element that is not split has no children (they
      would not be written), there are no comments (the parser drops
      them), no two text children are adjacent (they would be read as one),
      text is not all whitespace (it would be skipped) and holds no `<`,
      and a CDATA section holds no `]]>`. */
  predicate Stable(e: Element)
    decreases e, 1
  {
    && ValidElement(e) && IsName(e.name)
    && StableAttributes(e.attributes)
    && (!e.split ==> e.children == [])
    && StableChildren(e.children)
  }

  predicate StableAttributes(a: seq<AttrEntry>) {
    forall k :: 0 <= k < |a| ==> IsName(a[k].key) && '"' !in a[k].value
  }

  predicate StableChildren(cs: seq<Child>)
    decreases cs, 0
  {
    cs != [] ==>
      && StableChild(cs[0])
      && (|cs| > 1 && cs[0].TextChild? ==> !cs[1].TextChild?)
      && StableChildren(cs[1..])
  }

  predicate StableChild(c: Child)
    decreases c, 2
  {
    match c
    case ElementChild(x) => Stable(x)
    case TextChild(t) => t.text != "" && '<' !in t.text && !IsWhitespaceText(t.text)
    case CommentChild(_) => false
    case CDataChild(d) => NoTerminator(d.text, ']')
  }

  // ---------------------------------------------------------------------
  // Facts about the written form

  /** A line break of a whitespace format is whitespace. */
  lemma LineBreakIsWhitespace(f: Format, depth: nat)
    requires WhitespaceFormat(f)
    ensures IsWhitespaceText(LineBreak(f, depth))
  {
    var r := LineBreak(f, depth);
    var t := Repeat(f.singleIndent, depth);
    assert r == f.newLine + t;
    WhitespaceTextIsAll(f.newLine);
    WhitespaceTextIsAll(f.singleIndent);
    WhitespaceTextIsAll(r);
    forall k | 0 <= k < |r| ensures IsWhitespaceCharacter(r[k]) {
      if k < |f.newLine| {
        assert r[k] == f.newLine[k];
      } else {
        assert r[k] == t[k - |f.newLine|];
        assert t[k - |f.newLine|] in f.singleIndent;
      }
    }
  }

  /** Every child but text is written starting with `<`: a child element
      goes on with the first character of its name, a CDATA section with
      `![`. */
  lemma ChildOpens(c: Child, f: Format, depth: nat)
    requires StableChild(c) && !c.TextChild?
    ensures |RenderChild(c, f, depth)| >= 3 && RenderChild(c, f, depth)[0] == '<'
    ensures c.ElementChild? ==> IsNameStartCharacter(RenderChild(c, f, depth)[1])
    ensures c.CDataChild? ==> RenderChild(c, f, depth)[1] == '!' && RenderChild(c, f, depth)[2] == '['
  {
    if c.ElementChild? {
      var x := c.element;
      var o := OpenTag(x);
      assert o[..1 + |x.name|] == "<" + x.name;
      assert o[0] == '<' && o[1] == x.name[0];
      assert RenderElement(x, f, depth)[..|o|] == o;
    }
  }

  /** After text, the next thing written is a tag: the next child, which is
      not text, or the end tag. */
  lemma AfterTextOpens(cs: seq<Child>, f: Format, depth: nat, e: Element)
    requires cs == [] || (StableChild(cs[0]) && !cs[0].TextChild?)
    ensures |RenderChildren(cs, f, depth, true) + CloseTag(e)| > 0
    ensures (RenderChildren(cs, f, depth, true) + CloseTag(e))[0] == '<'
  {
    if cs != [] {
      ChildOpens(cs[0], f, depth + 1);
    }
  }

  lemma Split2(s: string, p: nat, n: nat, x: string, y: string, p1: nat)
    requires p1 == p + |x| && n == p1 + |y| <= |s| && s[p..n] == x + y
    ensures s[p..p1] == x && s[p1..n] == y
  {
    assert s[p..p1] == s[p..n][..|x|];
    assert s[p1..n] == s[p..n][|x|..];
  }

  lemma Split3(s: string, p: nat, n: nat, x: string, y: string, z: string, p1: nat, p2: nat)
    requires p1 == p + |x| && p2 == p1 + |y| && n == p2 + |z| <= |s| && s[p..n] == x + y + z
    ensures s[p..p1] == x && s[p1..p2] == y && s[p2..n] == z
  {
    Split2(s, p, n, x + y, z, p2);
    Split2(s, p, p2, x, y, p1);
  }

  // ---------------------------------------------------------------------
  // Start tags

  /** One attribute as written, ` name="value"`, is read back with `"` as
      its quote. */
  lemma AttributeAt(s: string, i: nat, a: XmlAttribute.Attribute, m: nat)
    requires XmlAttribute.ValidAttribute(a) && IsName(a.name) && a.quote !in a.value
    requires m == i + |a.name| + |a.value| + 3 <= |s|
    requires s[i..m] == a.name + "=" + XmlAttribute.QuoteWith(a.value, a.quote)
    ensures ParseAttribute(s, i, "", "start tag") == Success(Parsed(a, m))
  {
    ParseAttributeReads(s, i, a, "", "start tag", m);
  }

  /** The attributes as written are read back in order, each quoted with
      `"`, up to the `/` or `>` after them. */
  lemma {:induction false} AttributesReads(s: string, p: nat, a: seq<AttrEntry>, q: nat)
    requires NonEmptyKeys(a) && StableAttributes(a)
    requires p <= q < |s| && s[p..q] == RenderAttributes(a) && (s[q] == '/' || s[q] == '>')
    ensures ParseAttributes(s, p) == Success(Parsed(AsAttributes(a), q))
    decreases |a|
  {
    if a == [] {
      assert p == q;
    } else {
      var m := AttributeLayout(s, p, a, q);
      AttributesTail(a);
      AttributesReads(s, m, a[1..], q);
      AttributeThenRest(s, p, a, m, q);
    }
  }

  /** The first attribute as written, ` name="value"`, and the rest. */
  lemma AttributeLayout(s: string, p: nat, a: seq<AttrEntry>, q: nat) returns (m: nat)
    requires a != [] && p <= q <= |s| && s[p..q] == RenderAttributes(a)
    ensures m == p + |a[0].key| + |a[0].value| + 4 <= q
    ensures s[p..m] == " " + a[0].key + "=" + Quote(a[0].value)
    ensures s[m..q] == RenderAttributes(a[1..])
  {
    var first := " " + a[0].key + "=" + Quote(a[0].value);
    m := p + |first|;
    Split2(s, p, q, first, RenderAttributes(a[1..]), m);
  }

  lemma AttributesTail(a: seq<AttrEntry>)
    requires a != [] && NonEmptyKeys(a) && StableAttributes(a)
    ensures NonEmptyKeys(a[1..]) && StableAttributes(a[1..])
  {
    var tail := a[1..];
    forall j | 0 <= j < |tail| ensures IsName(tail[j].key) && '"' !in tail[j].value {
      assert tail[j] == a[j + 1];
    }
  }

  /** An attribute as written, before the rest as read, is read first. */
  lemma AttributeThenRest(s: string, p: nat, a: seq<AttrEntry>, m: nat, q: nat)
    requires a != [] && NonEmptyKeys(a) && StableAttributes(a) && NonEmptyKeys(a[1..])
    requires m == p + |a[0].key| + |a[0].value| + 4 <= q <= |s|
    requires s[p..m] == " " + a[0].key + "=" + Quote(a[0].value)
    requires ParseAttributes(s, m) == Success(Parsed(AsAttributes(a[1..]), q))
    ensures ParseAttributes(s, p) == Success(Parsed(AsAttributes(a), q))
  {
    var x := FirstAttributeReads(s, p, a, m);
    AttributeCons(s, p, x, m, AsAttributes(a[1..]), q);
    assert AsAttributes(a) == [x] + AsAttributes(a[1..]);
  }

  /** The first attribute as written: a space, then the attribute, read
      with `"` as its quote. */
  lemma FirstAttributeReads(s: string, p: nat, a: seq<AttrEntry>, m: nat) returns (x: XmlAttribute.Attribute)
    requires a != [] && NonEmptyKeys(a) && StableAttributes(a)
    requires m == p + |a[0].key| + |a[0].value| + 4 <= |s|
    requires s[p..m] == " " + a[0].key + "=" + Quote(a[0].value)
    ensures x == XmlAttribute.Attribute(a[0].key, a[0].value, '"')
    ensures p + 1 < |s| && IsWhitespaceCharacter(s[p]) && IsNameStartCharacter(s[p + 1])
    ensures ParseOptionalWhitespace(s, p) == Parsed(" ", p + 1)
    ensures ParseAttribute(s, p + 1, "", "start tag") == Success(Parsed(x, m))
  {
    var k, v := a[0].key, a[0].value;
    x := XmlAttribute.Attribute(k, v, '"');
    assert 0 < |a| && IsName(a[0].key) && '"' !in a[0].value;
    Split2(s, p, m, " ", k + "=" + XmlAttribute.QuoteWith(v, '"'), p + 1);
    assert s[p + 1] == k[0];
    WhitespaceReads(s, p, " ");
    AttributeAt(s, p + 1, x, m);
  }

  /** One turn of the attribute loop: whitespace, an attribute, then the
      rest of the loop. */
  lemma AttributeCons(s: string, p: nat, x: XmlAttribute.Attribute, m: nat, rest: seq<XmlAttribute.Attribute>, q: nat)
    requires p + 1 < |s| && IsWhitespaceCharacter(s[p]) && IsNameStartCharacter(s[p + 1])
    requires ParseOptionalWhitespace(s, p) == Parsed(" ", p + 1)
    requires ParseAttribute(s, p + 1, "", "start tag") == Success(Parsed(x, m))
    requires m <= |s| && ParseAttributes(s, m) == Success(Parsed(rest, q))
    ensures ParseAttributes(s, p) == Success(Parsed([x] + rest, q))
  {
  }

  /** The start of an element as written, `<name attributes`, splits into
      its name and its attributes. */
  lemma OpenTagAt(s: string, h: nat, e: Element, tail: string, n: nat, a0: nat, q: nat)
    requires a0 == h + 1 + |e.name| && q == a0 + |RenderAttributes(e.attributes)| && n == q + |tail| <= |s|
    requires s[h..n] == OpenTag(e) + tail
    ensures s[h] == '<' && s[h + 1..a0] == e.name && s[a0..q] == RenderAttributes(e.attributes) && s[q..n] == tail
  {
    assert OpenTag(e) + tail == "<" + e.name + RenderAttributes(e.attributes) + tail;
    Split2(s, h, n, "<", e.name + RenderAttributes(e.attributes) + tail, h + 1);
    Split3(s, h + 1, n, e.name, RenderAttributes(e.attributes), tail, a0, q);
  }

  /** None of the characters that may follow a name in the written form
      continues it. */
  lemma NameStops()
    ensures !IsNameCharacter(' ') && !IsNameCharacter('/') && !IsNameCharacter('>')
    ensures !IsNameStartCharacter('?') && !IsNameStartCharacter('/') && !IsNameStartCharacter('!')
  {
  }

  /** The name of a start tag is read back: it stops at the space before
      the attributes or at the close of the tag. */
  lemma StartNameReads(s: string, h: nat, name: string, a0: nat)
    requires IsName(name) && a0 == h + 1 + |name| < |s|
    requires s[h + 1..a0] == name && (s[a0] == ' ' || s[a0] == '/' || s[a0] == '>')
    ensures ParseName(s, h + 1, "start tag or empty element") == Success(Parsed(name, a0))
  {
    NameStops();
    ParseNameReads(s, h + 1, name, "start tag or empty element");
  }

  /** The name and the attributes of a start tag are read back. */
  lemma StartTagReads(s: string, h: nat, name: string, attrs: seq<AttrEntry>, a0: nat, q: nat)
    requires IsName(name) && NonEmptyKeys(attrs) && StableAttributes(attrs)
    requires a0 == h + 1 + |name| && a0 <= q < |s|
    requires s[h + 1..a0] == name && s[a0..q] == RenderAttributes(attrs) && (s[q] == '/' || s[q] == '>')
    ensures ParseName(s, h + 1, "start tag or empty element") == Success(Parsed(name, a0))
    ensures ParseAttributes(s, a0) == Success(Parsed(AsAttributes(attrs), q))
  {
    if attrs != [] {
      assert s[a0] == RenderAttributes(attrs)[0] == ' ';
    }
    StartNameReads(s, h, name, a0);
    AttributesReads(s, a0, attrs, q);
  }

  /** A start tag is its name, its attributes and its close, read one
      after the other. */
  lemma StartTagComposes(s: string, i: nat, name: string, attrs: seq<XmlAttribute.Attribute>, empty: bool,
                         a0: nat, q: nat, m: nat)
    requires i <= |s| && ParseName(s, i, "start tag or empty element") == Success(Parsed(name, a0))
    requires ParseAttributes(s, a0) == Success(Parsed(attrs, q))
    requires ParseTagClose(s, q) == Success(Parsed(empty, m))
    ensures ParseStartTag(s, i) == Success(Parsed(StartTag(name, attrs, empty), m))
  {
  }

  /** An empty-element tag is the whole element. */
  lemma EmptyElementAt(s: string, i: nat, tag: StartTag, m: nat)
    requires i <= |s| && ParseStartTag(s, i) == Success(Parsed(tag, m)) && tag.empty
    ensures IsName(tag.name) && ParsedAttributes(tag.attributes) && ValidAttributes(tag.attributes)
    ensures ParseElementAtName(s, i) == Success(Parsed(Opened(tag), m))
  {
  }

  /** A start tag hands over to the content loop. */
  lemma StartTagAt(s: string, i: nat, tag: StartTag, m: nat)
    requires i <= |s| && ParseStartTag(s, i) == Success(Parsed(tag, m)) && !tag.empty
    ensures m <= |s| && IsName(tag.name) && ParsedAttributes(tag.attributes) && ValidAttributes(tag.attributes)
    ensures ParseElementAtName(s, i) == ParseContent(s, m, Opened(tag))
  {
  }

  // ---------------------------------------------------------------------
  // One turn of the content loop at a time

  /** A turn that does not end the loop hands over to the next turn. */
  lemma ContentContinues(s: string, p: nat, acc: Element, next: Element, q: nat)
    requires p < |s| && acc.split && ParsedForm(acc) && ValidElement(acc)
    requires ContentStep(s, p, acc) == Success(Step(next, q, false))
    ensures q <= |s| && next.split && ParsedForm(next) && ValidElement(next)
    ensures next.name == acc.name && next.attributes == acc.attributes
    ensures ParseContent(s, p, acc) == ParseContent(s, q, next)
  {
  }

  /** A turn that finds the end tag ends the loop. */
  lemma ContentEnds(s: string, p: nat, acc: Element, n: nat)
    requires p < |s| && acc.split && ParsedForm(acc) && ValidElement(acc)
    requires ContentStep(s, p, acc) == Success(Step(acc, n, true))
    ensures ParseContent(s, p, acc) == Success(Parsed(acc, n))
  {
  }

  /** A run of whitespace before a tag is skipped. */
  lemma WhitespaceStep(s: string, p: nat, acc: Element, w: string, q: nat)
    requires acc.split && ParsedForm(acc) && ValidElement(acc)
    requires w != "" && IsWhitespaceText(w) && q == p + |w| < |s| && s[p..q] == w && s[q] == '<'
    ensures ContentStep(s, p, acc) == Success(Step(acc, q, false))
  {
    assert s[p] == w[0];
    WhitespaceTextIsAll(w);
    TextReads(s, p, w);
  }

  /** Text before a tag is appended. */
  lemma TextStep(s: string, p: nat, acc: Element, t: string, q: nat)
    requires acc.split && ParsedForm(acc) && ValidElement(acc)
    requires t != "" && '<' !in t && !IsWhitespaceText(t)
    requires q == p + |t| < |s| && s[p..q] == t && s[q] == '<'
    ensures ContentStep(s, p, acc) == Success(Step(AddChild(acc, TextChild(XmlText.Text(t, false))), q, false))
  {
    TextReads(s, p, t);
  }

  /** At `<` the turn reads markup. */
  lemma ContentAtTag(s: string, p: nat, acc: Element)
    requires p < |s| && s[p] == '<' && acc.split && ParsedForm(acc) && ValidElement(acc)
    ensures ContentStep(s, p, acc) == MarkupStep(s, p, acc)
  {
  }

  /** A child element is appended as read. */
  lemma ElementStep(s: string, p: nat, acc: Element, x: Element, m: nat)
    requires acc.split && ParsedForm(acc) && ValidElement(acc)
    requires p + 1 < |s| && s[p] == '<' && IsNameStartCharacter(s[p + 1])
    requires ParseElementAtName(s, p + 1) == Success(Parsed(x, m))
    ensures ContentStep(s, p, acc) == Success(Step(AddChild(acc, ElementChild(x)), m, false))
  {
    NameStops();
    ContentAtTag(s, p, acc);
    assert MarkupStep(s, p, acc) == ChildStep(s, p, acc);
  }

  /** After `<!`, a CDATA section as read is appended. */
  lemma BangCData(s: string, q: nat, acc: Element, d: XmlCData.CData, m: nat)
    requires q + 1 < |s| && s[q + 1] == '[' && acc.split && ParsedForm(acc) && ValidElement(acc)
    requires ParseCData(s, q + 1) == Success(Parsed(d, m))
    ensures BangStep(s, q, acc) == Success(Step(AddChild(acc, CDataChild(d)), m, false))
  {
  }

  /** A CDATA section is appended as written. */
  lemma CDataStep(s: string, p: nat, acc: Element, d: XmlCData.CData, m: nat)
    requires acc.split && ParsedForm(acc) && ValidElement(acc) && NoTerminator(d.text, ']')
    requires m == p + |d.text| + 12 <= |s| && s[p..m] == "<![CDATA[" + d.text + "]]>"
    ensures ContentStep(s, p, acc) == Success(Step(AddChild(acc, CDataChild(d)), m, false))
  {
    Split2(s, p, m, "<!", "[CDATA[" + d.text + "]]>", p + 2);
    assert s[p] == '<' && s[p + 1] == '!' && s[p + 2] == '[';
    CDataReads(s, p + 2, d, m);
    BangCData(s, p + 1, acc, d, m);
    ContentAtTag(s, p, acc);
    MarkupAtBang(s, p, acc);
  }

  lemma MarkupAtBang(s: string, p: nat, acc: Element)
    requires p + 1 < |s| && s[p] == '<' && s[p + 1] == '!' && acc.split && ParsedForm(acc) && ValidElement(acc)
    ensures MarkupStep(s, p, acc) == BangStep(s, p + 1, acc)
  {
  }

  /** An end tag as written, `name>` after `</`, is read back. */
  lemma EndTagReads(s: string, i: nat, name: string, n: nat)
    requires IsName(name) && n == i + |name| + 1 <= |s| && s[i..n] == name + ">"
    ensures ParseEndTag(s, i) == Success(Parsed(name, n))
  {
    var a := i + |name|;
    Split2(s, i, n, name, ">", a);
    NameStops();
    ParseNameReads(s, i, name, "end tag");
    WhitespaceReads(s, a, "");
  }

  /** The element's own end tag ends the loop. */
  lemma EndStep(s: string, p: nat, acc: Element, n: nat)
    requires acc.split && ParsedForm(acc) && ValidElement(acc)
    requires n == p + |acc.name| + 3 <= |s| && s[p..n] == CloseTag(acc)
    ensures ParseContent(s, p, acc) == Success(Parsed(acc, n))
  {
    Split2(s, p, n, "</", acc.name + ">", p + 2);
    assert s[p] == '<' && s[p + 1] == '/';
    EndTagReads(s, p + 2, acc.name, n);
    assert EndTagStep(s, p, acc) == Success(Step(acc, n, true));
    ContentAtTag(s, p, acc);
    assert MarkupStep(s, p, acc) == EndTagStep(s, p, acc);
    ContentEnds(s, p, acc, n);
  }

  // ---------------------------------------------------------------------
  // The round trip

  /** What follows the `>` of a start tag in the written form: the
      children, then the end tag. */
  function Inner(e: Element, f: Format, depth: nat): string {
    if e.children == [] then CloseTag(e)
    else RenderChildren(e.children, f, depth, false) + CloseTag(e)
  }

  /** What follows the attributes in the written form of an element. */
  function TagTail(e: Element, f: Format, depth: nat): string {
    if e.split then ">" + Inner(e, f, depth) else "/>"
  }

  /** The tail of a tag closes it: `/>` for an element that is not split,
      which ends it, and `>` before the content otherwise. */
  lemma TagCloseReads(s: string, q: nat, n: nat, e: Element, f: Format, depth: nat) returns (m: nat)
    requires q <= n <= |s| && s[q..n] == TagTail(e, f, depth)
    ensures ParseTagClose(s, q) == Success(Parsed(!e.split, m))
    ensures !e.split ==> m == n
    ensures e.split ==> m <= n && s[m..n] == Inner(e, f, depth)
  {
    if e.split {
      m := q + 1;
      Split2(s, q, n, ">", Inner(e, f, depth), m);
      assert s[q] == s[q..m][0];
    } else {
      m := q + 2;
      assert s[q] == s[q..n][0] && s[q + 1] == s[q..n][1];
    }
  }

  /** The start of an element as written is read as its name and its
      attributes. */
  lemma StartReads(s: string, h: nat, e: Element, f: Format, depth: nat, n: nat, a0: nat, q: nat)
    requires Stable(e)
    requires h < n <= |s| && s[h..n] == RenderElement(e, f, depth)
    requires a0 == h + 1 + |e.name| && q == a0 + |RenderAttributes(e.attributes)|
    ensures q < n && s[q..n] == TagTail(e, f, depth)
    ensures ParseName(s, h + 1, "start tag or empty element") == Success(Parsed(e.name, a0))
    ensures ParseAttributes(s, a0) == Success(Parsed(AsAttributes(e.attributes), q))
  {
    StartLaidOut(s, h, e, f, depth, n, a0, q);
    StartTagReads(s, h, e.name, e.attributes, a0, q);
  }

  /** Where the name, the attributes and the tail of a written element's
      start lie in the text. */
  lemma StartLaidOut(s: string, h: nat, e: Element, f: Format, depth: nat, n: nat, a0: nat, q: nat)
    requires h < n <= |s| && s[h..n] == RenderElement(e, f, depth)
    requires a0 == h + 1 + |e.name| && q == a0 + |RenderAttributes(e.attributes)|
    ensures q < n && s[q..n] == TagTail(e, f, depth)
    ensures s[h + 1..a0] == e.name && s[a0..q] == RenderAttributes(e.attributes)
    ensures s[q] == '/' || s[q] == '>'
  {
    var tail := TagTail(e, f, depth);
    assert RenderElement(e, f, depth) == OpenTag(e) + tail;
    OpenTagAt(s, h, e, tail, n, a0, q);
    assert s[q] == tail[0];
  }

  /** The start tag of an element as written is read back: its name, its
      attributes quoted with `"`, and whether it is an empty-element tag. */
  lemma StartTagRead(s: string, h: nat, e: Element, f: Format, depth: nat, n: nat) returns (m: nat)
    requires Stable(e)
    requires h < n <= |s| && s[h..n] == RenderElement(e, f, depth)
    ensures ParseStartTag(s, h + 1) == Success(Parsed(StartTag(e.name, AsAttributes(e.attributes), !e.split), m))
    ensures !e.split ==> m == n
    ensures e.split ==> m <= n && s[m..n] == Inner(e, f, depth)
  {
    var a0 := h + 1 + |e.name|;
    var q := a0 + |RenderAttributes(e.attributes)|;
    StartReads(s, h, e, f, depth, n, a0, q);
    m := TagCloseReads(s, q, n, e, f, depth);
    StartTagComposes(s, h + 1, e.name, AsAttributes(e.attributes), !e.split, a0, q, m);
  }

  /** An element written at `h..n` is read back from just after its `<`
      as an equal element `x` that ends at `n`. */
  lemma {:induction false} ElementReads(s: string, h: nat, e: Element, f: Format, depth: nat, n: nat)
    returns (x: Element)
    requires WhitespaceFormat(f) && Stable(e)
    requires h < n <= |s| && s[h..n] == RenderElement(e, f, depth)
    ensures ParseElementAtName(s, h + 1) == Success(Parsed(x, n))
    ensures ElementEq(x, e)
    decreases e, 3
  {
    var m := StartTagRead(s, h, e, f, depth, n);
    AsAttributesMap(e.attributes);
    var tag := StartTag(e.name, AsAttributes(e.attributes), !e.split);
    if e.split {
      x := SplitElementReads(s, h + 1, e, tag, f, depth, m, n);
    } else {
      x := EmptyElementReads(s, h + 1, e, tag, n);
    }
  }

  /** An element that is not split: its empty-element tag is all of it. */
  lemma EmptyElementReads(s: string, i: nat, e: Element, tag: StartTag, n: nat)
    returns (x: Element)
    requires Stable(e) && !e.split && i <= |s|
    requires tag == StartTag(e.name, AsAttributes(e.attributes), true)
    requires ParseStartTag(s, i) == Success(Parsed(tag, n))
    requires AttributesMap(tag.attributes) == ToMap(e.attributes)
    ensures ParseElementAtName(s, i) == Success(Parsed(x, n))
    ensures ElementEq(x, e)
  {
    EmptyElementAt(s, i, tag, n);
    x := Opened(tag);
  }

  /** A split element: after its start tag, the content loop. */
  lemma {:induction false} SplitElementReads(s: string, i: nat, e: Element, tag: StartTag, f: Format, depth: nat,
                                             m: nat, n: nat)
    returns (x: Element)
    requires WhitespaceFormat(f) && Stable(e) && e.split && i <= |s|
    requires tag == StartTag(e.name, AsAttributes(e.attributes), false)
    requires ParseStartTag(s, i) == Success(Parsed(tag, m))
    requires m <= n <= |s| && s[m..n] == Inner(e, f, depth)
    requires AttributesMap(tag.attributes) == ToMap(e.attributes)
    ensures ParseElementAtName(s, i) == Success(Parsed(x, n))
    ensures ElementEq(x, e)
    decreases e, 2
  {
    StartTagAt(s, i, tag, m);
    x := ContentReads(s, m, e, Opened(tag), f, depth, n);
  }

  /** The content of a split element as written, then its end tag, are read
      by the content loop started with no children. */
  lemma {:induction false} ContentReads(s: string, p: nat, e: Element, start: Element, f: Format, depth: nat, n: nat)
    returns (x: Element)
    requires WhitespaceFormat(f) && Stable(e) && e.split
    requires start.split && ParsedForm(start) && ValidElement(start) && start.name == e.name && start.children == []
    requires p <= n <= |s| && s[p..n] == Inner(e, f, depth)
    ensures ParseContent(s, p, start) == Success(Parsed(x, n))
    ensures x.name == start.name && x.attributes == start.attributes && x.split
    ensures ChildrenEq(x.children, e.children)
    decreases e, 1
  {
    assert CloseTag(start) == CloseTag(e);
    if e.children == [] {
      EndStep(s, p, start, n);
      x := start;
    } else {
      x := ChildrenReads(s, p, start, e.children, f, depth, false, n);
      assert x.children[|start.children|..] == x.children;
    }
  }

  /** The children as written, then the end tag, are read by the content
      loop: it ends at `n` and appends children equal to them. */
  lemma {:induction false} ChildrenReads(s: string, p: nat, acc: Element, cs: seq<Child>, f: Format, depth: nat,
                                         afterText: bool, n: nat)
    returns (x: Element)
    requires WhitespaceFormat(f) && StableChildren(cs)
    requires acc.split && ParsedForm(acc) && ValidElement(acc)
    requires afterText && cs != [] ==> !cs[0].TextChild?
    requires p <= n <= |s| && s[p..n] == RenderChildren(cs, f, depth, afterText) + CloseTag(acc)
    ensures ParseContent(s, p, acc) == Success(Parsed(x, n))
    ensures x.name == acc.name && x.attributes == acc.attributes && x.split
    ensures |acc.children| <= |x.children| && x.children[..|acc.children|] == acc.children
    ensures ChildrenEq(x.children[|acc.children|..], cs)
    decreases cs, 1
  {
    if cs == [] {
      EmptyChildrenReads(s, p, acc, f, depth, afterText, n);
      x := acc;
    } else if cs[0].TextChild? {
      x := TextChildReads(s, p, acc, cs, f, depth, n);
    } else {
      x := MarkupChildReads(s, p, acc, cs, f, depth, afterText, n);
    }
  }

  /** No more children: the line break, if any, and the end tag. */
  lemma EmptyChildrenReads(s: string, p: nat, acc: Element, f: Format, depth: nat, afterText: bool, n: nat)
    requires WhitespaceFormat(f)
    requires acc.split && ParsedForm(acc) && ValidElement(acc)
    requires p <= n <= |s| && s[p..n] == RenderChildren([], f, depth, afterText) + CloseTag(acc)
    ensures ParseContent(s, p, acc) == Success(Parsed(acc, n))
  {
    var w := if afterText then "" else LineBreak(f, depth);
    LineBreakIsWhitespace(f, depth);
    var p1 := p + |w|;
    Split2(s, p, n, w, CloseTag(acc), p1);
    if w != "" {
      SkipBreak(s, p, acc, w, p1, n, CloseTag(acc));
    }
    EndStep(s, p1, acc, n);
  }

  /** A text child, then the rest. */
  lemma {:induction false} TextChildReads(s: string, p: nat, acc: Element, cs: seq<Child>, f: Format, depth: nat, n: nat)
    returns (x: Element)
    requires WhitespaceFormat(f) && StableChildren(cs) && cs != [] && cs[0].TextChild?
    requires acc.split && ParsedForm(acc) && ValidElement(acc)
    requires p <= n <= |s| && s[p..n] == RenderChildren(cs, f, depth, false) + CloseTag(acc)
    ensures ParseContent(s, p, acc) == Success(Parsed(x, n))
    ensures x.name == acc.name && x.attributes == acc.attributes && x.split
    ensures |acc.children| <= |x.children| && x.children[..|acc.children|] == acc.children
    ensures ChildrenEq(x.children[|acc.children|..], cs)
    decreases cs, 0
  {
    var q := TextChildLayout(s, p, acc, cs, f, depth, n);
    var c := TextAppends(s, p, acc, cs[0].textNode.text, q);
    x := ChildrenReads(s, q, AddChild(acc, c), cs[1..], f, depth, true, n);
    Appended(x.children, acc.children, c, cs);
  }

  /** How the text at `p` splits when the first child is text: the text,
      then the rest, which opens with `<`. */
  lemma TextChildLayout(s: string, p: nat, acc: Element, cs: seq<Child>, f: Format, depth: nat, n: nat)
    returns (q: nat)
    requires StableChildren(cs) && cs != [] && cs[0].TextChild?
    requires p <= n <= |s| && s[p..n] == RenderChildren(cs, f, depth, false) + CloseTag(acc)
    ensures q == p + |cs[0].textNode.text| < n && s[p..q] == cs[0].textNode.text && s[q] == '<'
    ensures s[q..n] == RenderChildren(cs[1..], f, depth, true) + CloseTag(acc)
    ensures StableChildren(cs[1..]) && (cs[1..] != [] ==> !cs[1..][0].TextChild?)
  {
    var t := cs[0].textNode.text;
    var rest := RenderChildren(cs[1..], f, depth, true) + CloseTag(acc);
    q := p + |t|;
    assert s[p..n] == t + rest;
    Split2(s, p, n, t, rest, q);
    AfterTextOpens(cs[1..], f, depth, acc);
    assert s[q] == rest[0];
  }

  /** Text before a tag is appended, and the content loop goes on at the
      tag. */
  lemma TextAppends(s: string, p: nat, acc: Element, t: string, q: nat) returns (c: Child)
    requires acc.split && ParsedForm(acc) && ValidElement(acc)
    requires t != "" && '<' !in t && !IsWhitespaceText(t)
    requires q == p + |t| < |s| && s[p..q] == t && s[q] == '<'
    ensures c == TextChild(XmlText.Text(t, false))
    ensures AddChild(acc, c).split && ParsedForm(AddChild(acc, c)) && ValidElement(AddChild(acc, c))
    ensures ParseContent(s, p, acc) == ParseContent(s, q, AddChild(acc, c))
  {
    c := TextChild(XmlText.Text(t, false));
    TextStep(s, p, acc, t, q);
    ContentContinues(s, p, acc, AddChild(acc, c), q);
  }

  /** A child that is not text, after the line break that precedes it when
      the previous child was not text, then the rest. */
  lemma {:induction false} MarkupChildReads(s: string, p: nat, acc: Element, cs: seq<Child>, f: Format, depth: nat,
                                            afterText: bool, n: nat)
    returns (x: Element)
    requires WhitespaceFormat(f) && StableChildren(cs) && cs != [] && !cs[0].TextChild?
    requires acc.split && ParsedForm(acc) && ValidElement(acc)
    requires p <= n <= |s| && s[p..n] == RenderChildren(cs, f, depth, afterText) + CloseTag(acc)
    ensures ParseContent(s, p, acc) == Success(Parsed(x, n))
    ensures x.name == acc.name && x.attributes == acc.attributes && x.split
    ensures |acc.children| <= |x.children| && x.children[..|acc.children|] == acc.children
    ensures ChildrenEq(x.children[|acc.children|..], cs)
    decreases cs, 0
  {
    var p1, p2 := MarkupChildAt(s, p, acc, cs, f, depth, afterText, n);
    var c := MarkupChildAppends(s, p1, acc, cs[0], f, depth + 1, p2);
    x := ChildrenReads(s, p2, AddChild(acc, c), cs[1..], f, depth, false, n);
    Appended(x.children, acc.children, c, cs);
  }

  /** Where the first child, a child that is not text, is written: after
      the line break, if any, which the content loop skips. */
  lemma MarkupChildAt(s: string, p: nat, acc: Element, cs: seq<Child>, f: Format, depth: nat, afterText: bool, n: nat)
    returns (p1: nat, p2: nat)
    requires WhitespaceFormat(f) && cs != [] && StableChild(cs[0]) && !cs[0].TextChild?
    requires acc.split && ParsedForm(acc) && ValidElement(acc)
    requires p <= n <= |s| && s[p..n] == RenderChildren(cs, f, depth, afterText) + CloseTag(acc)
    ensures p <= p1 < p2 <= n
    ensures s[p1..p2] == RenderChild(cs[0], f, depth + 1)
    ensures s[p2..n] == RenderChildren(cs[1..], f, depth, false) + CloseTag(acc)
    ensures ParseContent(s, p, acc) == ParseContent(s, p1, acc)
  {
    var w;
    w, p1, p2 := MarkupChildLayout(s, p, acc, cs, f, depth, afterText, n);
    if w != "" {
      SkipBreak(s, p, acc, w, p1, p2, RenderChild(cs[0], f, depth + 1));
    }
  }

  /** How the text at `p` splits: the line break `w`, if any, the first
      child, which opens with `<`, and the rest. */
  lemma MarkupChildLayout(s: string, p: nat, acc: Element, cs: seq<Child>, f: Format, depth: nat, afterText: bool, n: nat)
    returns (w: string, p1: nat, p2: nat)
    requires WhitespaceFormat(f) && cs != [] && StableChild(cs[0]) && !cs[0].TextChild?
    requires p <= n <= |s| && s[p..n] == RenderChildren(cs, f, depth, afterText) + CloseTag(acc)
    ensures IsWhitespaceText(w) && p1 == p + |w| && p <= p1 < p2 <= n
    ensures s[p..p1] == w && s[p1..p2] == RenderChild(cs[0], f, depth + 1)
    ensures s[p2..n] == RenderChildren(cs[1..], f, depth, false) + CloseTag(acc)
    ensures RenderChild(cs[0], f, depth + 1)[0] == '<'
  {
    var child := RenderChild(cs[0], f, depth + 1);
    var rest := RenderChildren(cs[1..], f, depth, false) + CloseTag(acc);
    w := MarkupChildParts(cs, f, depth, afterText, acc);
    ChildOpens(cs[0], f, depth + 1);
    p1 := p + |w|;
    p2 := p1 + |child|;
    Split3(s, p, n, w, child, rest, p1, p2);
  }

  /** The children as written, when the first is not text: the line break,
      if any, the first child, and the rest. */
  lemma MarkupChildParts(cs: seq<Child>, f: Format, depth: nat, afterText: bool, acc: Element) returns (w: string)
    requires WhitespaceFormat(f) && cs != [] && !cs[0].TextChild?
    ensures IsWhitespaceText(w)
    ensures RenderChildren(cs, f, depth, afterText) + CloseTag(acc)
      == w + RenderChild(cs[0], f, depth + 1) + (RenderChildren(cs[1..], f, depth, false) + CloseTag(acc))
  {
    if afterText {
      w := "";
    } else {
      w := LineBreak(f, depth + 1);
      LineBreakIsWhitespace(f, depth + 1);
    }
  }

  /** A line break before a tag is skipped by the content loop. */
  lemma SkipBreak(s: string, p: nat, acc: Element, w: string, p1: nat, p2: nat, child: string)
    requires acc.split && ParsedForm(acc) && ValidElement(acc)
    requires w != "" && IsWhitespaceText(w) && p1 == p + |w| && p1 < p2 <= |s|
    requires s[p..p1] == w && s[p1..p2] == child && child[0] == '<'
    ensures ParseContent(s, p, acc) == ParseContent(s, p1, acc)
  {
    assert s[p1] == child[0];
    WhitespaceStep(s, p, acc, w, p1);
    ContentContinues(s, p, acc, acc, p1);
  }

  /** A child that is not text is read and appended, and the content loop
      goes on after it. */
  lemma MarkupChildAppends(s: string, p: nat, acc: Element, c: Child, f: Format, depth: nat, m: nat)
    returns (x: Child)
    requires WhitespaceFormat(f) && !c.TextChild? && StableChild(c)
    requires acc.split && ParsedForm(acc) && ValidElement(acc)
    requires p < m <= |s| && s[p..m] == RenderChild(c, f, depth)
    ensures ChildEq(x, c)
    ensures AddChild(acc, x).split && ParsedForm(AddChild(acc, x)) && ValidElement(AddChild(acc, x))
    ensures ParseContent(s, p, acc) == ParseContent(s, m, AddChild(acc, x))
    decreases c, 5
  {
    x := MarkupChildStep(s, p, acc, c, f, depth, m);
    ContentContinues(s, p, acc, AddChild(acc, x), m);
  }

  /** A child that is not text, as written, is read back as an equal child
      and appended. */
  lemma {:induction false} MarkupChildStep(s: string, p: nat, acc: Element, c: Child, f: Format, depth: nat, m: nat)
    returns (x: Child)
    requires WhitespaceFormat(f) && !c.TextChild? && StableChild(c)
    requires acc.split && ParsedForm(acc) && ValidElement(acc)
    requires p < m <= |s| && s[p..m] == RenderChild(c, f, depth)
    ensures ChildEq(x, c)
    ensures ContentStep(s, p, acc) == Success(Step(AddChild(acc, x), m, false))
    decreases c, 4
  {
    if c.ElementChild? {
      var e := ElementChildReads(s, p, acc, c, f, depth, m);
      x := ElementChild(e);
    } else {
      x := c;
      CDataStep(s, p, acc, c.cdataNode, m);
    }
  }

  /** A child element as written is read back as an equal element and
      appended. */
  lemma {:induction false} ElementChildReads(s: string, p: nat, acc: Element, c: Child, f: Format, depth: nat, m: nat)
    returns (x: Element)
    requires WhitespaceFormat(f) && c.ElementChild? && StableChild(c)
    requires acc.split && ParsedForm(acc) && ValidElement(acc)
    requires p < m <= |s| && s[p..m] == RenderChild(c, f, depth)
    ensures ElementEq(x, c.element)
    ensures ContentStep(s, p, acc) == Success(Step(AddChild(acc, ElementChild(x)), m, false))
    decreases c, 3
  {
    ChildOpens(c, f, depth);
    assert s[p] == RenderChild(c, f, depth)[0] && s[p + 1] == RenderChild(c, f, depth)[1];
    x := ElementReads(s, p, c.element, f, depth, m);
    ElementStep(s, p, acc, x, m);
  }

  /** Children read after one appended child equal to the first of `cs`,
      followed by children equal to the rest, are equal to `cs`. */
  lemma Appended(r: seq<Child>, before: seq<Child>, c: Child, cs: seq<Child>)
    requires cs != [] && |before| + 1 <= |r| && r[..|before| + 1] == before + [c]
    requires ChildEq(c, cs[0]) && ChildrenEq(r[|before| + 1..], cs[1..])
    ensures |before| <= |r| && r[..|before|] == before
    ensures ChildrenEq(r[|before|..], cs)
  {
    var x := r[|before|..];
    assert r[..|before|] == r[..|before| + 1][..|before|];
    assert x[0] == c;
    forall k | 1 <= k < |x| ensures ChildEq(x[k], cs[k]) {
      assert x[k] == r[|before| + 1..][k - 1];
      assert cs[k] == cs[1..][k - 1];
    }
  }

  /** The round trip at the top level: an element written in a whitespace
      format, read from just after its first `<`, is an equal element and
      uses up the whole text. */
  lemma RoundTrip(e: Element, f: Format) returns (x: Element)
    requires WhitespaceFormat(f) && Stable(e)
    ensures |RenderElement(e, f, 0)| >= 1
    ensures ParseElementAtName(RenderElement(e, f, 0), 1) == Success(Parsed(x, |RenderElement(e, f, 0)|))
    ensures ElementEq(x, e)
  {
    RenderNotEmpty(e, f, 0);
    x := WholeTextReads(RenderElement(e, f, 0), e, f);
  }

  /** A text that is exactly a written element is read whole. */
  lemma WholeTextReads(s: string, e: Element, f: Format) returns (x: Element)
    requires WhitespaceFormat(f) && Stable(e)
    requires 0 < |s| && s == RenderElement(e, f, 0)
    ensures ParseElementAtName(s, 1) == Success(Parsed(x, |s|))
    ensures ElementEq(x, e)
  {
    var n := |s|;
    assert s[0..n] == s;
    x := ElementReads(s, 0, e, f, 0, n);
  }

  /** An element is written as at least its start tag's `<`. */
  lemma RenderNotEmpty(e: Element, f: Format, depth: nat)
    ensures |RenderElement(e, f, depth)| > |OpenTag(e)| >= 1
  {
  }

}

=== FILE: format.dfy ===
/** The rendering configuration: three strings of XML whitespace. */
module XmlFormat {
  import opened XmlCharacters

  datatype Format = Format(newLine: string, singleIndent: string, spaceBeforeDeclarationEnd: string)

  /** Every field holds only the four XML whitespace characters. */
  predicate ValidFormat(f: Format) {
    IsWhitespaceText(f.newLine) && IsWhitespaceText(f.singleIndent) &&
    IsWhitespaceText(f.spaceBeforeDeclarationEnd)
  }

  /** A fresh format writes no whitespace at all. */
  function Create(): (f: Format)
    ensures f.newLine == "" && f.singleIndent == "" && f.spaceBeforeDeclarationEnd == ""
  {
    Format("", "", "")
  }

  /** The concise preset (spelled `consise` in the library): no line
      breaks, no indentation, nothing before `?>`. */
  function Concise(): (f: Format)
    ensures ValidFormat(f)
    ensures f.newLine == "" && f.singleIndent == "" && f.spaceBeforeDeclarationEnd == ""
  {
    SetSpaceBeforeDeclarationEnd(Create(), "")
  }

  /** The pretty preset: line feeds, two-space indentation and one space
      before `?>`. */
  function Pretty(): (f: Format)
    ensures ValidFormat(f)
    ensures f.newLine == "\n" && f.singleIndent == "  " && f.spaceBeforeDeclarationEnd == " "
  {
    Format("\n", "  ", " ")
  }

  /** Replaces the space written before `?>`; only XML whitespace is
      accepted, and the other two fields are kept. */
  function SetSpaceBeforeDeclarationEnd(f: Format, space: string): (r: Format)
    requires IsWhitespaceText(space)
    ensures r.spaceBeforeDeclarationEnd == space
    ensures r.newLine == f.newLine && r.singleIndent == f.singleIndent
    ensures ValidFormat(f) ==> ValidFormat(r)
  {
    f.(spaceBeforeDeclarationEnd := space)
  }
}

=== FILE: lexer.dfy ===
/** The cursor-level rules of the parser: the `expect` checks, names,
    whitespace, quoted strings, attributes and text runs. A rule reads the
    text `s` from index `i`; on success it returns its value together with
    the index just past what it consumed, and on failure the parse error
    with the library's message. */
module XmlLexer {
  import opened Wrappers
  import opened XmlStrings
  import opened XmlCharacters
  import XmlAttribute
  import XmlText

  /** "Missing <description>.": the input ended where something was
      required. */
  function Missing(description: string): Error {
    ParseError("Missing " + description + ".")
  }

  /** "Expected <description>.": the current character is not what was
      required. */
  function Expected(description: string): Error {
    ParseError("Expected " + description + ".")
  }

  /** The `expect` check: there must be a current character and it must
      pass. Nothing is consumed; the character is returned. */
  function Expect(s: string, i: nat, ok: char -> bool, description: string): (r: Result<char>)
    requires i <= |s|
    ensures r.Success? <==> i < |s| && ok(s[i])
    ensures r.Success? ==> r.value == s[i]
    ensures i == |s| ==> r == Failure(Missing(description))
    ensures i < |s| && !ok(s[i]) ==> r == Failure(Expected(description))
  {
    if i == |s| then Failure(Missing(description))
    else if !ok(s[i]) then Failure(Expected(description))
    else Success(s[i])
  }

  /** `expectAndTake`: the `expect` check, then the character is consumed. */
  function ExpectAndTake(s: string, i: nat, ok: char -> bool, description: string): (r: Result<Parsed<char>>)
    requires i <= |s|
    ensures r.Success? <==> i < |s| && ok(s[i])
    ensures r.Success? ==> r.value == Parsed(s[i], i + 1)
    ensures r.Failure? ==> Expect(s, i, ok, description) == Failure(r.error)
  {
    var c :- Expect(s, i, ok, description);
    Success(Parsed(c, i + 1))
  }

  /** `expectAndTake` of one given character. */
  function Take(s: string, i: nat, c: char, description: string): (r: Result<Parsed<char>>)
    requires i <= |s|
    ensures r.Success? <==> i < |s| && s[i] == c
    ensures r.Success? ==> r.value == Parsed(c, i + 1)
    ensures i == |s| ==> r == Failure(Missing(description))
    ensures i < |s| && s[i] != c ==> r == Failure(Expected(description))
  {
    ExpectAndTake(s, i, x => x == c, description)
  }

  /** The end of the longest run, starting at `j`, of characters that pass
      `p`: the loops that take characters while a condition holds. */
  function Span(s: string, j: nat, p: char -> bool): (k: nat)
    requires j <= |s|
    ensures j <= k <= |s|
    ensures AllPass(s, j, k, p)
    ensures k == |s| || !p(s[k])
    decreases |s| - j
  {
    if j == |s| || !p(s[j]) then j else Span(s, j + 1, p)
  }

  /** Every character of `s` from `j` up to `k` passes `p`. Stated one
      character at a time, so that it is unfolded only where it is used. */
  predicate AllPass(s: string, j: nat, k: nat, p: char -> bool)
    requires j <= k <= |s|
    decreases k - j
  {
    j == k || (p(s[j]) && AllPass(s, j + 1, k, p))
  }

  lemma {:induction false} AllPassAt(s: string, j: nat, k: nat, p: char -> bool)
    requires j <= k <= |s| && AllPass(s, j, k, p)
    ensures forall m :: j <= m < k ==> p(s[m])
    decreases k - j
  {
    if j < k {
      AllPassAt(s, j + 1, k, p);
    }
  }

  /** The characters from `j` up to `k` all pass when they are a copy of
      a text whose characters all pass. */
  lemma {:induction false} AllPassOfSlice(s: string, j: nat, k: nat, t: string, p: char -> bool)
    requires j <= k <= |s| && s[j..k] == t
    requires forall m :: 0 <= m < |t| ==> p(t[m])
    ensures AllPass(s, j, k, p)
    decreases k - j
  {
    if j < k {
      assert s[j] == t[0];
      assert s[j + 1..k] == t[1..];
      AllPassOfSlice(s, j + 1, k, t[1..], p);
    }
  }

  /** A run is determined by where it stops: any `k` with every character
      from `j` up to `k` passing and the character at `k` failing (or the
      end of input) is the span. */
  lemma {:induction false} SpanStopsAt(s: string, j: nat, k: nat, p: char -> bool)
    requires j <= k <= |s|
    requires AllPass(s, j, k, p)
    requires k == |s| || !p(s[k])
    ensures Span(s, j, p) == k
    decreases |s| - j
  {
    if j < k {
      SpanStopsAt(s, j + 1, k, p);
    }
  }

  /** A name in the sense of XML 1.0 section 2.3 production [5] Name: a
      name-start character followed by name characters. */
  predicate IsName(n: string) {
    n != [] && IsNameStartCharacter(n[0]) && forall k :: 1 <= k < |n| ==> IsNameCharacter(n[k])
  }

  /** `parseName`: the longest name starting at `i`. */
  function ParseName(s: string, i: nat, description: string): (r: Result<Parsed<string>>)
    requires i <= |s|
    ensures r.Success? <==> i < |s| && IsNameStartCharacter(s[i])
    ensures r.Success? ==> i < r.value.next <= |s| && r.value.value == s[i..r.value.next]
    ensures r.Success? ==> IsName(r.value.value)
    ensures r.Success? ==> r.value.next == |s| || !IsNameCharacter(s[r.value.next])
    ensures i == |s| ==> r == Failure(Missing(Join(description, "name start character")))
    ensures i < |s| && !IsNameStartCharacter(s[i]) ==>
      r == Failure(Expected(Join(description, "name start character")))
  {
    var first :- ExpectAndTake(s, i, c => IsNameStartCharacter(c), Join(description, "name start character"));
    var pass := c => IsNameCharacter(c);
    var k := Span(s, first.next, pass);
    AllPassAt(s, first.next, k, pass);
    var n := s[i..k];
    assert forall m :: 1 <= m < |n| ==> n[m] == s[i + m];
    Success(Parsed(n, k))
  }

  /** A name followed by a character that cannot continue it is read back
      whole. */
  lemma ParseNameReads(s: string, i: nat, n: string, description: string)
    requires i + |n| <= |s| && s[i..i + |n|] == n && IsName(n)
    requires i + |n| == |s| || !IsNameCharacter(s[i + |n|])
    ensures ParseName(s, i, description) == Success(Parsed(n, i + |n|))
  {
    assert s[i] == n[0];
    assert s[i + 1..i + |n|] == n[1..];
    AllPassOfSlice(s, i + 1, i + |n|, n[1..], c => IsNameCharacter(c));
    SpanStopsAt(s, i + 1, i + |n|, c => IsNameCharacter(c));
  }

  /** `parseOptionalWhitespace`: the whitespace run starting at `i`,
      possibly empty. It never fails. */
  function ParseOptionalWhitespace(s: string, i: nat): (r: Parsed<string>)
    requires i <= |s|
    ensures i <= r.next <= |s| && r.value == s[i..r.next]
    ensures IsWhitespaceText(r.value)
    ensures r.next == |s| || !IsWhitespaceCharacter(s[r.next])
  {
    var pass := c => IsWhitespaceCharacter(c);
    var k := Span(s, i, pass);
    AllPassAt(s, i, k, pass);
    assert forall m :: 0 <= m < k - i ==> s[i..k][m] == s[i + m];
    WhitespaceTextIsAll(s[i..k]);
    Parsed(s[i..k], k)
  }

  /** `parseWhitespace`: at least one whitespace character is required. */
  function ParseWhitespace(s: string, i: nat): (r: Result<Parsed<string>>)
    requires i <= |s|
    ensures r.Success? <==> i < |s| && IsWhitespaceCharacter(s[i])
    ensures r.Success? ==> r.value == ParseOptionalWhitespace(s, i) && r.value.next > i
    ensures i == |s| ==> r == Failure(Missing("whitespace"))
    ensures i < |s| && !IsWhitespaceCharacter(s[i]) ==> r == Failure(Expected("whitespace"))
  {
    var c :- Expect(s, i, c => IsWhitespaceCharacter(c), "whitespace");
    Success(ParseOptionalWhitespace(s, i))
  }

  /** Whitespace followed by a character that is not whitespace is read
      whole. */
  lemma WhitespaceReads(s: string, i: nat, w: string)
    requires i + |w| <= |s| && s[i..i + |w|] == w && IsWhitespaceText(w)
    requires i + |w| == |s| || !IsWhitespaceCharacter(s[i + |w|])
    ensures ParseOptionalWhitespace(s, i) == Parsed(w, i + |w|)
  {
    WhitespaceTextIsAll(w);
    AllPassOfSlice(s, i, i + |w|, w, c => IsWhitespaceCharacter(c));
    SpanStopsAt(s, i, i + |w|, c => IsWhitespaceCharacter(c));
  }

  /** The message part shared by the quoted-string failures. */
  function QuotedStringDescription(description: string): string {
    Join(description, "quoted string")
  }

  /** `parseQuotedString`: a quote character, everything up to the next
      occurrence of the same character, and that character. The value keeps
      both quotes. */
  function ParseQuotedString(s: string, i: nat, description: string): (r: Result<Parsed<string>>)
    requires i <= |s|
    ensures r.Success? <==>
      i < |s| && XmlAttribute.IsQuoteCharacter(s[i]) && exists j :: i < j < |s| && s[j] == s[i]
    ensures r.Success? ==> i + 2 <= r.value.next <= |s| && r.value.value == s[i..r.value.next]
    ensures r.Success? ==> XmlAttribute.IsQuoted(r.value.value)
    ensures r.Success? ==> s[i] !in r.value.value[1..|r.value.value| - 1]
    ensures i == |s| ==>
      r == Failure(Missing(QuotedStringDescription(description) + " start quote character (' or \")"))
    ensures i < |s| && !XmlAttribute.IsQuoteCharacter(s[i]) ==>
      r == Failure(Expected(QuotedStringDescription(description) + " start quote character (' or \")"))
    ensures i < |s| && XmlAttribute.IsQuoteCharacter(s[i]) && r.Failure? ==>
      r == Failure(Missing(QuotedStringDescription(description) + " end quote character (" + [s[i]] + ")"))
  {
    var d := QuotedStringDescription(description);
    var open :- ExpectAndTake(s, i, c => XmlAttribute.IsQuoteCharacter(c), d + " start quote character (' or \")");
    var q := open.value;
    var pass := c => c != q;
    var k := Span(s, open.next, pass);
    AllPassAt(s, open.next, k, pass);
    if k == |s| then
      Failure(Missing(d + " end quote character (" + [q] + ")"))
    else
      var v := s[i..k + 1];
      assert forall m :: 1 <= m < |v| - 1 ==> v[m] == s[i + m];
      Success(Parsed(v, k + 1))
  }

  /** A value without its quote character, quoted with it, is read back with
      both quotes. */
  lemma QuotedStringReads(s: string, i: nat, value: string, q: char, description: string)
    requires XmlAttribute.IsQuoteCharacter(q) && q !in value
    requires i + |value| + 2 <= |s| && s[i..i + |value| + 2] == XmlAttribute.QuoteWith(value, q)
    ensures ParseQuotedString(s, i, description) == Success(Parsed(XmlAttribute.QuoteWith(value, q), i + |value| + 2))
  {
    var t := XmlAttribute.QuoteWith(value, q);
    assert s[i] == t[0] == q;
    assert forall k :: 0 <= k < |value| ==> t[1 + k] == value[k];
    assert t[1..|value| + 1] == value;
    assert s[i + 1..i + 1 + |value|] == s[i..i + |value| + 2][1..|value| + 1];
    assert s[i + |value| + 1] == t[|value| + 1] == q;
    AllPassOfSlice(s, i + 1, i + 1 + |value|, value, c => c != q);
    SpanStopsAt(s, i + 1, i + 1 + |value|, c => c != q);
  }

  /** The text before `next` ends with `t`. */
  predicate EndsWith(s: string, next: nat, t: string) {
    |t| <= next <= |s| && s[next - |t|..next] == t
  }

  /** `v` ends at `next`, and between `p` and it there is only whitespace,
      one `=` and whitespace. */
  predicate AfterEquals(s: string, p: nat, v: string, next: nat) {
    p + |v| < next <= |s| && s[next - |v|..next] == v &&
    exists k :: p <= k < next - |v| && s[k] == '=' && IsWhitespaceText(s[p..k]) && IsWhitespaceText(s[k + 1..next - |v|])
  }

  /** A quoted value whose body holds no copy of its quote. */
  predicate QuotedOnce(v: string) {
    XmlAttribute.IsQuoted(v) && v[0] !in v[1..|v| - 1]
  }

  /** Where the `=` of an attribute is expected: after the whitespace
      at `p`. */
  function EqualsIndex(s: string, p: nat): (e: nat)
    requires p <= |s|
    ensures p <= e <= |s| && IsWhitespaceText(s[p..e])
  {
    ParseOptionalWhitespace(s, p).next
  }

  /** Whether the `=` is there. */
  predicate EqualsFollows(s: string, p: nat)
    requires p <= |s|
  {
    EqualsIndex(s, p) < |s| && s[EqualsIndex(s, p)] == '='
  }

  /** `v` lies after the `=`, with only whitespace between them. */
  predicate SpacedAfterEquals(s: string, p: nat, v: nat)
    requires p <= |s| && EqualsFollows(s, p)
  {
    EqualsIndex(s, p) < v <= |s| && IsWhitespaceText(s[EqualsIndex(s, p) + 1..v])
  }

  /** Where the quoted value is expected: after the `=` and the whitespace
      that follows it. */
  function ValueIndex(s: string, p: nat): (v: nat)
    requires p <= |s| && EqualsFollows(s, p)
    ensures SpacedAfterEquals(s, p, v)
  {
    ParseOptionalWhitespace(s, EqualsIndex(s, p) + 1).next
  }

  /** What follows an attribute's name: optional whitespace, `=`, optional
      whitespace and the quoted value, returned with its quotes. Without the
      `=` the "equals sign" messages are given; after it, the outcome is
      that of reading the quoted value. */
  function ParseAttributeValue(s: string, p: nat, description: string): (r: Result<Parsed<string>>)
    requires p <= |s|
    ensures r.Success? ==> p + |r.value.value| + 1 <= r.value.next <= |s|
    ensures r.Success? ==> QuotedOnce(r.value.value)
    ensures r.Success? ==> AfterEquals(s, p, r.value.value, r.value.next)
    ensures EqualsIndex(s, p) == |s| ==> r == Failure(Missing(description + " equals sign ('=')"))
    ensures EqualsIndex(s, p) < |s| && !EqualsFollows(s, p) ==> r == Failure(Expected(description + " equals sign ('=')"))
    ensures EqualsFollows(s, p) ==> r == ParseQuotedString(s, ValueIndex(s, p), description + " value")
  {
    var e := EqualsIndex(s, p);
    var equals :- Take(s, e, '=', description + " equals sign ('=')");
    var v := ValueIndex(s, p);
    var quoted :- ParseQuotedString(s, v, description + " value");
    assert s[e] == '=' && IsWhitespaceText(s[p..e]) && IsWhitespaceText(s[e + 1..v]);
    Success(quoted)
  }

  /** `w1`, `=`, `w2` and `value` between `q` quotes, from `p` to `next`. */
  predicate SpacedValueAt(s: string, p: nat, w1: string, w2: string, value: string, q: char, next: nat) {
    IsWhitespaceText(w1) && IsWhitespaceText(w2) &&
    XmlAttribute.IsQuoteCharacter(q) && q !in value &&
    next == p + |w1| + 1 + |w2| + |value| + 2 <= |s| &&
    s[p..next] == w1 + "=" + w2 + XmlAttribute.QuoteWith(value, q)
  }

  /** `=` between optional whitespace, followed by a quoted value, is read
      as that value. */
  lemma SpacedAttributeValueReads(s: string, p: nat, w1: string, w2: string, value: string, q: char, description: string, next: nat)
    requires SpacedValueAt(s, p, w1, w2, value, q, next)
    ensures ParseAttributeValue(s, p, description) == Success(Parsed(XmlAttribute.QuoteWith(value, q), next))
  {
    var e := p + |w1|;
    var o := e + 1 + |w2|;
    SpacedValueBefore(s, p, w1, w2, value, q, next);
    SpacedValueQuoted(s, p, w1, w2, value, q, description + " value", next);
    AttributeValueStages(s, p, e, o, XmlAttribute.QuoteWith(value, q), description, next);
  }

  /** The whitespace on both sides of the `=` is read whole. */
  lemma SpacedValueBefore(s: string, p: nat, w1: string, w2: string, value: string, q: char, next: nat)
    requires SpacedValueAt(s, p, w1, w2, value, q, next)
    ensures p + |w1| < |s| && s[p + |w1|] == '='
    ensures ParseOptionalWhitespace(s, p).next == p + |w1|
    ensures ParseOptionalWhitespace(s, p + |w1| + 1).next == p + |w1| + 1 + |w2|
  {
    var e := p + |w1|;
    var o := e + 1 + |w2|;
    SpacedValueSlices(s, p, w1, w2, XmlAttribute.QuoteWith(value, q), e, o, next);
    WhitespaceReads(s, p, w1);
    assert s[o] == q;
    WhitespaceReads(s, e + 1, w2);
  }

  /** The quoted value after the second whitespace is read whole. */
  lemma SpacedValueQuoted(s: string, p: nat, w1: string, w2: string, value: string, q: char, description: string, next: nat)
    requires SpacedValueAt(s, p, w1, w2, value, q, next)
    ensures ParseQuotedString(s, p + |w1| + 1 + |w2|, description) == Success(Parsed(XmlAttribute.QuoteWith(value, q), next))
  {
    var e := p + |w1|;
    var o := e + 1 + |w2|;
    var t := XmlAttribute.QuoteWith(value, q);
    SpacedValueSlices(s, p, w1, w2, t, e, o, next);
    assert s[o..o + |value| + 2] == t;
    QuotedStringReads(s, o, value, q, description);
  }

  /** The stages of reading an attribute value, put together. */
  lemma AttributeValueStages(s: string, p: nat, e: nat, o: nat, t: string, description: string, next: nat)
    requires p <= e < o <= next <= |s|
    requires ParseOptionalWhitespace(s, p).next == e && s[e] == '='
    requires ParseOptionalWhitespace(s, e + 1).next == o
    requires ParseQuotedString(s, o, description + " value") == Success(Parsed(t, next))
    ensures ParseAttributeValue(s, p, description) == Success(Parsed(t, next))
  {
    assert EqualsIndex(s, p) == e && ValueIndex(s, p) == o;
    assert Take(s, e, '=', description + " equals sign ('=')") == Success(Parsed('=', e + 1));
  }

  /** The pieces of whitespace, `=`, whitespace and a quoted value, found
      at their positions. */
  lemma SpacedValueSlices(s: string, p: nat, w1: string, w2: string, t: string, e: nat, o: nat, next: nat)
    requires |t| >= 1 && e == p + |w1| && o == e + 1 + |w2| && next == o + |t| <= |s|
    requires s[p..next] == w1 + "=" + w2 + t
    ensures s[p..e] == w1 && s[e] == '=' && s[e + 1..o] == w2 && s[o..next] == t && s[o] == t[0]
  {
    var whole := w1 + "=" + w2 + t;
    forall k | 0 <= k < |whole| ensures s[p + k] == whole[k] {
      assert s[p..next][k] == s[p + k];
    }
    assert s[p..e] == w1 by {
      assert forall k :: 0 <= k < |w1| ==> whole[k] == w1[k];
    }
    assert s[e] == whole[|w1|];
    assert s[e + 1..o] == w2 by {
      assert forall k :: 0 <= k < |w2| ==> whole[|w1| + 1 + k] == w2[k];
    }
    assert s[o..next] == t by {
      assert forall k :: 0 <= k < |t| ==> whole[|w1| + 1 + |w2| + k] == t[k];
    }
  }

  /** `=` immediately followed by a quoted value is read as that value. */
  lemma AttributeValueReads(s: string, p: nat, value: string, q: char, description: string, next: nat)
    requires XmlAttribute.IsQuoteCharacter(q) && q !in value
    requires next == p + |value| + 3 <= |s| && s[p] == '='
    requires s[p + 1..next] == XmlAttribute.QuoteWith(value, q)
    ensures ParseAttributeValue(s, p, description) == Success(Parsed(XmlAttribute.QuoteWith(value, q), next))
  {
    WhitespaceReads(s, p, "");
    assert s[p + 1] == XmlAttribute.QuoteWith(value, q)[0];
    WhitespaceReads(s, p + 1, "");
    QuotedStringReads(s, p + 1, value, q, description + " value");
    AttributeValueStages(s, p, p, p + 1, XmlAttribute.QuoteWith(value, q), description, next);
  }

  /** The text from `i` starts with `a`'s name, and there is room before
      `next` for `=` and the value between quotes, which holds no copy of
      its quote. */
  predicate NameThenValue(s: string, i: nat, a: XmlAttribute.Attribute, next: nat) {
    i + |a.name| + |a.value| + 3 <= next <= |s| && s[i..i + |a.name|] == a.name && a.quote !in a.value
  }

  /** The name at `i` is read and is the expected one, if one is given. */
  predicate NameAccepted(s: string, i: nat, expectedName: string, attributeDescription: string)
    requires i <= |s|
  {
    i < |s| && IsNameStartCharacter(s[i]) &&
    (expectedName == "" || ParseName(s, i, Join(attributeDescription, "attribute")).value.value == expectedName)
  }

  /** The value read after the name at `i`. */
  function ValueAfterName(s: string, i: nat, attributeDescription: string): (r: Result<Parsed<string>>)
    requires i < |s| && IsNameStartCharacter(s[i])
    ensures r == ParseAttributeValue(s, ParseName(s, i, Join(attributeDescription, "attribute")).value.next,
      Join(attributeDescription, "attribute"))
  {
    ParseAttributeValue(s, ParseName(s, i, Join(attributeDescription, "attribute")).value.next,
      Join(attributeDescription, "attribute"))
  }

  /** `parseAttribute`: a name (which must equal `expectedName` unless that
      is empty), optional whitespace, `=`, optional whitespace and a quoted
      value. The value is stored without its quotes, and the quote is
      remembered. */
  function ParseAttribute(s: string, i: nat, expectedName: string, attributeDescription: string): (r: Result<Parsed<XmlAttribute.Attribute>>)
    requires i <= |s|
    ensures r.Success? ==> i < r.value.next <= |s|
    ensures r.Success? ==> XmlAttribute.ValidAttribute(r.value.value) && IsName(r.value.value.name)
    ensures r.Success? ==> expectedName == "" || r.value.value.name == expectedName
    ensures r.Success? ==> NameThenValue(s, i, r.value.value, r.value.next)
    ensures r.Success? ==> EndsWith(s, r.value.next, XmlAttribute.QuoteWith(r.value.value.value, r.value.value.quote))
    ensures
      (i < |s| && IsNameStartCharacter(s[i]) && expectedName != "" &&
       ParseName(s, i, Join(attributeDescription, "attribute")).value.value != expectedName)
      ==> r == Failure(Expected(Join(attributeDescription, "attribute")))
    ensures i == |s| ==> r == Failure(Missing(Join(Join(attributeDescription, "attribute"), "name start character")))
    ensures i < |s| && !IsNameStartCharacter(s[i]) ==>
      r == Failure(Expected(Join(Join(attributeDescription, "attribute"), "name start character")))
    ensures NameAccepted(s, i, expectedName, attributeDescription) && ValueAfterName(s, i, attributeDescription).Failure? ==>
      r == Failure(ValueAfterName(s, i, attributeDescription).error)
  {
    var description := Join(attributeDescription, "attribute");
    var name :- ParseName(s, i, description);
    if expectedName != "" && expectedName != name.value then
      Failure(Expected(description))
    else
      AttributeAfterName(s, i, name, description)
  }

  /** The second stage of `parseAttribute`: the value after the name `name`
      read from `i`, and the attribute made of both. */
  function AttributeAfterName(s: string, i: nat, name: Parsed<string>, description: string): (r: Result<Parsed<XmlAttribute.Attribute>>)
    requires i < name.next <= |s| && name.value == s[i..name.next] && IsName(name.value)
    ensures r.Success? ==> XmlAttribute.ValidAttribute(r.value.value) && r.value.value.name == name.value
    ensures r.Success? ==> NameThenValue(s, i, r.value.value, r.value.next)
    ensures r.Success? ==> EndsWith(s, r.value.next, XmlAttribute.QuoteWith(r.value.value.value, r.value.value.quote))
    ensures ParseAttributeValue(s, name.next, description).Failure? ==>
      r == Failure(ParseAttributeValue(s, name.next, description).error)
  {
    var quoted :- ParseAttributeValue(s, name.next, description);
    var a := XmlAttribute.CreateWithQuotedValue(name.value, quoted.value);
    Success(Parsed(a, quoted.next))
  }

  /** An attribute written as `name=` and its value between its quote
      characters, followed by anything, is read back as the same attribute
      provided the value does not contain its own quote. */
  lemma ParseAttributeReads(s: string, i: nat, a: XmlAttribute.Attribute, expectedName: string, attributeDescription: string, next: nat)
    requires XmlAttribute.ValidAttribute(a) && IsName(a.name) && a.quote !in a.value
    requires expectedName == "" || expectedName == a.name
    requires next == i + |a.name| + |a.value| + 3 <= |s|
    requires s[i..next] == a.name + "=" + XmlAttribute.QuoteWith(a.value, a.quote)
    ensures ParseAttribute(s, i, expectedName, attributeDescription) == Success(Parsed(a, next))
  {
    var p := i + |a.name|;
    AttributeSlices(s, i, a, p, next);
    AttributeStagesRead(s, i, a, Join(attributeDescription, "attribute"), p, next);
    AttributeSteps(s, i, expectedName, attributeDescription, a, p, next);
  }

  /** The two stages of `parseAttribute` on an attribute written out: the
      name ends at `p`, where the `=` is, and the quoted value at `next`. */
  lemma AttributeStagesRead(s: string, i: nat, a: XmlAttribute.Attribute, d: string, p: nat, next: nat)
    requires XmlAttribute.ValidAttribute(a) && IsName(a.name) && a.quote !in a.value
    requires p == i + |a.name| && next == p + |a.value| + 3 <= |s|
    requires s[i..p] == a.name && s[p..p + 1] == "=" && s[p + 1..next] == XmlAttribute.QuoteWith(a.value, a.quote)
    ensures ParseName(s, i, d) == Success(Parsed(a.name, p))
    ensures ParseAttributeValue(s, p, d) == Success(Parsed(XmlAttribute.QuoteWith(a.value, a.quote), next))
  {
    NameBeforeEquals(s, i, a.name, d, p);
    AttributeValueReads(s, p, a.value, a.quote, d, next);
  }

  /** An attribute written out splits into its name, `=` and quoted value. */
  lemma AttributeSlices(s: string, i: nat, a: XmlAttribute.Attribute, p: nat, next: nat)
    requires p == i + |a.name| && next == p + |a.value| + 3 <= |s|
    requires s[i..next] == a.name + "=" + XmlAttribute.QuoteWith(a.value, a.quote)
    ensures s[i..p] == a.name && s[p..p + 1] == "=" && s[p + 1..next] == XmlAttribute.QuoteWith(a.value, a.quote)
  {
    var quoted := XmlAttribute.QuoteWith(a.value, a.quote);
    SliceSplit(s, i, a.name + "=", quoted);
    SliceSplit(s, i, a.name, "=");
  }

  /** A name directly followed by `=` is read whole. */
  lemma NameBeforeEquals(s: string, i: nat, n: string, d: string, p: nat)
    requires IsName(n) && p == i + |n| && p + 1 <= |s|
    requires s[i..p] == n && s[p..p + 1] == "="
    ensures s[p] == '='
    ensures ParseName(s, i, d) == Success(Parsed(n, p))
  {
    assert s[p] == s[p..p + 1][0] == '=';
    assert !IsNameCharacter('=');
    ParseNameReads(s, i, n, d);
  }

  /** `parseAttribute` put together from its two stages. */
  lemma AttributeSteps(s: string, i: nat, expectedName: string, attributeDescription: string,
                       a: XmlAttribute.Attribute, p: nat, next: nat)
    requires i <= |s| && XmlAttribute.ValidAttribute(a)
    requires expectedName == "" || expectedName == a.name
    requires ParseName(s, i, Join(attributeDescription, "attribute")) == Success(Parsed(a.name, p))
    requires ParseAttributeValue(s, p, Join(attributeDescription, "attribute"))
      == Success(Parsed(XmlAttribute.QuoteWith(a.value, a.quote), next))
    ensures ParseAttribute(s, i, expectedName, attributeDescription) == Success(Parsed(a, next))
  {
    XmlAttribute.QuotedValueRoundTrip(a.name, a.value, a.quote);
  }

  /** A slice that spells `a + b` spells `a` and then `b`. */
  lemma SliceSplit(s: string, i: nat, a: string, b: string)
    requires i + |a| + |b| <= |s| && s[i..i + |a| + |b|] == a + b
    ensures s[i..i + |a|] == a && s[i + |a|..i + |a| + |b|] == b
  {
    assert s[i..i + |a|] == s[i..i + |a| + |b|][..|a|];
    assert s[i + |a|..i + |a| + |b|] == s[i..i + |a| + |b|][|a|..];
  }

  /** `parseText`: the characters up to the next `<` or the end of input.
      The flag says whether all of them are whitespace. */
  function ParseText(s: string, i: nat): (r: Parsed<XmlText.Text>)
    requires i < |s| && s[i] != '<'
    ensures i < r.next <= |s| && r.value.text == s[i..r.next]
    ensures r.next == |s| || s[r.next] == '<'
    ensures '<' !in r.value.text
    ensures r.value.isWhitespace <==> IsWhitespaceText(r.value.text)
  {
    var pass := c => c != '<';
    var k := Span(s, i, pass);
    AllPassAt(s, i, k, pass);
    var t := s[i..k];
    assert forall m :: 0 <= m < |t| ==> t[m] == s[i + m];
    Parsed(XmlText.CreateWithFlag(t, IsWhitespaceText(t)), k)
  }

  /** Text followed by `<` or the end of input is read whole. */
  lemma TextReads(s: string, i: nat, t: string)
    requires t != [] && '<' !in t
    requires i + |t| <= |s| && s[i..i + |t|] == t
    requires i + |t| == |s| || s[i + |t|] == '<'
    ensures s[i] != '<'
    ensures ParseText(s, i).value.text == t && ParseText(s, i).next == i + |t|
  {
    assert s[i] == t[0];
    AllPassOfSlice(s, i, i + |t|, t, c => c != '<');
    SpanStopsAt(s, i, i + |t|, c => c != '<');
  }
}

=== FILE: sections.dfy ===
/** Comments and CDATA sections. Both bodies run up to a terminator made of
    two marker characters and `>`: `-->` for a comment, `]]>` for CDATA.
    The parser scans the body once, holding back at most two markers that
    may turn out to belong to the terminator. */
module XmlSections {
  import opened Wrappers
  import opened XmlStrings
  import opened XmlLexer
  import XmlComment
  import XmlCData

  /** Two markers and `>` end at index `k` of `x`. */
  predicate TerminatorAt(x: string, k: int, m: char) {
    2 <= k < |x| && x[k - 2] == m && x[k - 1] == m && x[k] == '>'
  }

  /** No terminator ends anywhere in `x`. */
  predicate NoTerminator(x: string, m: char) {
    forall k :: 0 <= k < |x| ==> !TerminatorAt(x, k, m)
  }

  /** A terminator of a body that starts at `start` ends at `t`: both of
      its markers belong to the body. */
  predicate ClosesAt(s: string, start: nat, t: int, m: char) {
    start + 2 <= t && TerminatorAt(s, t, m)
  }

  /** How many markers the scanner holds back at `p`: the length of the run
      of markers that ends just before `p` and starts at or after `start`,
      counted up to two. */
  function PendingMarks(s: string, start: nat, p: nat, m: char): (n: nat)
    requires start <= p <= |s|
    ensures n <= 2
    ensures n == 2 <==> start + 2 <= p && s[p - 2] == m && s[p - 1] == m
  {
    if start + 1 <= p && s[p - 1] == m then
      (if start + 2 <= p && s[p - 2] == m then 2 else 1)
    else 0
  }

  /** Where the scan of a body stopped, the text it kept, and the markers it
      was still holding back. */
  datatype Scanned = Scanned(text: string, stop: nat, pending: nat)

  /** What the scanner knows at index `p` of a body that starts at
      `start`: the text kept so far followed by the markers held back is
      exactly what it has read, it holds back as many markers as end what
      it has read (up to two), and no terminator has ended yet. */
  predicate ScanInvariant(s: string, start: nat, p: nat, m: char, text: string, count: nat) {
    start <= p <= |s|
    && text + Repeat([m], count) == s[start..p]
    && count == PendingMarks(s, start, p, m)
    && forall t :: start <= t < p ==> !ClosesAt(s, start, t, m)
  }

  /** One turn of the scanning loop on a character `c` that does not stop
      it: a marker is held back while fewer than two are held and
      otherwise added to the text; any other character releases the held
      markers into the text and is added after them. */
  function StepText(text: string, count: nat, c: char, m: char): string {
    if c == m then (if count < 2 then text else text + [m])
    else text + Repeat([m], count) + [c]
  }

  function StepCount(count: nat, c: char, m: char): nat {
    if c == m then (if count < 2 then count + 1 else count) else 0
  }

  /** The scanning loop of `parseCommentAtFirstLeftDash` and
      `parseCDataAtFirstLeftSquareBracket`, from index `p` of a body that
      starts at `start`: `>` with two markers held back stops it, and any
      other character is one `StepText`/`StepCount` turn. The result stops
      at the first terminator, whose `>` is not consumed, or at the end of
      input. */
  function Scan(s: string, start: nat, p: nat, m: char, text: string, count: nat): (r: Scanned)
    requires m != '>' && ScanInvariant(s, start, p, m, text, count)
    ensures p <= r.stop && ScanStopped(s, start, m, r)
    decreases |s| - p
  {
    if p == |s| then
      Scanned(text, p, count)
    else if s[p] == '>' && count == 2 then
      HeldPairIsTerminator(s, start, p, m, text);
      Scanned(text, p, count)
    else
      StepKeepsInvariant(s, start, p, m, text, count);
      Scan(s, start, p + 1, m, StepText(text, count, s[p], m), StepCount(count, s[p], m))
  }

  /** Where the scan of a body that starts at `start` stops: at the `>` of
      the first terminator, with both its markers held back and the text
      before them kept, or at the end of input, with the text kept and the
      markers held back making up the whole body. */
  ghost predicate ScanStopped(s: string, start: nat, m: char, r: Scanned) {
    && start <= r.stop <= |s|
    && (forall t :: start <= t < r.stop ==> !ClosesAt(s, start, t, m))
    && (r.stop < |s| ==> ClosesAt(s, start, r.stop, m) && r.pending == 2)
    && (r.stop < |s| ==> r.text == s[start..r.stop - 2])
    && (r.stop == |s| ==> r.pending == PendingMarks(s, start, |s|, m))
    && (r.stop == |s| ==> r.text + Repeat([m], r.pending) == s[start..])
  }

  /** A turn of the loop keeps the invariant. */
  lemma StepKeepsInvariant(s: string, start: nat, p: nat, m: char, text: string, count: nat)
    requires m != '>' && ScanInvariant(s, start, p, m, text, count)
    requires p < |s| && !(s[p] == '>' && count == 2)
    ensures ScanInvariant(s, start, p + 1, m, StepText(text, count, s[p], m), StepCount(count, s[p], m))
  {
    assert s[start..p + 1] == s[start..p] + [s[p]];
    if s[p] == m && count == 2 {
      HoldBackStep(s, start, p, m, text);
    }
  }

  /** A third marker in a row goes to the text; the two held back stay. */
  lemma HoldBackStep(s: string, start: nat, p: nat, m: char, text: string)
    requires start <= p < |s| && s[p] == m
    requires text + Repeat([m], 2) == s[start..p]
    ensures (text + [m]) + Repeat([m], 2) == s[start..p + 1]
  {
    RepeatLength([m], 2);
    assert Repeat([m], 2) == [m, m];
    assert s[start..p + 1] == s[start..p] + [m];
    assert (text + [m]) + [m, m] == (text + [m, m]) + [m];
  }

  /** With two markers held back, the text read so far is everything
      before them. */
  lemma HeldPairIsTerminator(s: string, start: nat, p: nat, m: char, text: string)
    requires start <= p <= |s|
    requires text + Repeat([m], 2) == s[start..p]
    ensures start + 2 <= p && text == s[start..p - 2]
  {
    RepeatLength([m], 2);
    assert Repeat([m], 2) == [m, m];
    assert s[start..p - 2] == s[start..p][..|text|];
  }

  /** Some terminator of the body that starts at `start` ends in `s`. */
  ghost predicate HasTerminator(s: string, start: nat, m: char) {
    exists t :: ClosesAt(s, start, t, m)
  }

  /** The first terminator of the body that starts at `start` ends at `t`. */
  ghost predicate FirstTerminator(s: string, start: nat, t: int, m: char) {
    ClosesAt(s, start, t, m) && forall u :: start <= u < t ==> !ClosesAt(s, start, u, m)
  }

  /** The text before the first terminator, which ends at `stop`, holds
      no terminator. */
  lemma FirstTerminatorText(s: string, start: nat, stop: nat, m: char)
    requires start + 2 <= stop < |s| && FirstTerminator(s, start, stop, m)
    ensures NoTerminator(s[start..stop - 2], m)
  {
    var x := s[start..stop - 2];
    forall k | 0 <= k < |x| ensures !TerminatorAt(x, k, m) {
      if k >= 2 {
        assert x[k] == s[start + k] && x[k - 1] == s[start + k - 1] && x[k - 2] == s[start + k - 2];
        assert !ClosesAt(s, start, start + k, m);
      }
    }
  }

  /** The body of a section from `p` and the checks after the loop: its
      text up to the first terminator, and the index just past that
      terminator. Running out of input reports the first missing piece of
      the terminator, judged by the markers held back at the end. */
  function ParseSection(s: string, p: nat, m: char, firstMark: string, secondMark: string, angle: string): (r: Result<Parsed<string>>)
    requires m != '>' && p <= |s|
    ensures r.Success? ==> p + 3 <= r.value.next <= |s|
  {
    assert ScanInvariant(s, p, p, m, "", 0);
    AfterScan(s, Scan(s, p, p, m, "", 0), firstMark, secondMark, angle)
  }

  /** The checks after the loop, given where the scan stopped. */
  function AfterScan(s: string, scanned: Scanned, firstMark: string, secondMark: string, angle: string): (r: Result<Parsed<string>>)
    requires scanned.stop <= |s|
    ensures r.Success? ==> scanned.pending >= 2 && scanned.stop < |s| && r.value == Parsed(scanned.text, scanned.stop + 1)
  {
    if scanned.pending == 0 then Failure(Missing(firstMark))
    else if scanned.pending == 1 then Failure(Missing(secondMark))
    else
      var gt :- Take(s, scanned.stop, '>', angle);
      Success(Parsed(scanned.text, gt.next))
  }

  /** What a section's body reads to: it succeeds exactly when a terminator
      ends in the input, and then returns the text up to the first one and
      the index just past it; otherwise the error names the first missing
      piece of the terminator, judged by the markers that end the input. */
  ghost predicate SectionResult(s: string, p: nat, m: char, firstMark: string, secondMark: string, angle: string,
                                r: Result<Parsed<string>>)
    requires p <= |s|
  {
    && (r.Success? <==> HasTerminator(s, p, m))
    && (r.Success? ==> p + 3 <= r.value.next <= |s| && FirstTerminator(s, p, r.value.next - 1, m))
    && (r.Success? ==> r.value.value == s[p..r.value.next - 3] && NoTerminator(r.value.value, m))
    && (r.Failure? && PendingMarks(s, p, |s|, m) == 0 ==> r.error == Missing(firstMark))
    && (r.Failure? && PendingMarks(s, p, |s|, m) == 1 ==> r.error == Missing(secondMark))
    && (r.Failure? && PendingMarks(s, p, |s|, m) == 2 ==> r.error == Missing(angle))
  }

  lemma SectionOutcome(s: string, p: nat, m: char, firstMark: string, secondMark: string, angle: string)
    requires m != '>' && p <= |s|
    ensures SectionResult(s, p, m, firstMark, secondMark, angle, ParseSection(s, p, m, firstMark, secondMark, angle))
  {
    assert ScanInvariant(s, p, p, m, "", 0);
    var scanned := Scan(s, p, p, m, "", 0);
    ScanOutcome(s, p, m, scanned);
    AfterScanOutcome(s, p, m, scanned, firstMark, secondMark, angle);
  }

  /** What the scan of a whole body tells: it stops before the end of input
      exactly when there is a terminator, and then it stops at the first
      one with the text before it; otherwise it holds back the markers
      that end the input. */
  ghost predicate ScanResult(s: string, p: nat, m: char, r: Scanned)
    requires p <= |s|
  {
    && r.stop <= |s|
    && (r.stop < |s| <==> HasTerminator(s, p, m))
    && (r.stop < |s| ==> r.pending == 2 && p + 2 <= r.stop && s[r.stop] == '>')
    && (r.stop < |s| ==> FirstTerminator(s, p, r.stop, m))
    && (r.stop < |s| ==> r.text == s[p..r.stop - 2] && NoTerminator(r.text, m))
    && (r.stop == |s| ==> r.pending == PendingMarks(s, p, |s|, m))
  }

  /** The checks after the loop turn what the scan tells into the section's
      result. */
  lemma AfterScanOutcome(s: string, p: nat, m: char, scanned: Scanned, firstMark: string, secondMark: string, angle: string)
    requires p <= |s| && ScanResult(s, p, m, scanned)
    ensures SectionResult(s, p, m, firstMark, secondMark, angle, AfterScan(s, scanned, firstMark, secondMark, angle))
  {
  }

  lemma ScanOutcome(s: string, p: nat, m: char, r: Scanned)
    requires m != '>' && p <= |s| && ScanInvariant(s, p, p, m, "", 0) && r == Scan(s, p, p, m, "", 0)
    ensures ScanResult(s, p, m, r)
  {
    if r.stop < |s| {
      assert ClosesAt(s, p, r.stop, m);
      FirstTerminatorText(s, p, r.stop, m);
    } else {
      assert forall t :: ClosesAt(s, p, t, m) ==> p <= t < r.stop;
    }
  }

  /** A body whose text holds no terminator, followed by a terminator, is
      read back as that text. */
  lemma SectionReads(s: string, p: nat, m: char, text: string, next: nat,
                     firstMark: string, secondMark: string, angle: string)
    requires m != '>' && next == p + |text| + 3 <= |s|
    requires s[p..next] == text + [m, m, '>']
    requires NoTerminator(text, m)
    ensures ParseSection(s, p, m, firstMark, secondMark, angle) == Success(Parsed(text, next))
  {
    var body := text + [m, m, '>'];
    forall t | p <= t < next ensures s[t] == body[t - p] {
      assert s[t] == s[p..next][t - p];
    }
    forall t | p <= t < next - 1
      ensures !ClosesAt(s, p, t, m)
    {
      if t - p < |text| {
        assert !TerminatorAt(text, t - p, m);
      }
    }
    assert FirstTerminator(s, p, next - 1, m);
    assert s[p..next - 3] == body[..|text|];
    SectionOutcome(s, p, m, firstMark, secondMark, angle);
  }

  /** `parseCommentAtFirstLeftDash`: reads from just after `<!`. Two dashes
      open the comment; its text runs up to the first `-->` and may itself
      hold `--`. */
  function ParseComment(s: string, i: nat): (r: Result<Parsed<XmlComment.Comment>>)
    requires i <= |s|
    ensures r.Success? <==> i + 2 <= |s| && s[i] == '-' && s[i + 1] == '-' && HasTerminator(s, i + 2, '-')
    ensures r.Success? ==>
      i + 5 <= r.value.next <= |s| && FirstTerminator(s, i + 2, r.value.next - 1, '-')
      && r.value.value.text == s[i + 2..r.value.next - 3] && NoTerminator(r.value.value.text, '-')
    ensures i == |s| ==> r == Failure(Missing("comment first left dash ('-')"))
    ensures i < |s| && s[i] != '-' ==> r == Failure(Expected("comment first left dash ('-')"))
    ensures i + 1 == |s| && s[i] == '-' ==> r == Failure(Missing("comment second left dash ('-')"))
    ensures i + 1 < |s| && s[i] == '-' && s[i + 1] != '-' ==> r == Failure(Expected("comment second left dash ('-')"))
    ensures i + 2 <= |s| && s[i] == '-' && s[i + 1] == '-' && r.Failure? ==>
      r.error == Missing(
        if PendingMarks(s, i + 2, |s|, '-') == 0 then "comment first right dash ('-')"
        else if PendingMarks(s, i + 2, |s|, '-') == 1 then "comment second right dash ('-')"
        else "comment right angle bracket ('>')")
  {
    var first :- Take(s, i, '-', "comment first left dash ('-')");
    var second :- Take(s, first.next, '-', "comment second left dash ('-')");
    SectionOutcome(s, second.next, '-', "comment first right dash ('-')",
      "comment second right dash ('-')", "comment right angle bracket ('>')");
    var body :- ParseSection(s, second.next, '-', "comment first right dash ('-')",
      "comment second right dash ('-')", "comment right angle bracket ('>')");
    Success(Parsed(XmlComment.Create(body.value), body.next))
  }

  /** A comment whose text holds no `-->`, written out after `<!`, is read
      back as the same comment. */
  lemma CommentReads(s: string, i: nat, c: XmlComment.Comment, n: nat)
    requires NoTerminator(c.text, '-')
    requires n == i + |c.text| + 5 <= |s| && s[i..n] == "--" + c.text + "-->"
    ensures ParseComment(s, i) == Success(Parsed(c, n))
  {
    assert s[i] == s[i..n][0] == '-';
    assert s[i + 1] == s[i..n][1] == '-';
    assert s[i + 2..n] == s[i..n][2..];
    assert s[i..n][2..] == c.text + ['-', '-', '>'];
    SectionReads(s, i + 2, '-', c.text, n, "comment first right dash ('-')",
      "comment second right dash ('-')", "comment right angle bracket ('>')");
  }

  /** The first `[` of a CDATA opening is at `i`. */
  predicate OpensWithBracket(s: string, i: nat) {
    i < |s| && s[i] == '['
  }

  /** The opening of a CDATA section after `<!`: `[`, a name that must be
      `CDATA`, and `[`. On success, the index where the text starts. */
  function ParseCDataOpening(s: string, i: nat): (r: Result<nat>)
    requires i <= |s|
    ensures r.Success? ==> r.value == i + 7 <= |s| && s[i..i + 7] == "[CDATA["
    ensures i == |s| ==> r == Failure(Missing("CDATA tag first left square bracket ('[')"))
    ensures i < |s| && s[i] != '[' ==> r == Failure(Expected("CDATA tag first left square bracket ('[')"))
    ensures OpensWithBracket(s, i) && ParseName(s, i + 1, "CDATA tag").Failure? ==>
      r == Failure(ParseName(s, i + 1, "CDATA tag").error)
    ensures (OpensWithBracket(s, i) && ParseName(s, i + 1, "CDATA tag").Success? &&
             ParseName(s, i + 1, "CDATA tag").value.value != "CDATA")
      ==> r == Failure(Expected("CDATA tag name (\"CDATA\")"))
    ensures (OpensWithBracket(s, i) && ParseName(s, i + 1, "CDATA tag") == Success(Parsed("CDATA", i + 6)))
      ==> (i + 6 == |s| ==> r == Failure(Missing("CDATA tag second left square bracket ('[')"))) &&
          (i + 6 < |s| && s[i + 6] != '[' ==> r == Failure(Expected("CDATA tag second left square bracket ('[')")))
  {
    var open :- Take(s, i, '[', "CDATA tag first left square bracket ('[')");
    var name :- ParseName(s, open.next, "CDATA tag");
    if name.value != "CDATA" then Failure(Expected("CDATA tag name (\"CDATA\")"))
    else
      var second :- Take(s, name.next, '[', "CDATA tag second left square bracket ('[')");
      CDataOpening(s, i, name.next);
      Success(second.next)
  }

  /** `[`, a name read as `CDATA`, then `[`: the opening is exactly
      `[CDATA[`, seven characters. */
  lemma CDataOpening(s: string, i: nat, p: nat)
    requires i < |s| && s[i] == '['
    requires ParseName(s, i + 1, "CDATA tag") == Success(Parsed("CDATA", p))
    requires p < |s| && s[p] == '['
    ensures p == i + 6 && i + 7 <= |s| && s[i..i + 7] == "[CDATA["
  {
    assert s[i + 1..p] == "CDATA";
    assert s[i..i + 7] == [s[i]] + s[i + 1..p] + [s[p]];
  }

  /** The opening is accepted exactly when the input spells `[CDATA[`. */
  lemma CDataOpeningReads(s: string, i: nat)
    requires i <= |s|
    ensures ParseCDataOpening(s, i).Success? <==> i + 7 <= |s| && s[i..i + 7] == "[CDATA["
  {
    if i + 7 <= |s| && s[i..i + 7] == "[CDATA[" {
      var w := s[i..i + 7];
      assert s[i] == w[0] == '[';
      assert forall k :: i + 1 <= k < i + 6 ==> s[k] == w[k - i];
      assert s[i + 1..i + 6] == "CDATA";
      assert s[i + 6] == w[6] == '[';
      assert !XmlCharacters.IsNameCharacter('[');
      ParseNameReads(s, i + 1, "CDATA", "CDATA tag");
    }
  }

  /** `parseCDataAtFirstLeftSquareBracket`: reads from just after `<!`.
      After the opening `[CDATA[` the text runs up to the first `]]>`. */
  function ParseCData(s: string, i: nat): (r: Result<Parsed<XmlCData.CData>>)
    requires i <= |s|
    ensures r.Success? <==> i + 7 <= |s| && s[i..i + 7] == "[CDATA[" && HasTerminator(s, i + 7, ']')
    ensures r.Success? ==>
      i + 10 <= r.value.next <= |s| && FirstTerminator(s, i + 7, r.value.next - 1, ']')
      && r.value.value.text == s[i + 7..r.value.next - 3] && NoTerminator(r.value.value.text, ']')
    ensures i == |s| ==> r == Failure(Missing("CDATA tag first left square bracket ('[')"))
    ensures i < |s| && s[i] != '[' ==> r == Failure(Expected("CDATA tag first left square bracket ('[')"))
    ensures i + 7 <= |s| && s[i..i + 7] == "[CDATA[" && r.Failure? ==>
      r.error == Missing(
        if PendingMarks(s, i + 7, |s|, ']') == 0 then "CDATA tag first right square bracket (']')"
        else if PendingMarks(s, i + 7, |s|, ']') == 1 then "CDATA tag second right square bracket (']')"
        else "CDATA tag right angle bracket ('>')")
  {
    CDataOpeningReads(s, i);
    var p :- ParseCDataOpening(s, i);
    SectionOutcome(s, p, ']', "CDATA tag first right square bracket (']')",
      "CDATA tag second right square bracket (']')", "CDATA tag right angle bracket ('>')");
    var body :- ParseSection(s, p, ']', "CDATA tag first right square bracket (']')",
      "CDATA tag second right square bracket (']')", "CDATA tag right angle bracket ('>')");
    Success(Parsed(XmlCData.Create(body.value), body.next))
  }

  /** A CDATA section whose text holds no `]]>`, written out after `<!`, is
      read back as the same section. */
  lemma CDataReads(s: string, i: nat, c: XmlCData.CData, n: nat)
    requires NoTerminator(c.text, ']')
    requires n == i + |c.text| + 10 <= |s| && s[i..n] == "[CDATA[" + c.text + "]]>"
    ensures ParseCData(s, i) == Success(Parsed(c, n))
  {
    CDataLayout(s, i, c.text, n);
    CDataOpeningReads(s, i);
    SectionReads(s, i + 7, ']', c.text, n, "CDATA tag first right square bracket (']')",
      "CDATA tag second right square bracket (']')", "CDATA tag right angle bracket ('>')");
    CDataComposes(s, i, c.text, n);
  }

  /** A CDATA section as written: the opening, then the text and its
      terminator. */
  lemma CDataLayout(s: string, i: nat, text: string, n: nat)
    requires n == i + |text| + 10 <= |s| && s[i..n] == "[CDATA[" + text + "]]>"
    ensures s[i..i + 7] == "[CDATA[" && s[i + 7..n] == text + [']', ']', '>']
  {
    var w := s[i..n];
    assert s[i..i + 7] == w[..7];
    assert s[i + 7..n] == w[7..];
  }

  /** The opening, then a body, make a CDATA section. */
  lemma CDataComposes(s: string, i: nat, text: string, n: nat)
    requires i + 7 <= |s| && ParseCDataOpening(s, i) == Success(i + 7)
    requires ParseSection(s, i + 7, ']', "CDATA tag first right square bracket (']')",
      "CDATA tag second right square bracket (']')", "CDATA tag right angle bracket ('>')") == Success(Parsed(text, n))
    ensures ParseCData(s, i) == Success(Parsed(XmlCData.CData(text), n))
  {
  }
}

=== FILE: strings.dfy ===
/** Small string helpers standing in for the library's string utilities. */
module XmlStrings {

  /** `s` written `n` times in a row. */
  function Repeat(s: string, n: nat): (r: string)
    ensures forall k :: 0 <= k < |r| ==> r[k] in s
  {
    if n == 0 then "" else Repeat(s, n - 1) + s
  }

  lemma {:induction false} RepeatLength(s: string, n: nat)
    ensures |Repeat(s, n)| == n * |s|
  {
    if n > 0 {
      RepeatLength(s, n - 1);
    }
  }

  /** Joins the non-empty parts of a description with one space between
      them, the way the parser builds its messages. */
  function Join(a: string, b: string): string
  {
    if a == "" then b else if b == "" then a else a + " " + b
  }

  /** `v` wrapped in double quotes, the form a plain declaration value takes
      when the library escapes and quotes it. */
  function Quote(v: string): (r: string)
    ensures |r| == |v| + 2 && r[0] == '"' && r[|r| - 1] == '"'
    ensures r[1..|r| - 1] == v
  {
    "\"" + v + "\""
  }

  /** Number of occurrences of `c` in `s`. */
  function Count(s: string, c: char): (n: nat)
    ensures n <= |s|
    ensures n == 0 <==> c !in s
  {
    if s == [] then 0 else (if s[0] == c then 1 else 0) + Count(s[1..], c)
  }

  /** Regrouping a concatenation. A lemma of its own because inside a
      larger proof the same step is much more expensive. */
  lemma AppendAssociates(a: string, b: string, c: string)
    ensures (a + b) + c == a + (b + c)
  {
  }
}

=== FILE: text.dfy ===
/** A run of character data inside an element. */
module XmlText {
  import opened XmlCharacters
  import opened XmlFormat

  /** The text and the whitespace flag it was created with. The flag is
      stored as given; equality ignores it. */
  datatype Text = Text(text: string, isWhitespace: bool)

  /** Creates a text node whose flag says whether every character is XML
      whitespace; the text must not be empty. */
  function Create(t: string): (r: Text)
    requires t != ""
    ensures r.text == t
    ensures r.isWhitespace <==> forall k :: 0 <= k < |t| ==> IsWhitespaceCharacter(t[k])
  {
    WhitespaceTextIsAll(t);
    CreateWithFlag(t, IsWhitespaceText(t))
  }

  /** Creates a text node with the flag exactly as the caller gives it. */
  function CreateWithFlag(t: string, isWhitespace: bool): (r: Text)
    requires t != ""
    ensures r.text == t && r.isWhitespace == isWhitespace
  {
    Text(t, isWhitespace)
  }

  /** Text is written verbatim, unescaped, in every format. */
  function Render(x: Text, f: Format): string {
    x.text
  }

  /** Two text nodes are equal when their texts are; the flag is ignored. */
  predicate Equal(a: Text, b: Text) {
    a.text == b.text
  }
}

=== FILE: wrappers.dfy ===
/** Failure-compatible result types shared by the tree model and the parser.

    The library distinguishes three kinds of failure: a parse error for
    malformed input, a not-found outcome for lookups, and contract failures
    (a violated precondition, or the cast failure `setSplit` can raise). */
module Wrappers {

  datatype Option<+T> = None | Some(value: T)

  /** The failure kinds the library reports. */
  datatype Error =
    | ParseError(message: string)
    | NotFound(message: string)
    | PreConditionFailure(message: string)
    | ClassCastFailure

  datatype Result<+T> = Success(value: T) | Failure(error: Error) {

    predicate IsFailure() {
      Failure?
    }

    function PropagateFailure<U>(): Result<U>
      requires Failure?
    {
      Failure(error)
    }

    function Extract(): T
      requires Success?
    {
      value
    }
  }

  /** A value produced by a grammar rule together with the cursor index just
      past the characters the rule consumed. */
  datatype Parsed<+T> = Parsed(value: T, next: nat)
}
